=== FILE: README.md ===
# FileBiggy, modelled in Dafny

FileBiggy is a small C# persistence library. A `BiggyContext` subclass
declares `BiggyList<T>` properties. A connection string such as
`provider=FileBiggy.Json.JsonStore`1;path=C:\db` says which store backs
them. Each store keeps one entity type, either in memory, in a
line-per-record JSON file, or as one BSON file per record. Records are
keyed by their single `[Identity]` property.

This project models the library's core as pure functions over immutable
state:

- **Identity resolution.** A record is a sequence of properties, each with
  an `isIdentity` flag (`Identity.GetKeyFromEntity`). There are two key
  fallbacks:
  - `StoreBase.GetKey` falls back to the hash code;
  - `FileStore.GetKey` falls back to a fresh surrogate, a counter standing
    in for `Guid.NewGuid`.
- **Three store snapshots, each modelled on its own**, since they do not
  share one class hierarchy:
  - `FileStore` is `Common/FileSystemStore.cs`: a dictionary plus a durable
    record file, where an append concatenates and a flush replaces.
  - `ListFileStore` is the older list-based `FileSystemStore.cs`.
  - `MemoryStore` is a list only.
- **Durable formats.**
  - `JsonStore` with `BiggyListSerializer` writes one line per record. It
    reads the file back by wrapping it as `"[" + text-with-NewLine-replaced-by-"," + "]"`.
  - `BsonStore` keeps a directory modelled as `map<file name, Record>`. The
    file name is the Guid key's canonical string plus `.bson`.
- **Façades.**
  - `BiggyList` is a list that mirrors an optional store.
  - `EntitySet` delegates to a store.
  - `Repository` refuses null items before it delegates.
- **Configuration.**
  - `BiggyContext` parses the connection string, checks the provider and
    registers one store per entity type.
  - `Factory` models `ContextBuilder` and `Builder`, which build the
    connection string that the context parses back.

Shared helpers:

- `Errors` holds `Result`, `Option` and `Done`. `Done` keeps a state
  change that happened before an exception.
- `Text` models the .NET string operations used: Split, Join, Trim,
  ToLowerInvariant and Replace.
- `Collections` models the `List<T>` and `Dictionary` operations used.
  `Values(m)` is a fixed but unspecified enumeration order of a
  dictionary's values.
- `Paths` models `Path.Combine` and `Path.GetFileName`.

Exceptions become `Err` values named after the exception's meaning.
Record equality as the source uses it (`List.Contains`, `IndexOf`,
`Remove`) is a parameter `eq`. Hash codes are a parameter `hash`. The JSON
codec is a parameter `Codec`.

## Model

| member | source | states |
|---|---|---|
| Identity.GetKeyFromEntity | src/FileBiggy/Common/IdentityHelper.cs:11-42 | a null record is rejected with ArgumentNull; the resolver throws IdentityAttributeMismatch exactly when two properties carry [Identity]; no marked property gives null; a single marked property gives that property's current value |
| Identity.Marked | src/FileBiggy/Common/IdentityHelper.cs:23-28 | the grouping of properties by attribute finds nothing exactly when no property is marked, two or more exactly when the marking is ambiguous, and just the one property when it is the sole identity |
| Identity.MarkedAgree | src/FileBiggy/Common/IdentityHelper.cs:23-27 | two property lists with the same markings that agree on the marked properties select the same marked properties |
| Identity.UnmarkedPropertiesIrrelevant | src/FileBiggy/Common/IdentityHelper.cs:23-41 | changing properties that are not marked [Identity] never changes the resolved key or error |
| Identity.Shape | src/FileBiggy/Common/IdentityHelper.cs:18 | a record's shape lists one declaration per property, in declaration order |
| StoreBase.NewBase | src/FileBiggy/Common/StoreBase.cs:11-16 | the store keeps the settings map exactly as given |
| StoreBase.DatabaseName | src/FileBiggy/Common/StoreBase.cs:18-25 | the name is the pluralised type name lower-cased character by character, so it is all lower case and equals the plural when that already is |
| StoreBase.GetKey | src/FileBiggy/Common/StoreBase.cs:27-31 | the declared identity value when it is not null, the boxed hash code when there is no identity or its value is null, and the ambiguity error passed on unchanged; the key is never null |
| StoreBase.AddAll | src/FileBiggy/Bson/BsonStore.cs:105-113 | adding records one by one under `StoreBase.GetKey` to a dictionary succeeds exactly when every key resolves, the keys are pairwise distinct and none is already present; the result then holds the old entries plus each record under its own key and nothing else |
| StoreBase.ToDictionary | src/FileBiggy/Json/JsonStore.cs:116-119 | ToDictionary(GetKey) succeeds exactly when every key resolves and no two records share a key; the dictionary then has one entry per record, each under its own key, and no other keys |
| StoreBase.AddAllAppend | src/FileBiggy/Bson/BsonStore.cs:105-113 | adding a concatenation is adding its first part, then its second, with the first error winning |
| StoreBase.ValuesKeyed | src/FileBiggy/Json/JsonStore.cs:62 | the enumerated values of a keyed dictionary are each listed under their own key, once, and every key is listed |
| StoreBase.ToDictionaryOfValues | src/FileBiggy/Json/JsonStore.cs:116-119 | indexing the values of a keyed dictionary rebuilds exactly that dictionary |
| FileStore.GetKey | src/FileBiggy/Common/FileSystemStore.cs:78-82 | the identity value when there is one, otherwise a fresh surrogate key that advances the counter; ambiguity throws IdentityAttributeMismatch |
| FileStore.Insert | src/FileBiggy/Common/FileSystemStore.cs:124 | Dictionary.Add under GetKey: when it succeeds the dictionary gains exactly one entry under a key it did not have, and its values gain the record; it fails with ambiguity or a duplicate key; surrogates stay below the counter |
| FileStore.InsertEach | src/FileBiggy/Common/FileSystemStore.cs:144-147 | the insertion loop inserts a prefix of the batch; it completes exactly when the whole batch went in; the dictionary's values grow by exactly that prefix |
| FileStore.InsertEachAccepts | src/FileBiggy/Common/FileSystemStore.cs:144-147 | the loop completes exactly when the batch is insertable: every key resolves, and no identity key repeats or is already present |
| FileStore.InsertOne | src/FileBiggy/Common/FileSystemStore.cs:122-124 | a one-record batch behaves as a single insertion |
| FileStore.Create | src/FileBiggy/Common/FileSystemStore.cs:19-56 | a missing "path" setting throws InvalidConnectionString; otherwise loading succeeds exactly when the file's records are insertable, giving one entry per record, a file equal to what was read, and a consistent store |
| FileStore.Find | src/FileBiggy/Common/FileSystemStore.cs:58-76 | the record stored under the key, and an ArgumentException exactly when the key is absent |
| FileStore.All | src/FileBiggy/Common/FileSystemStore.cs:84-95 | a list of exactly the dictionary's values, one per entry: there is a listing of the distinct keys, covering every key, whose i-th entry holds the list's i-th record, so equal records under different keys keep their multiplicity |
| FileStore.AsQueryable | src/FileBiggy/Common/FileSystemStore.cs:211-222 | a detached list of the dictionary's values, one per entry, listed under the distinct keys as for All |
| FileStore.Clear | src/FileBiggy/Common/FileSystemStore.cs:97-113 | an empty dictionary and an empty file, with settings and directory kept |
| FileStore.ClearIdempotent | src/FileBiggy/Common/FileSystemStore.cs:97-113 | clearing twice is clearing once |
| FileStore.Add | src/FileBiggy/Common/FileSystemStore.cs:115-130 | the record is appended to the file in every case; the insert succeeds exactly when its key resolves and is new, adding only that entry; on failure the dictionary is untouched |
| FileStore.AddRange | src/FileBiggy/Common/FileSystemStore.cs:132-154 | the whole batch is appended to the file first; the dictionary then holds the old values plus a prefix of the batch, all of it exactly when the batch is insertable |
| FileStore.InsertEachOutcome | src/FileBiggy/Common/FileSystemStore.cs:144-147 | after the loop, the dictionary's values are the old ones plus a prefix of the batch, a proper prefix when the loop throws |
| FileStore.AddRangeFailureDiverges | src/FileBiggy/Common/FileSystemStore.cs:137-147 | a batch that throws part-way leaves the file holding records the dictionary lacks |
| FileStore.Update | src/FileBiggy/Common/FileSystemStore.cs:156-177 | remove-then-add under the item's key: an identity item replaces or inserts the entry under its identity; a keyless one gains a fresh surrogate entry; the file becomes the dictionary's values; the item is returned; ambiguity throws and changes nothing |
| FileStore.Remove | src/FileBiggy/Common/FileSystemStore.cs:179-196 | the entry under the item's identity is dropped (nothing when it is absent or the item has none), every other entry is kept, and the file becomes the remaining values |
| FileStore.RemoveEachKey | src/FileBiggy/Common/FileSystemStore.cs:200-203 | the removal loop drops exactly the batch's identity keys when every key resolves, and never adds or alters an entry |
| FileStore.RemoveRange | src/FileBiggy/Common/FileSystemStore.cs:198-209 | it succeeds exactly when every key resolves; the batch's identity keys leave the dictionary, other entries are unchanged, and the file becomes the remaining values |
| FileStore.FindAfterAdd | src/FileBiggy/Common/FileSystemStore.cs:58-130 | after a successful Add of a record with an identity, Find by that identity returns the record |
| FileStore.OperationsKeepConsistency | src/FileBiggy/Common/FileSystemStore.cs:97-209 | every operation that completes keeps the file's records and the dictionary's values the same multiset |
| ListFileStore.Create | src/FileBiggy/FileSystemStore.cs:14-31 | a missing "dbpath" setting throws InvalidConnectionString; otherwise the list is not yet loaded and the settings and directory are kept |
| ListFileStore.Load | src/FileBiggy/FileSystemStore.cs:33-44 | the list becomes exactly the file's records, which are returned |
| ListFileStore.Clear | src/FileBiggy/FileSystemStore.cs:46-53 | list and file both empty |
| ListFileStore.Add | src/FileBiggy/FileSystemStore.cs:55-62 | the record is appended to the file, then to the list; an unloaded list throws after the file write |
| ListFileStore.AddRange | src/FileBiggy/FileSystemStore.cs:64-71 | the batch is appended to the file, then to the list, in order |
| ListFileStore.Update | src/FileBiggy/FileSystemStore.cs:75-99 | an item with no equal in the list throws InvalidOperation and changes nothing; otherwise it takes the first equal's place, the file is rewritten from the list, and the item is returned |
| ListFileStore.Remove | src/FileBiggy/FileSystemStore.cs:101-108 | the first equal record leaves the list (nothing when there is none) and the file is rewritten from the list |
| ListFileStore.RemoveRange | src/FileBiggy/FileSystemStore.cs:110-120 | one list removal per record, then one rewrite, and the file only loses records; over a list never loaded, a non-empty batch throws on its first removal and changes nothing, while an empty batch truncates the file before the flush of the null list throws |
| ListFileStore.AsQueryable | src/FileBiggy/FileSystemStore.cs:122-125 | the list, which equals the file once loaded; an unloaded list throws |
| ListFileStore.ReloadAgrees | src/FileBiggy/FileSystemStore.cs:33-125 | after every completed operation, loading the file gives the list, order included |
| ListFileStore.RemoveRangeIsRemoves | src/FileBiggy/FileSystemStore.cs:110-120 | a batch removal is one single removal followed by the removal of the rest |
| ListFileStore.RemoveUndoesAdd | src/FileBiggy/FileSystemStore.cs:55-108 | removing a record just added, with no equal before, restores list and file |
| MemoryStore.Create | src/FileBiggy/Memory/MemoryStore.cs:14-19 | an empty list, with the settings kept |
| MemoryStore.Add | src/FileBiggy/Memory/MemoryStore.cs:21-33 | the record goes to the end, with nothing else changed and no duplicate check |
| MemoryStore.Load | src/FileBiggy/Memory/MemoryStore.cs:35-46 | a copy equal to the list |
| MemoryStore.AddRange | src/FileBiggy/Memory/MemoryStore.cs:48-59 | the batch goes to the end, in order |
| MemoryStore.Clear | src/FileBiggy/Memory/MemoryStore.cs:61-72 | the list is empty |
| MemoryStore.Remove | src/FileBiggy/Memory/MemoryStore.cs:74-85 | only the first equal record is removed, the rest stays in order, and an absent record changes nothing |
| MemoryStore.RemoveRange | src/FileBiggy/Memory/MemoryStore.cs:87-102 | the list only loses records, and a batch with no equal in the list changes nothing |
| MemoryStore.Update | src/FileBiggy/Memory/MemoryStore.cs:104-125 | the item is always returned; an absent item changes nothing; otherwise it replaces the first equal at its index and every other position is kept |
| MemoryStore.AsQueryable | src/FileBiggy/Memory/MemoryStore.cs:127-140 | the same copy Load returns |
| MemoryStore.RemoveUndoesAdd | src/FileBiggy/Memory/MemoryStore.cs:21-85 | removing a record just added, with no equal before, restores the store |
| MemoryStore.AddRangeIsAdds | src/FileBiggy/Memory/MemoryStore.cs:21-59 | a batch add is a single add of its first record followed by adding the rest |
| MemoryStore.RemoveRangeAppend | src/FileBiggy/Memory/MemoryStore.cs:87-102 | removing a concatenation is removing its first part, then its second |
| MemoryStore.RemoveRangeOne | src/FileBiggy/Memory/MemoryStore.cs:74-102 | a one-record batch removal is a single removal |
| MemoryStore.UpdateIdempotent | src/FileBiggy/Memory/MemoryStore.cs:104-125 | updating twice with the same record is updating once |
| MemoryStore.UpdateStores | src/FileBiggy/Memory/MemoryStore.cs:104-125 | after Update the item is in the list exactly when it or an equal record was there before |
| MemoryStore.ClearIdempotent | src/FileBiggy/Memory/MemoryStore.cs:21-72 | clearing twice is clearing once, and Load after Add shows the record at the end |
| BiggyListSerializer.WriteJson | src/FileBiggy/Json/BiggyListSerializer.cs:21-34 | each record's text followed by NewLine, in list order; empty exactly for an empty list; with one-line records, one line break per record |
| BiggyListSerializer.WriteJsonAppend | src/FileBiggy/Json/BiggyListSerializer.cs:26-33 | writing a concatenation is writing its parts one after the other |
| BiggyListSerializer.WriteJsonOne | src/FileBiggy/Json/BiggyListSerializer.cs:26-33 | a one-record list is written as the record's serialization followed by NewLine |
| BiggyListSerializer.WriteJsonAt | src/FileBiggy/Json/BiggyListSerializer.cs:26-33 | the i-th record's serialization and its NewLine come right after the text of the records before it and right before the text of the records after it, so the text is every record's line in list order |
| BiggyListSerializer.CanConvert | src/FileBiggy/Json/BiggyListSerializer.cs:9-12 | always throws NotImplemented |
| BiggyListSerializer.ReadJson | src/FileBiggy/Json/BiggyListSerializer.cs:14-18 | always throws NotImplemented |
| JsonStore.DatabaseFilePath | src/FileBiggy/Json/JsonStore.cs:20-27 | the file is `<DatabaseName>.json` inside the database directory |
| JsonStore.LoadEnvelope | src/FileBiggy/Json/JsonStore.cs:32 | the text handed to the decoder is bracketed; an empty file gives `[]`; text without line breaks is only bracketed |
| JsonStore.Load | src/FileBiggy/Json/JsonStore.cs:29-34 | an empty file loads as the empty list |
| JsonStore.ReplaceWritten | src/FileBiggy/Json/JsonStore.cs:32 | replacing NewLine by "," in the text of one-line records gives each record's text followed by a comma |
| JsonStore.EnvelopeOfWritten | src/FileBiggy/Json/JsonStore.cs:32 | the envelope of written one-line records is `"[" + concat(text_i + ",") + "]"` |
| JsonStore.LoadWritten | src/FileBiggy/Json/JsonStore.cs:29-56 | a file written with a faithful codec loads back as exactly the records written, in order |
| JsonStore.Append | src/FileBiggy/Json/JsonStore.cs:47-56 | one line per record, in order, after the existing text |
| JsonStore.FlushToDisk | src/FileBiggy/Json/JsonStore.cs:36-45 | flushing a list writes the same text as appending it to an empty file |
| JsonStore.FaithfulOneLine | src/FileBiggy/Json/JsonStore.cs:51-53 | a faithful codec writes every record on one line |
| JsonStore.Snapshot | src/FileBiggy/Json/JsonStore.cs:62 | a rewrite from `Items` loads back as the dictionary's values |
| JsonStore.RemoveFileSystemItems | src/FileBiggy/Json/JsonStore.cs:58-64 | the file is rewritten from `Items` and loads back as its values |
| JsonStore.AddFileSystemItem | src/FileBiggy/Json/JsonStore.cs:66-72 | exactly one line is appended, holding the record |
| JsonStore.AddFileSystemItemsAsWritten | src/FileBiggy/Json/JsonStore.cs:74-80 | as written: the values of `Items` are appended, not the batch |
| JsonStore.AddFileSystemItems | src/FileBiggy/Json/JsonStore.cs:74-80 | as evidently intended: the batch is appended |
| JsonStore.ClearFileSystemItems | src/FileBiggy/Json/JsonStore.cs:82-88 | the file becomes empty and loads as the empty list |
| JsonStore.RemoveFileSystemItem | src/FileBiggy/Json/JsonStore.cs:90-97 | the file is rewritten from `Items` and loads back as its values |
| JsonStore.UpdateFileSystemItem | src/FileBiggy/Json/JsonStore.cs:99-106 | the file is rewritten from `Items` and loads back as its values |
| JsonStore.Initialize | src/FileBiggy/Json/JsonStore.cs:108-120 | a decoding error propagates; otherwise indexing by GetKey succeeds exactly when every key resolves and no key repeats, giving one entry per record, each under its own key |
| JsonStore.SnapshotReloads | src/FileBiggy/Json/JsonStore.cs:58-120 | a rewrite from a keyed `Items` initializes back to exactly that dictionary |
| JsonStore.ClearReloads | src/FileBiggy/Json/JsonStore.cs:82-120 | a cleared file initializes as the empty dictionary |
| JsonStore.AppendReloads | src/FileBiggy/Json/JsonStore.cs:74-120 | with the intended batch hook, appending a batch that the dictionary accepts reloads as the dictionary grown by the batch |
| JsonStore.AddReloads | src/FileBiggy/Json/JsonStore.cs:66-120 | appending one record with a new key reloads with exactly that entry added |
| JsonStore.AsWrittenBatchBreaksReload | src/FileBiggy/Json/JsonStore.cs:74-80 | with the batch hook as written, a file holding a record with a non-null identity, grown by any accepted batch, no longer initializes |
| BsonStore.GuidString | src/FileBiggy/Bson/BsonStore.cs:52 | Guid.ToString(): 36 characters with dashes at 8, 13, 18 and 23, the rest being the 32 hex digits of the Guid |
| BsonStore.GuidStringInjective | src/FileBiggy/Bson/BsonStore.cs:52 | different Guids give different strings |
| BsonStore.HexInjective | src/FileBiggy/Bson/BsonStore.cs:52 | fixed-width hex spelling is injective below 16^width |
| BsonStore.GuidName | src/FileBiggy/Bson/BsonStore.cs:52 | `<guid>.bson`, a bare file name of 41 characters |
| BsonStore.GuidNameInjective | src/FileBiggy/Bson/BsonStore.cs:52 | different Guids name different files |
| BsonStore.Create | src/FileBiggy/Bson/BsonStore.cs:18-30 | once the base constructor has run, the store is built exactly when the record type has a single Guid identity; a non-Guid identity throws InvalidIdentityType; a type with no identity throws NullReference on the missing property and one with two throws IdentityAttributeMismatch |
| BsonStore.FileName | src/FileBiggy/Bson/BsonStore.cs:52 | the `(Guid)` cast succeeds exactly when the key is a Guid, naming its file; a key error propagates |
| BsonStore.GuidIdentityNamesFile | src/FileBiggy/Bson/BsonStore.cs:18-52 | in a store that was built, every well-typed record of the same shape names a file |
| BsonStore.FilePath | src/FileBiggy/Bson/BsonStore.cs:50-53 | the record's file inside the database directory, ending in `.bson` |
| BsonStore.FilePathInjective | src/FileBiggy/Bson/BsonStore.cs:50-53 | records with different keys get different paths |
| BsonStore.UpdateFileSystemItem | src/FileBiggy/Bson/BsonStore.cs:92-100 | the record's own file is (over)written with it, and every other file is unchanged |
| BsonStore.AddFileSystemItem | src/FileBiggy/Bson/BsonStore.cs:63-66 | adding is updating |
| BsonStore.RemoveFileSystemItem | src/FileBiggy/Bson/BsonStore.cs:86-90 | only the record's own file is deleted, and deleting an absent file changes nothing |
| BsonStore.AddFileSystemItems | src/FileBiggy/Bson/BsonStore.cs:68-74 | succeeds exactly when every record names a file; then every named file exists; files no record names are unchanged and no other file appears |
| BsonStore.RemoveFileSystemItems | src/FileBiggy/Bson/BsonStore.cs:55-61 | succeeds exactly when every record names a file; then every named file is gone; files no record names are kept and nothing is written |
| BsonStore.ClearFileSystemItems | src/FileBiggy/Bson/BsonStore.cs:76-84 | every `*.bson` file is deleted and every other file is kept |
| BsonStore.Initialize | src/FileBiggy/Bson/BsonStore.cs:102-117 | one entry per `.bson` file, each holding a record read from the directory and keyed by GetKey |
| BsonStore.InitializeKeyed | src/FileBiggy/Bson/BsonStore.cs:102-117 | a directory whose files are named by their records' keys initializes, mapping each key to its file's record |
| BsonStore.InitializeDuplicate | src/FileBiggy/Bson/BsonStore.cs:112 | two `.bson` files holding records with the same key make Initialize throw |
| BsonStore.UpdateReloads | src/FileBiggy/Bson/BsonStore.cs:92-117 | after writing a record, Initialize maps its key to that record and keeps every other entry |
| BsonStore.RemoveReloads | src/FileBiggy/Bson/BsonStore.cs:86-117 | after deleting a record's file, Initialize drops only its key |
| BsonStore.ClearReloads | src/FileBiggy/Bson/BsonStore.cs:76-117 | after clearing, Initialize gives the empty dictionary |
| BsonStore.AddsReload | src/FileBiggy/Bson/BsonStore.cs:68-117 | after a batch add, Initialize maps each key to the last record written for it |
| BiggyList.Create | src/FileBiggy/BiggyList.cs:14-18 | the list is what the store loads, or empty without a store |
| BiggyList.AsQueryable | src/FileBiggy/BiggyList.cs:20-23 | the store's records; without a store it throws |
| BiggyList.Enumerate | src/FileBiggy/BiggyList.cs:25-28 | the list's own records, which are the store's |
| BiggyList.Count | src/FileBiggy/BiggyList.cs:44-47 | the length of the list, which is the store's record count |
| BiggyList.Clear | src/FileBiggy/BiggyList.cs:35-42 | the list is emptied and the store cleared when present |
| BiggyList.Update | src/FileBiggy/BiggyList.cs:49-73 | an item with no equal throws InvalidOperation and touches nothing; otherwise it takes the first equal's index, the store is updated, and the item is returned |
| BiggyList.Remove | src/FileBiggy/BiggyList.cs:75-83 | the first equal record leaves the list (nothing if absent), the store follows, and the argument is returned |
| BiggyList.RemoveRange | src/FileBiggy/BiggyList.cs:85-96 | one list removal per record, in order, then the store's batch removal |
| BiggyList.Add | src/FileBiggy/BiggyList.cs:98-106 | the store first; if it throws the list is unchanged; otherwise the record goes to the end and is returned |
| BiggyList.AddRange | src/FileBiggy/BiggyList.cs:108-116 | the store first, then the batch goes to the end in order |
| BiggyList.StoreLoad | src/FileBiggy/BiggyList.cs:17 | Load on either backing store returns the records it then holds |
| BiggyList.StoreUpdate | src/FileBiggy/BiggyList.cs:70 | either backing store puts an item that has an equal at that equal's index |
| BiggyList.ReopenAgrees | src/FileBiggy/BiggyList.cs:14-116 | a list built afresh over the store an operation left behind holds the same records as the list itself |
| BiggyList.RemoveUndoesAdd | src/FileBiggy/BiggyList.cs:75-106 | removing a record just added, with no equal before, restores the list |
| BiggyList.UnloadedStoreRejectsAdd | src/FileBiggy/BiggyList.cs:98-106 | a store that was never loaded throws from Add, and the list keeps its records; Create never builds such a list, since it always loads its store |
| EntitySet.Create | src/FileBiggy/EntitySet.cs:15-23 | a null store throws ArgumentNull; any other store is kept |
| EntitySet.AsQueryable | src/FileBiggy/EntitySet.cs:25-28 | the store's values, one per entry, listed under the store's distinct keys |
| EntitySet.Enumerate | src/FileBiggy/EntitySet.cs:30-33 | exactly the store's All(): its values, each once |
| EntitySet.Count | src/FileBiggy/EntitySet.cs:40-43 | the size of the store's snapshot, one per stored key |
| EntitySet.Clear | src/FileBiggy/EntitySet.cs:35-38 | the store is cleared and nothing else happens |
| EntitySet.Update | src/FileBiggy/EntitySet.cs:45-48 | returns exactly what the store's Update returns |
| EntitySet.Remove | src/FileBiggy/EntitySet.cs:50-53 | the store's Remove, unchanged |
| EntitySet.RemoveRange | src/FileBiggy/EntitySet.cs:55-58 | the store's batch Remove, unchanged |
| EntitySet.Add | src/FileBiggy/EntitySet.cs:60-63 | the store's Add, which grows the count by one when it succeeds |
| EntitySet.AddRange | src/FileBiggy/EntitySet.cs:65-68 | the store's batch Add, which grows the count by the batch size when it succeeds |
| EntitySet.AddThenEnumerate | src/FileBiggy/EntitySet.cs:30-63 | a record added through the set is enumerated afterwards |
| Repository.Guard | src/FileBiggy/IoC/Repository.cs:22-44 | a null item throws ArgumentNull; any other passes unchanged |
| Repository.GuardAll | src/FileBiggy/IoC/Repository.cs:125-128 | the batch passes exactly when no item is null, unchanged and in order |
| Repository.Add | src/FileBiggy/IoC/Repository.cs:132-136 | a null item throws before the set is touched; otherwise the set's Add |
| Repository.AddRange | src/FileBiggy/IoC/Repository.cs:138-146 | one null anywhere means nothing is added; otherwise the set's batch Add |
| Repository.Update | src/FileBiggy/IoC/Repository.cs:109-113 | a null item throws before the set is touched; otherwise the set's Update and its result |
| Repository.Remove | src/FileBiggy/IoC/Repository.cs:115-119 | a null item throws before the set is touched; otherwise the set's Remove |
| Repository.RemoveRange | src/FileBiggy/IoC/Repository.cs:121-130 | one null anywhere means nothing is removed; otherwise the set's batch Remove |
| Repository.Clear | src/FileBiggy/IoC/Repository.cs:99-102 | the set's Clear, with no check |
| Repository.Count | src/FileBiggy/IoC/Repository.cs:104-107 | the set's Count, with no check |
| Repository.AsQueryable | src/FileBiggy/IoC/Repository.cs:148-151 | with no check: NullReference without a set, otherwise the store's values, one per entry, listed under its distinct keys |
| Repository.NullInBatchChangesNothing | src/FileBiggy/IoC/Repository.cs:121-146 | a batch with a null anywhere is refused whole by both batch operations, leaving the repository as it was |
| Repository.GuardAllPasses | src/FileBiggy/IoC/Repository.cs:125-129 | non-null records are forwarded exactly as given |
| Repository.NullItemChangesNothing | src/FileBiggy/IoC/Repository.cs:109-136 | a null item never changes the repository through Add, Update or Remove |
| BiggyContext.ParseSegment | src/FileBiggy/BiggyContext.cs:33-34 | key and value come out trimmed; a segment without '=' gives key and value from the same text |
| BiggyContext.LastPartIsValue | src/FileBiggy/BiggyContext.cs:33-34 | "k=m=v" gives key k and value v: the middle is dropped |
| BiggyContext.PairSegment | src/FileBiggy/BiggyContext.cs:33-34 | "k=v" gives the lower-cased, trimmed key and the trimmed value |
| BiggyContext.Tabulate | src/FileBiggy/BiggyContext.cs:32-34 | ToDictionary succeeds exactly when the keys are distinct, holding each pair and no other key; a repeat throws DuplicateKey |
| BiggyContext.Segments | src/FileBiggy/BiggyContext.cs:31-33 | one parsed pair per ';'-separated segment |
| BiggyContext.Parse | src/FileBiggy/BiggyContext.cs:26-34 | an empty string throws ArgumentNull; otherwise parsing succeeds exactly when the normalised keys are distinct, the settings then map each segment's normalised key to its value and hold no other key, and every key and value is trimmed |
| BiggyContext.TabulateUntrimmed | src/FileBiggy/BiggyContext.cs:32-34 | settings built from trimmed pairs hold only trimmed keys and values |
| BiggyContext.Register | src/FileBiggy/BiggyContext.cs:52-82 | the property loop succeeds exactly when every property has one generic argument, every store can be built, and no entity type repeats; every IBiggy property's type is then registered with its store; a repeated type throws EntityType |
| BiggyContext.Open | src/FileBiggy/BiggyContext.cs:36-82 | a missing provider throws InvalidConnectionString; an unresolvable one throws InvalidProvider; otherwise the context keeps the settings and registers exactly the declared entity types |
| BiggyContext.Create | src/FileBiggy/BiggyContext.cs:24-83 | the constructor parses, then opens; a parse error comes first |
| BiggyContext.Set | src/FileBiggy/BiggyContext.cs:85-95 | the registered instance for the type, or null when it was never registered |
| BiggyContext.SetFindsDeclared | src/FileBiggy/BiggyContext.cs:52-95 | after construction, Set finds exactly the declared entity types, each holding the store built for it |
| BiggyContext.SecondRegistrationFails | src/FileBiggy/BiggyContext.cs:70-78 | two properties of the same entity type make construction throw EntityType |
| Factory.AddTuple | src/FileBiggy/Factory/ContextBuilder.cs:22 | Dictionary.Add: a present key throws; otherwise the tuple goes to the end and keys stay distinct |
| Factory.NewContextBuilder | src/FileBiggy/Factory/ContextBuilder.cs:12-15 | a fresh builder has no tuples |
| Factory.AsJsonDatabase | src/FileBiggy/Factory/ContextBuilder.cs:20-24 | provider = JsonStore's type name is added, failing when a provider is already set |
| Factory.AsBsonDatabase | src/FileBiggy/Factory/ContextBuilder.cs:26-30 | provider = BsonStore's type name is added, failing when a provider is already set |
| Factory.AsInMemoryDatabase | src/FileBiggy/Factory/ContextBuilder.cs:32-36 | provider = MemoryStore's type name is added, failing when a provider is already set |
| Factory.Segment | src/FileBiggy/Factory/Builder.cs:22 | "key=value", with '=' right after the key |
| Factory.Segments | src/FileBiggy/Factory/Builder.cs:18-24 | one segment per tuple, in order |
| Factory.Build | src/FileBiggy/Factory/Builder.cs:16-30 | no tuples give the empty string; one tuple gives its segment |
| Factory.BuildSeparators | src/FileBiggy/Factory/Builder.cs:26-28 | a built string has exactly one ';' fewer than it has tuples |
| Factory.SegmentParses | src/FileBiggy/Factory/Builder.cs:22 | parsing a built segment gives back its tuple |
| Factory.BuildSplits | src/FileBiggy/Factory/Builder.cs:18-28 | splitting a built string on ';' gives back its segments |
| Factory.BuildSegments | src/FileBiggy/Factory/Builder.cs:18-28 | the context's segment parser recovers the tuples |
| Factory.BuildParses | src/FileBiggy/Factory/Builder.cs:16-29 | round trip: the context parses a built string back into the builder's map, one entry per tuple |
| Factory.EmptyBuildRejected | src/FileBiggy/Factory/Builder.cs:26-29 | a builder with no tuples builds the empty string, which the context refuses |
| Factory.SecondProviderFails | src/FileBiggy/Factory/ContextBuilder.cs:20-36 | choosing a second provider on the same builder throws |
| Factory.ProviderTuplesSafe | src/FileBiggy/Factory/ContextBuilder.cs:22-34 | the provider tuples survive the round trip |
| Factory.SingleTupleParses | src/FileBiggy/Factory/Builder.cs:16-29 | a builder holding one safe tuple yields settings holding exactly that tuple |
| Factory.FreshBuilderProviders | src/FileBiggy/Factory/ContextBuilder.cs:12-36 | each provider call on a fresh builder records exactly its provider tuple, under the key the context looks for |
| Text.Split | src/FileBiggy/BiggyContext.cs:31 | String.Split on one character: at least one part, no part holds the separator, and a string without it is its own only part |
| Text.SplitJoin | src/FileBiggy/Factory/Builder.cs:26-28 | splitting a join of separator-free parts gives back the parts |
| Text.JoinSplit | src/FileBiggy/BiggyContext.cs:31 | joining the parts of a split gives back the string |
| Text.JoinCount | src/FileBiggy/Factory/Builder.cs:26-28 | joining separator-free parts puts exactly one separator fewer than there are parts |
| Text.Trim | src/FileBiggy/BiggyContext.cs:34 | the result is one contiguous part of the string with only white space before and after it, and it has no white space at either end, so only the white space at the ends is stripped; an already trimmed string is unchanged |
| Text.ToLowerInvariant | src/FileBiggy/BiggyContext.cs:34 | same length, each character lower-cased, nothing upper case left, and lower-case text unchanged |
| Text.Replace | src/FileBiggy/Json/JsonStore.cs:32 | String.Replace: text that does not contain the pattern's first character comes back unchanged |
| Collections.RemoveFirst | src/FileBiggy/Memory/MemoryStore.cs:79 | List.Remove: only the first equal element goes, the rest stays in order |
| Collections.RemoveFirstMultiset | src/FileBiggy/Memory/MemoryStore.cs:79 | List.Remove takes exactly one copy of the removed element out of the multiset |
| Collections.RemoveEach | src/FileBiggy/Memory/MemoryStore.cs:93-96 | one List.Remove per element in order; the list only loses elements |
| Collections.RemoveEachAppend | src/FileBiggy/Memory/MemoryStore.cs:93-96 | removing a concatenation is removing its parts in turn |
| Collections.ReplaceFirst | src/FileBiggy/Memory/MemoryStore.cs:117-118 | RemoveAt then Insert at the first equal's index: same length, the item at that index, and the rest unchanged |
| Collections.IndexOf | src/FileBiggy/Memory/MemoryStore.cs:110 | the first index of an equal element, or -1 when there is none |
| Collections.Values | src/FileBiggy/Common/FileSystemStore.cs:89 | the dictionary's values in its enumeration order: one value per entry |
| Collections.ValuesContents | src/FileBiggy/Common/FileSystemStore.cs:89 | a record is enumerated exactly when some key holds it |
| Collections.ValuesListed | src/FileBiggy/Common/FileSystemStore.cs:89 | the enumerated values are one per entry: they follow a listing of the distinct keys that covers every key |
| Paths.Combine | src/FileBiggy/Bson/BsonStore.cs:52 | Path.Combine: an empty second part yields the first; the result ends with the second part and, when that is relative, starts with the first |
| Paths.GetFileName | src/FileBiggy/Bson/BsonStore.cs:52 | everything after the last separator, which is a bare name |
| Paths.FileNameOfCombine | src/FileBiggy/Bson/BsonStore.cs:52 | the file name of a directory combined with a bare name is that name |
| Paths.CombineInjective | src/FileBiggy/Bson/BsonStore.cs:52 | different bare names in the same directory give different paths |

## Left out

- Locking (`ReaderWriterLockSlim`) and every `Task`-returning variant are left out. The model is the sequential behaviour. The async Repository methods apply the same guards as the synchronous ones modelled here. The unlocked batch remove in `Common/FileSystemStore.cs` is a race and is outside the model.
- JSON and BSON encoding are a parameter. A codec is assumed to write one line per record and to read back what it wrote. Only the framing around it is modelled. A BSON file that fails to decode is not modelled.
- Physical file system calls are left out. A JSON file is a string, the line-file stores' files are record sequences, and the BSON directory is a map from file name to record. `DirectoryUtilities` and `FileUtilities` are not part of this model, and neither is `System.IO.Path`. `Paths.Combine` states only the parts used here, with no invalid-character checks. `BsonStore.IsBsonName` is a case-sensitive suffix test, while the `*.bson` pattern of `Directory.EnumerateFiles` matches without regard to case on Windows; the store only writes lower-case names, so only files written by something else differ.
- Reflection and late binding are left out. A context's properties are an explicit list of slots. The provider lookup is a parameter `resolve`. Building a store is a parameter `make`, and the wrapping of its exceptions by `Activator` is not modelled. `GetKeyFromEntityType` is modelled by the shape of a prototype record.
- StoreBase.DatabaseName: the Inflector pluralisation is a parameter. The source lower-cases with the culture-sensitive `ToLower()`, so under a Turkish culture `I` becomes a dotless `ı`; the model uses the invariant ASCII rule of `Text.ToLowerInvariant`.
- Text.ToLowerInvariant: only ASCII letters are folded. Other cases are left unmodelled.
- Text.Trim: the white-space set is the Latin-1 subset of `Char.IsWhiteSpace`.
- Text.Replace: an empty pattern, which throws in .NET, is not a case the library reaches. The contract states only that text without the pattern's first character is unchanged; what replacing NewLine does to written records is stated by `JsonStore.ReplaceWritten`.
- `Guid.NewGuid` is a counter that yields surrogate keys never used before. Hash codes are a parameter.
- StoreBase.GetKey: `hash` is a function of a record's contents, while the default `GetHashCode` is per instance. Two keyless records with equal contents therefore share a key in the model where two separate objects need not. `JsonStore.AsWrittenBatchBreaksReload` is stated only for a record with an identity, so it does not rest on this.
- The base class that declares the `Items`, `Initialize` and `*FileSystemItem(s)` hooks is not in the repository. The JSON and BSON hooks are functions of `Items` and the durable state they act on. The base class's adding of records into `Items` is taken to be `StoreBase.AddAll`: one `Dictionary.Add` per record under `StoreBase.GetKey`, the loop `Initialize` itself uses. `JsonStore.AppendReloads`, `JsonStore.AddReloads` and `JsonStore.AsWrittenBatchBreaksReload` rest on this.
- Reference equality and `Equals` are not told apart. Lists compare records through a parameter `eq`. `BiggyList.Update`'s `ReferenceEquals` shortcut gives the same list as the replacement, so it is not modelled separately.
- `EntitySet` is modelled over the dictionary-and-file store only. Its behaviour over the others is pure delegation.
- Null items handed directly to a store, rather than through `Repository`, are not modelled. A null batch is not modelled either.
- `BiggyContext`'s `Tests` property and its `Obj` class are left out. `Set<T>()`'s cast of the stored instance to `IBiggy<T>` is treated as succeeding.
- Factory.Build: a `Dictionary` that is only ever added to enumerates in insertion order. This is relied on, not proved.
- ListFileStore.RemoveRange: `FlushToDisk` is abstract in `FileSystemStore.cs` and no store in the repository implements it. For a list never loaded, the model takes it that flushing the null list throws NullReference and writes nothing, as the list serializer's loop would.
- JsonStore.Load: only the empty file is stated directly. A written file is covered by `JsonStore.LoadWritten`.
- BiggyList.StoreClear, BiggyList.StoreAdd, BiggyList.StoreAddRange, BiggyList.StoreRemove and BiggyList.StoreRemoveRange are dispatch helpers. Their contracts hold only over a loaded store.

## Findings

| source | as written | input that shows it | evidently intended | confidence | as-written member | corrected member |
|---|---|---|---|---|---|---|
| src/FileBiggy/Json/JsonStore.cs:74-80 | the batch add hook appends `Items.Select(_ => _.Value)`, every record already held, and ignores its argument | a file holding one record `a` whose identity is 1; adding a batch `[b]` whose identity is 2 makes `Items` hold `a` and `b`, and the hook appends both, so the file holds `a` twice and the next Initialize fails on the duplicate key | append the batch `item` that was passed | not executed | JsonStore.AsWrittenBatchBreaksReload | JsonStore.AppendReloads |

=== FILE: BiggyContext.dfy ===
/** BiggyContext: parses the connection string into a settings map, checks
    the provider, and registers one store-backed collection per entity
    type declared on the context. Reflection over the context's properties
    becomes an explicit list of slots, the provider lookup a predicate, and
    store construction a function that may fail. */
module BiggyContext {
  import opened Errors
  import Text

  /** The setting that names the store type. */
  const ProviderIdentifier: string := "provider"

  /** ConnectionStringConstants.TupleSeperator and SegmentSeperator. */
  const TupleSeparator: char := ';'
  const SegmentSeparator: char := '='

  type Settings = map<string, string>

  /** One segment split on '=': the key is the first part lower-cased and
      trimmed, the value is the last part trimmed. */
  function ParseSegment(segment: string): (kv: (string, string))
    ensures Text.Untrimmed(kv.0) && Text.Untrimmed(kv.1)
    ensures SegmentSeparator !in segment ==>
              kv == (Text.Trim(Text.ToLowerInvariant(segment)), Text.Trim(segment))
  {
    var parts := Text.Split(segment, SegmentSeparator);
    (Text.Trim(Text.ToLowerInvariant(parts[0])), Text.Trim(parts[|parts| - 1]))
  }

  /** No two pairs share a key. */
  ghost predicate DistinctKeys(pairs: seq<(string, string)>) {
    forall i, j :: 0 <= i < j < |pairs| ==> pairs[i].0 != pairs[j].0
  }

  /** Enumerable.ToDictionary over key/value pairs: a repeated key throws. */
  function Tabulate(pairs: seq<(string, string)>): (r: Result<Settings>)
    ensures r.Ok? <==> DistinctKeys(pairs)
    ensures r.Err? ==> r.error == DuplicateKey
    ensures r.Ok? ==> Tabulates(pairs, r.value)
    decreases |pairs|
  {
    if |pairs| == 0 then Ok(map[])
    else
      var init := pairs[..|pairs| - 1];
      var last := pairs[|pairs| - 1];
      DistinctSnoc(pairs);
      match Tabulate(init)
      case Err(e) => Err(e)
      case Ok(m) =>
        TabulateSnoc(pairs, m);
        if last.0 in m then Err(DuplicateKey) else Ok(m[last.0 := last.1])
  }

  /** The settings of all the pairs but the last, with the last pair added. */
  ghost predicate Tabulates(pairs: seq<(string, string)>, m: Settings) {
    && |m| == |pairs|
    && (forall i :: 0 <= i < |pairs| ==> pairs[i].0 in m && m[pairs[i].0] == pairs[i].1)
    && (forall k :: k in m ==> exists i :: 0 <= i < |pairs| && pairs[i].0 == k)
  }

  /** One step of the tabulation: the last pair is a duplicate exactly when
      its key is already in the settings of the others, and otherwise adding
      it tabulates all the pairs. */
  lemma TabulateSnoc(pairs: seq<(string, string)>, m: Settings)
    requires |pairs| > 0 && Tabulates(pairs[..|pairs| - 1], m)
    ensures var init, last := pairs[..|pairs| - 1], pairs[|pairs| - 1];
            && (last.0 in m <==> exists i :: 0 <= i < |init| && init[i].0 == last.0)
            && (last.0 !in m ==> Tabulates(pairs, m[last.0 := last.1]))
  {
    var init, last := pairs[..|pairs| - 1], pairs[|pairs| - 1];
    assert forall i :: 0 <= i < |init| ==> init[i] == pairs[i];
    if last.0 !in m {
      var r := m[last.0 := last.1];
      forall k | k in r ensures exists i :: 0 <= i < |pairs| && pairs[i].0 == k {
        if k == last.0 {
          assert pairs[|pairs| - 1].0 == k;
        } else {
          var i :| 0 <= i < |init| && init[i].0 == k;
          assert pairs[i].0 == k;
        }
      }
    }
  }

  /** A sequence of pairs has distinct keys exactly when all but its last
      pair do and the last key is new. */
  lemma DistinctSnoc(pairs: seq<(string, string)>)
    requires |pairs| > 0
    ensures var init := pairs[..|pairs| - 1];
            DistinctKeys(pairs) <==>
              DistinctKeys(init) && forall i :: 0 <= i < |init| ==> init[i].0 != pairs[|pairs| - 1].0
  {
    var init := pairs[..|pairs| - 1];
    assert forall i :: 0 <= i < |init| ==> init[i] == pairs[i];
  }

  /** The segments of a connection string, parsed. */
  function Segments(connectionString: string): (pairs: seq<(string, string)>)
    ensures |pairs| == |Text.Split(connectionString, TupleSeparator)|
    ensures forall i :: 0 <= i < |pairs| ==>
              pairs[i] == ParseSegment(Text.Split(connectionString, TupleSeparator)[i])
  {
    var segments := Text.Split(connectionString, TupleSeparator);
    seq(|segments|, i requires 0 <= i < |segments| => ParseSegment(segments[i]))
  }

  /** The constructor's first half: an empty string throws, then the string
      is split on ';' and '=' into a settings map. */
  function Parse(connectionString: string): (r: Result<Settings>)
    ensures connectionString == [] ==> r == Err(ArgumentNull)
    ensures connectionString != [] ==> (r.Ok? <==> DistinctKeys(Segments(connectionString)))
    ensures connectionString != [] && r.Err? ==> r.error == DuplicateKey
    ensures connectionString != [] && r.Ok? ==> Tabulates(Segments(connectionString), r.value)
    ensures r.Ok? ==> forall k :: k in r.value ==> Text.Untrimmed(k) && Text.Untrimmed(r.value[k])
  {
    if connectionString == [] then Err(ArgumentNull)
    else
      var pairs := Segments(connectionString);
      TabulateUntrimmed(pairs);
      Tabulate(pairs)
  }

  /** Settings tabulated from trimmed pairs hold only trimmed keys and values. */
  lemma TabulateUntrimmed(pairs: seq<(string, string)>)
    requires forall i :: 0 <= i < |pairs| ==> Text.Untrimmed(pairs[i].0) && Text.Untrimmed(pairs[i].1)
    ensures Tabulate(pairs).Ok? ==>
              forall k :: k in Tabulate(pairs).value ==> Text.Untrimmed(k) && Text.Untrimmed(Tabulate(pairs).value[k])
  {
    var r := Tabulate(pairs);
    if r.Ok? {
      forall k | k in r.value ensures Text.Untrimmed(k) && Text.Untrimmed(r.value[k]) {
        var i :| 0 <= i < |pairs| && pairs[i].0 == k;
      }
    }
  }

  /** "k=m=v" yields the first part as key and the last as value: the
      middle part is dropped. */
  lemma LastPartIsValue(k: string, m: string, v: string)
    requires SegmentSeparator !in k && SegmentSeparator !in m && SegmentSeparator !in v
    ensures ParseSegment(k + [SegmentSeparator] + m + [SegmentSeparator] + v) ==
              (Text.Trim(Text.ToLowerInvariant(k)), Text.Trim(v))
  {
    var parts := [k, m, v];
    Text.SplitJoin(parts, SegmentSeparator);
    assert Text.Join(parts[2..], SegmentSeparator) == v;
    assert Text.Join(parts[1..], SegmentSeparator) == m + [SegmentSeparator] + v;
    assert Text.Join(parts, SegmentSeparator) == k + [SegmentSeparator] + m + [SegmentSeparator] + v;
  }

  /** "k=v" with '='-free parts yields the normalised key and the trimmed
      value. */
  lemma PairSegment(k: string, v: string)
    requires SegmentSeparator !in k && SegmentSeparator !in v
    ensures ParseSegment(k + [SegmentSeparator] + v) == (Text.Trim(Text.ToLowerInvariant(k)), Text.Trim(v))
  {
    var parts := [k, v];
    Text.SplitJoin(parts, SegmentSeparator);
    assert Text.Join(parts[1..], SegmentSeparator) == v;
  }

  /** A public property of the context: its type's generic arguments, and
      whether that type is an IBiggy<T> of its argument. */
  datatype Slot = Slot(typeArguments: seq<string>, isBiggy: bool)

  /** The property's entity type, when GenericTypeArguments.Single() gives one. */
  predicate SingleArgument(slot: Slot) {
    |slot.typeArguments| == 1
  }

  /** The property gets a store: one generic argument and an IBiggy type. */
  predicate Registers(slot: Slot) {
    SingleArgument(slot) && slot.isBiggy
  }

  function EntityOf(slot: Slot): string
    requires SingleArgument(slot)
  {
    slot.typeArguments[0]
  }

  /** Registration succeeds exactly when every slot has one generic
      argument, every store it asks for can be built, and no entity type is
      registered twice (nor was already present). */
  ghost predicate Registrable<S>(present: set<string>, slots: seq<Slot>, settings: Settings,
                                 make: (string, Settings) -> Result<S>) {
    && (forall i :: 0 <= i < |slots| ==> SingleArgument(slots[i]))
    && (forall i :: 0 <= i < |slots| && Registers(slots[i]) ==>
          make(EntityOf(slots[i]), settings).Ok? && EntityOf(slots[i]) !in present)
    && (forall i, j :: 0 <= i < j < |slots| && Registers(slots[i]) && Registers(slots[j]) ==>
          EntityOf(slots[i]) != EntityOf(slots[j]))
  }

  /** Every slot has one generic argument and every store it asks for can
      be built: only a repeated entity type can then stop registration. */
  ghost predicate Buildable<S>(slots: seq<Slot>, settings: Settings, make: (string, Settings) -> Result<S>) {
    && (forall i :: 0 <= i < |slots| ==> SingleArgument(slots[i]))
    && (forall i :: 0 <= i < |slots| && Registers(slots[i]) ==> make(EntityOf(slots[i]), settings).Ok?)
  }

  /** The entity types the slots register. */
  ghost function Entities(slots: seq<Slot>): set<string> {
    set i | 0 <= i < |slots| && Registers(slots[i]) :: EntityOf(slots[i])
  }

  /** The property loop: for each slot, Single() on the generic arguments
      (InvalidOperationException unless exactly one), then for an IBiggy
      property the store and the collection are built and added to the
      registry, where an entity type seen before throws EntityTypeException. */
  function Register<S>(acc: map<string, S>, slots: seq<Slot>, settings: Settings,
                       make: (string, Settings) -> Result<S>): (r: Result<map<string, S>>)
    ensures r.Ok? <==> Registrable(acc.Keys, slots, settings, make)
    ensures r.Ok? ==> Registered(acc, slots, settings, make, r.value)
    ensures r.Err? && Buildable(slots, settings, make) ==> r.error == EntityType
    decreases |slots|
  {
    if |slots| == 0 then
      assert Entities(slots) == {};
      Ok(acc)
    else
      var slot := slots[0];
      RegisterHeadFails(acc.Keys, slots, settings, make);
      if !SingleArgument(slot) then Err(InvalidOperation)
      else if !slot.isBiggy then
        var r := Register(acc, slots[1..], settings, make);
        RegisterStep(acc.Keys, slots, settings, make);
        BuildableTail(slots, settings, make);
        if r.Ok? then RegisteredCons(acc, acc, slots, settings, make, r.value); r else r
      else
        match make(EntityOf(slot), settings)
        case Err(e) => Err(e)
        case Ok(store) =>
          if EntityOf(slot) in acc then Err(EntityType)
          else
            var acc' := acc[EntityOf(slot) := store];
            var r := Register(acc', slots[1..], settings, make);
            RegisterStep(acc.Keys, slots, settings, make);
            BuildableTail(slots, settings, make);
            if r.Ok? then RegisteredCons(acc, acc', slots, settings, make, r.value); r else r
  }

  /** The ways the first slot alone stops registration. */
  lemma RegisterHeadFails<S>(present: set<string>, slots: seq<Slot>, settings: Settings,
                             make: (string, Settings) -> Result<S>)
    requires |slots| > 0
    ensures !SingleArgument(slots[0]) ==>
              !Registrable(present, slots, settings, make) && !Buildable(slots, settings, make)
    ensures Registers(slots[0]) && make(EntityOf(slots[0]), settings).Err? ==>
              !Registrable(present, slots, settings, make) && !Buildable(slots, settings, make)
    ensures Registers(slots[0]) && EntityOf(slots[0]) in present ==>
              !Registrable(present, slots, settings, make)
  {
  }

  /** The slots after the first are buildable when all of them are. */
  lemma BuildableTail<S>(slots: seq<Slot>, settings: Settings, make: (string, Settings) -> Result<S>)
    requires |slots| > 0
    ensures Buildable(slots, settings, make) ==> Buildable(slots[1..], settings, make)
  {
    var t := slots[1..];
    assert forall i :: 0 <= i < |t| ==> t[i] == slots[i + 1];
  }

  /** `m` is `acc` with the store built for every registering slot added
      under its entity type. */
  ghost predicate Registered<S>(acc: map<string, S>, slots: seq<Slot>, settings: Settings,
                                make: (string, Settings) -> Result<S>, m: map<string, S>) {
    && m.Keys == acc.Keys + Entities(slots)
    && (forall k :: k in acc ==> k in m && m[k] == acc[k])
    && (forall i :: 0 <= i < |slots| && Registers(slots[i]) ==>
          && EntityOf(slots[i]) in m && make(EntityOf(slots[i]), settings).Ok?
          && m[EntityOf(slots[i])] == make(EntityOf(slots[i]), settings).value)
  }

  /** Registering the first slot into `acc`, giving `acc'`, and then the
      rest, registers all the slots into `acc`. */
  lemma RegisteredCons<S>(acc: map<string, S>, acc': map<string, S>, slots: seq<Slot>, settings: Settings,
                          make: (string, Settings) -> Result<S>, m: map<string, S>)
    requires |slots| > 0 && SingleArgument(slots[0])
    requires !Registers(slots[0]) ==> acc' == acc
    requires Registers(slots[0]) ==>
               && make(EntityOf(slots[0]), settings).Ok? && EntityOf(slots[0]) !in acc
               && acc' == acc[EntityOf(slots[0]) := make(EntityOf(slots[0]), settings).value]
    requires Entities(slots) == (if Registers(slots[0]) then {EntityOf(slots[0])} else {}) + Entities(slots[1..])
    requires Registered(acc', slots[1..], settings, make, m)
    ensures Registered(acc, slots, settings, make, m)
  {
    var t := slots[1..];
    forall i | 0 <= i < |slots| && Registers(slots[i])
      ensures && EntityOf(slots[i]) in m && make(EntityOf(slots[i]), settings).Ok?
              && m[EntityOf(slots[i])] == make(EntityOf(slots[i]), settings).value
    {
      if i > 0 { assert slots[i] == t[i - 1]; }
    }
  }

  /** How registrability and the registered types of `slots` follow from
      those of its tail, once the first slot has been handled. */
  lemma RegisterStep<S>(present: set<string>, slots: seq<Slot>, settings: Settings,
                        make: (string, Settings) -> Result<S>)
    requires |slots| > 0 && SingleArgument(slots[0])
    requires Registers(slots[0]) ==> make(EntityOf(slots[0]), settings).Ok? && EntityOf(slots[0]) !in present
    ensures var added := if Registers(slots[0]) then {EntityOf(slots[0])} else {};
            && (Registrable(present, slots, settings, make) <==>
                Registrable(present + added, slots[1..], settings, make))
            && Entities(slots) == added + Entities(slots[1..])
  {
    var t := slots[1..];
    var added := if Registers(slots[0]) then {EntityOf(slots[0])} else {};
    assert forall i :: 0 <= i < |t| ==> t[i] == slots[i + 1];
    if Registrable(present + added, t, settings, make) {
      forall i, j | 0 <= i < j < |slots| && Registers(slots[i]) && Registers(slots[j])
        ensures EntityOf(slots[i]) != EntityOf(slots[j])
      {
        if i == 0 {
          assert EntityOf(t[j - 1]) !in present + added;
        } else {
          assert EntityOf(t[i - 1]) != EntityOf(t[j - 1]);
        }
      }
      forall i | 0 <= i < |slots| && Registers(slots[i])
        ensures make(EntityOf(slots[i]), settings).Ok? && EntityOf(slots[i]) !in present
      {
        if i > 0 { assert Registers(t[i - 1]); }
      }
      forall i | 0 <= i < |slots| ensures SingleArgument(slots[i]) {
        if i > 0 { assert SingleArgument(t[i - 1]); }
      }
    }
    if Registrable(present, slots, settings, make) {
      forall i | 0 <= i < |t| && Registers(t[i])
        ensures EntityOf(t[i]) !in present + added
      {
        assert Registers(slots[i + 1]);
        if Registers(slots[0]) {
          assert EntityOf(slots[0]) != EntityOf(slots[i + 1]);
        }
      }
    }
    forall k | k in Entities(slots) ensures k in added + Entities(t) {
      var i :| 0 <= i < |slots| && Registers(slots[i]) && EntityOf(slots[i]) == k;
      if i > 0 { assert Registers(t[i - 1]) && EntityOf(t[i - 1]) == k; }
    }
    forall k | k in Entities(t) ensures k in Entities(slots) {
      var i :| 0 <= i < |t| && Registers(t[i]) && EntityOf(t[i]) == k;
      assert Registers(slots[i + 1]);
    }
  }

  /** The context: its settings, its provider name and the registry from
      entity type to the collection built for it. */
  datatype Context<S> = Context(settings: Settings, provider: string, stores: map<string, S>)

  /** The constructor once the settings are parsed. `resolve` says whether
      the provider names a type in a loaded assembly; `make` builds the
      collection over a new store of that type for one entity type. */
  function Open<S>(settings: Settings, resolve: string -> bool, slots: seq<Slot>,
                   make: (string, Settings) -> Result<S>): (r: Result<Context<S>>)
    ensures ProviderIdentifier !in settings ==> r == Err(InvalidConnectionString)
    ensures ProviderIdentifier in settings && !resolve(settings[ProviderIdentifier]) ==> r == Err(InvalidProvider)
    ensures r.Ok? <==> ProviderIdentifier in settings && resolve(settings[ProviderIdentifier]) &&
                       Registrable({}, slots, settings, make)
    ensures r.Ok? ==> r.value.settings == settings && r.value.provider == settings[ProviderIdentifier]
    ensures r.Ok? ==> r.value.stores.Keys == Entities(slots)
    ensures r.Ok? ==> forall i :: 0 <= i < |slots| && Registers(slots[i]) ==>
              r.value.stores[EntityOf(slots[i])] == make(EntityOf(slots[i]), settings).value
    ensures (r.Err? && ProviderIdentifier in settings && resolve(settings[ProviderIdentifier]) &&
             Buildable(slots, settings, make)) ==> r.error == EntityType
  {
    if ProviderIdentifier !in settings then Err(InvalidConnectionString)
    else
      var provider := settings[ProviderIdentifier];
      if !resolve(provider) then Err(InvalidProvider)
      else
        var stores :- Register(map[], slots, settings, make);
        Ok(Context(settings, provider, stores))
  }

  /** The constructor: the connection string is parsed, then the context
      is opened over the settings. */
  function Create<S>(connectionString: string, resolve: string -> bool, slots: seq<Slot>,
                     make: (string, Settings) -> Result<S>): (r: Result<Context<S>>)
    ensures connectionString == [] ==> r == Err(ArgumentNull)
    ensures Parse(connectionString).Err? ==> r == Err(Parse(connectionString).error)
    ensures Parse(connectionString).Ok? ==> r == Open(Parse(connectionString).value, resolve, slots, make)
  {
    var settings :- Parse(connectionString);
    Open(settings, resolve, slots, make)
  }

  /** Set(Type): the collection registered for the type, or null. */
  function Set<S>(c: Context<S>, entityType: string): (r: Option<S>)
    ensures r.Some? <==> entityType in c.stores
    ensures r.Some? ==> r.value == c.stores[entityType]
  {
    if entityType in c.stores then Some(c.stores[entityType]) else None
  }

  /** After construction, Set finds exactly the declared entity types, each
      with the collection built for it, and nothing else. */
  lemma SetFindsDeclared<S>(settings: Settings, resolve: string -> bool, slots: seq<Slot>,
                            make: (string, Settings) -> Result<S>, entityType: string)
    requires Open(settings, resolve, slots, make).Ok?
    ensures var c := Open(settings, resolve, slots, make).value;
            Set(c, entityType).Some? <==>
              exists i :: 0 <= i < |slots| && Registers(slots[i]) && EntityOf(slots[i]) == entityType
    ensures var c := Open(settings, resolve, slots, make).value;
            forall i :: 0 <= i < |slots| && Registers(slots[i]) && EntityOf(slots[i]) == entityType ==>
              Set(c, entityType) == Some(make(entityType, settings).value)
  {
  }

  /** Two slots for the same entity type make construction throw
      EntityTypeException once everything else would succeed. */
  lemma SecondRegistrationFails<S>(settings: Settings, resolve: string -> bool, slots: seq<Slot>,
                                   make: (string, Settings) -> Result<S>, i: nat, j: nat)
    requires ProviderIdentifier in settings && resolve(settings[ProviderIdentifier])
    requires Buildable(slots, settings, make)
    requires i < j < |slots| && Registers(slots[i]) && Registers(slots[j])
    requires EntityOf(slots[i]) == EntityOf(slots[j])
    ensures Open(settings, resolve, slots, make) == Err(EntityType)
  {
    assert !Registrable({}, slots, settings, make);
  }
}

=== FILE: BiggyList.dfy ===
/** BiggyList<T>: an in-memory list kept in step with an optional store.
    The store is one of the two that provide Load(): the MemoryStore or
    the list-based FileSystemStore. Records are compared with `eq`, the
    record type's Equals. */
module BiggyList {
  import opened Errors
  import opened Collections
  import M = MemoryStore
  import L = ListFileStore

  /** The store behind a list. */
  datatype Backing<T> = Memory(m: M.Store<T>) | ListFile(f: L.Store<T>)

  datatype List<T> = List(items: seq<T>, store: Option<Backing<T>>)

  /** The records a store holds when it is in a usable state: the memory
      store's list, or the file store's list when it is loaded and its
      file agrees with it. */
  ghost function Contents<T>(b: Backing<T>): Option<seq<T>> {
    match b
    case Memory(m) => Some(m.items)
    case ListFile(f) => if L.Synced(f) then Some(f.file) else None
  }

  /** The mirror invariant: without a store there is nothing to mirror;
      with one, the store holds exactly the list, in order. */
  ghost predicate Mirrors<T>(l: List<T>) {
    l.store.None? || Contents(l.store.value) == Some(l.items)
  }

  /** IBiggyStore.Load on the backing store. */
  function StoreLoad<T>(b: Backing<T>): (r: Done<Backing<T>, seq<T>>)
    ensures r.result.Ok? && Contents(r.state) == Some(r.result.value)
  {
    match b
    case Memory(m) => Done(b, Ok(M.Load(m)))
    case ListFile(f) =>
      var d := L.Load(f);
      Done(ListFile(d.state), d.result)
  }

  function StoreClear<T>(b: Backing<T>): (r: Backing<T>)
    ensures Contents(r) == Some([])
  {
    match b
    case Memory(m) => Memory(M.Clear(m))
    case ListFile(f) => ListFile(L.Clear(f))
  }

  function StoreAdd<T>(b: Backing<T>, item: T): (r: Done<Backing<T>, ()>)
    ensures Contents(b).Some? ==> r.result.Ok? && Contents(r.state) == Some(Contents(b).value + [item])
  {
    match b
    case Memory(m) => Done(Memory(M.Add(m, item)), Ok(()))
    case ListFile(f) =>
      var d := L.Add(f, item);
      Done(ListFile(d.state), d.result)
  }

  function StoreAddRange<T>(b: Backing<T>, items: seq<T>): (r: Done<Backing<T>, ()>)
    ensures Contents(b).Some? ==> r.result.Ok? && Contents(r.state) == Some(Contents(b).value + items)
  {
    match b
    case Memory(m) => Done(Memory(M.AddRange(m, items)), Ok(()))
    case ListFile(f) =>
      var d := L.AddRange(f, items);
      Done(ListFile(d.state), d.result)
  }

  function StoreUpdate<T>(b: Backing<T>, item: T, eq: (T, T) -> bool): (r: Done<Backing<T>, T>)
    ensures Contents(b).Some? && Contains(Contents(b).value, item, eq) ==>
              r.result == Ok(item) && Contents(r.state) == Some(ReplaceFirst(Contents(b).value, item, eq))
  {
    match b
    case Memory(m) =>
      var d := M.Update(m, item, eq);
      Done(Memory(d.state), d.result)
    case ListFile(f) =>
      var d := L.Update(f, item, eq);
      Done(ListFile(d.state), d.result)
  }

  function StoreRemove<T>(b: Backing<T>, item: T, eq: (T, T) -> bool): (r: Done<Backing<T>, ()>)
    ensures Contents(b).Some? ==>
              r.result.Ok? && Contents(r.state) == Some(RemoveFirst(Contents(b).value, item, eq))
  {
    match b
    case Memory(m) => Done(Memory(M.Remove(m, item, eq)), Ok(()))
    case ListFile(f) =>
      var d := L.Remove(f, item, eq);
      Done(ListFile(d.state), d.result)
  }

  function StoreRemoveRange<T>(b: Backing<T>, items: seq<T>, eq: (T, T) -> bool): (r: Done<Backing<T>, ()>)
    ensures Contents(b).Some? ==>
              r.result.Ok? && Contents(r.state) == Some(RemoveEach(Contents(b).value, items, eq))
  {
    match b
    case Memory(m) => Done(Memory(M.RemoveRange(m, items, eq)), Ok(()))
    case ListFile(f) =>
      var d := L.RemoveRange(f, items, eq);
      Done(ListFile(d.state), d.result)
  }

  /** The constructor: the list starts as what the store loads, or empty
      without a store. */
  function Create<T>(store: Option<Backing<T>>): (l: List<T>)
    ensures Mirrors(l)
    ensures store.None? ==> l.items == [] && l.store.None?
    ensures store.Some? ==> l.store.Some? && Some(l.items) == Contents(l.store.value)
    ensures store.Some? && store.value.Memory? ==> l.items == store.value.m.items
    ensures store.Some? && store.value.ListFile? ==> l.items == store.value.f.file
  {
    match store
    case None => List([], None)
    case Some(b) =>
      var d := StoreLoad(b);
      List(d.result.value, Some(d.state))
  }

  /** AsQueryable goes to the store, and there is none to go to without one. */
  function AsQueryable<T>(l: List<T>): (r: Result<seq<T>>)
    ensures l.store.None? ==> r == Err(NullReference)
    ensures Mirrors(l) && l.store.Some? ==> r == Ok(l.items)
  {
    match l.store
    case None => Err(NullReference)
    case Some(Memory(m)) => Ok(M.AsQueryable(m))
    case Some(ListFile(f)) => L.AsQueryable(f)
  }

  /** GetEnumerator: the list's own records. */
  function Enumerate<T>(l: List<T>): (r: seq<T>)
    ensures Mirrors(l) && l.store.Some? ==> Some(r) == Contents(l.store.value)
  {
    l.items
  }

  /** Count: the number of records in the list, which is the store's own
      count while the two mirror each other. */
  function Count<T>(l: List<T>): (n: nat)
    ensures n == |Enumerate(l)|
    ensures Mirrors(l) && l.store.Some? ==> n == |Contents(l.store.value).value|
  {
    |l.items|
  }

  /** Clear: the store is cleared, then the list. */
  function Clear<T>(l: List<T>): (r: List<T>)
    ensures r.items == [] && Mirrors(r)
    ensures r.store.None? <==> l.store.None?
  {
    match l.store
    case None => List([], None)
    case Some(b) => List([], Some(StoreClear(b)))
  }

  /** Update: a record with no equal in the list throws before anything
      changes; otherwise it replaces the first equal record in place, the
      store is told, and the record is returned. */
  function Update<T>(l: List<T>, item: T, eq: (T, T) -> bool): (r: Done<List<T>, T>)
    ensures !Contains(l.items, item, eq) ==> r == Done(l, Err(InvalidOperation))
    ensures Contains(l.items, item, eq) ==>
              var i := IndexOf(l.items, item, eq);
              && |r.state.items| == |l.items| && r.state.items[i] == item
              && forall j :: 0 <= j < |l.items| && j != i ==> r.state.items[j] == l.items[j]
    ensures Mirrors(l) && Contains(l.items, item, eq) ==> r.result == Ok(item) && Mirrors(r.state)
  {
    if !Contains(l.items, item, eq) then Done(l, Err(InvalidOperation))
    else
      var items := ReplaceFirst(l.items, item, eq);
      match l.store
      case None => Done(List(items, None), Ok(item))
      case Some(b) =>
        var d := StoreUpdate(b, item, eq);
        Done(List(items, Some(d.state)), d.result)
  }

  /** Remove: the first equal record leaves the list (none, if there is no
      equal), the store is told, and the argument is returned. */
  function Remove<T>(l: List<T>, item: T, eq: (T, T) -> bool): (r: Done<List<T>, T>)
    ensures r.state.items == RemoveFirst(l.items, item, eq)
    ensures !Contains(l.items, item, eq) ==> r.state.items == l.items
    ensures Mirrors(l) ==> r.result == Ok(item) && Mirrors(r.state)
  {
    var items := RemoveFirst(l.items, item, eq);
    match l.store
    case None => Done(List(items, None), Ok(item))
    case Some(b) =>
      var d := StoreRemove(b, item, eq);
      Done(List(items, Some(d.state)), if d.result.Ok? then Ok(item) else Err(d.result.error))
  }

  /** Remove(List): one list removal per record, in order; the store gets
      the whole batch; the batch is returned. */
  function RemoveRange<T>(l: List<T>, items: seq<T>, eq: (T, T) -> bool): (r: Done<List<T>, seq<T>>)
    ensures r.state.items == RemoveEach(l.items, items, eq)
    ensures multiset(r.state.items) <= multiset(l.items)
    ensures Mirrors(l) ==> r.result == Ok(items) && Mirrors(r.state)
  {
    var rest := RemoveEach(l.items, items, eq);
    match l.store
    case None => Done(List(rest, None), Ok(items))
    case Some(b) =>
      var d := StoreRemoveRange(b, items, eq);
      Done(List(rest, Some(d.state)), if d.result.Ok? then Ok(items) else Err(d.result.error))
  }

  /** Add: the store first; if it throws the list is left as it was;
      otherwise the record goes to the end of the list and is returned. */
  function Add<T>(l: List<T>, item: T): (r: Done<List<T>, T>)
    ensures r.result.Err? ==> r.state.items == l.items
    ensures r.result.Ok? ==> r.result.value == item && r.state.items == l.items + [item]
    ensures Mirrors(l) ==> r.result.Ok? && Mirrors(r.state)
  {
    match l.store
    case None => Done(List(l.items + [item], None), Ok(item))
    case Some(b) =>
      var d := StoreAdd(b, item);
      if d.result.Err? then Done(l.(store := Some(d.state)), Err(d.result.error))
      else Done(List(l.items + [item], Some(d.state)), Ok(item))
  }

  /** Add(List): the store first, then the records go to the end of the
      list in order, and the batch is returned. */
  function AddRange<T>(l: List<T>, items: seq<T>): (r: Done<List<T>, seq<T>>)
    ensures r.result.Err? ==> r.state.items == l.items
    ensures r.result.Ok? ==> r.result.value == items && r.state.items == l.items + items
    ensures Mirrors(l) ==> r.result.Ok? && Mirrors(r.state)
  {
    match l.store
    case None => Done(List(l.items + items, None), Ok(items))
    case Some(b) =>
      var d := StoreAddRange(b, items);
      if d.result.Err? then Done(l.(store := Some(d.state)), Err(d.result.error))
      else Done(List(l.items + items, Some(d.state)), Ok(items))
  }

  /** A list built afresh over the store an operation left behind starts
      with the records the operation left in the list: nothing the list
      holds is lost when it is reopened. */
  lemma ReopenAgrees<T>(l: List<T>, item: T, items: seq<T>, eq: (T, T) -> bool)
    requires Mirrors(l) && l.store.Some?
    ensures Create(l.store).items == l.items
    ensures Create(Add(l, item).state.store).items == l.items + [item]
    ensures Create(AddRange(l, items).state.store).items == l.items + items
    ensures Create(Remove(l, item, eq).state.store).items == RemoveFirst(l.items, item, eq)
    ensures Create(RemoveRange(l, items, eq).state.store).items == RemoveEach(l.items, items, eq)
    ensures Contains(l.items, item, eq) ==>
              Create(Update(l, item, eq).state.store).items == ReplaceFirst(l.items, item, eq)
    ensures Create(Clear(l).store).items == []
  {
  }

  /** Removing a record just added, with no equal in the list before, gives
      back the list it was added to. */
  lemma RemoveUndoesAdd<T>(l: List<T>, item: T, eq: (T, T) -> bool)
    requires Mirrors(l) && eq(item, item) && !Contains(l.items, item, eq)
    ensures var r := Remove(Add(l, item).state, item, eq);
            r.result == Ok(item) && r.state.items == l.items && Mirrors(r.state)
  {
    var a := Add(l, item).state;
    var xs := l.items + [item];
    var n := |l.items|;
    assert a.items == xs && Mirrors(a);
    assert forall i :: 0 <= i < n ==> xs[i] == l.items[i] && !eq(xs[i], item);
    assert eq(xs[n], item);
    assert IndexOf(xs, item, eq) == n;
    assert xs[..n] == l.items && xs[n + 1..] == [];
    assert RemoveFirst(xs, item, eq) == l.items;
  }

  /** A list over a file store that was never loaded throws from the store
      on Add and keeps its own records. Create always loads the store it is
      given, so no list it builds is in this state; the lemma covers the
      Add path where the store throws, for a list assembled by other means
      (a store whose Load was bypassed). */
  lemma UnloadedStoreRejectsAdd<T>(items: seq<T>, f: L.Store<T>, item: T)
    requires f.items.None?
    ensures var r := Add(List(items, Some(ListFile(f))), item);
            r.result == Err(NullReference) && r.state.items == items
  {
  }
}

=== FILE: BiggyListSerializer.dfy ===
/** BiggyListSerializer: the Json.NET converter the Json store writes its
    database file with. A record's own serialization is Json.NET's business
    and stays abstract (a function from records to text); what is modelled
    is the framing the converter puts around each record. */
module BiggyListSerializer {
  import opened Errors
  import opened Identity
  import Text

  /** Environment.NewLine on Windows. */
  const NewLine: string := "\r\n"

  /** Json.NET's compact text for one record. */
  type Serializer = Record -> string

  /** Compact Json.NET output escapes control characters inside strings and
      writes no line breaks of its own, so a serialized record is one line. */
  predicate OneLine(text: string) {
    '\r' !in text && '\n' !in text
  }

  ghost predicate AllOneLine(ser: Serializer, items: seq<Record>) {
    forall i :: 0 <= i < |items| ==> OneLine(ser(items[i]))
  }

  /** WriteJson: every item's serialization followed by NewLine, in list
      order. An empty list writes nothing; a one-line serialization per
      item gives one line feed per item. */
  function WriteJson(ser: Serializer, items: seq<Record>): (text: string)
    ensures |items| == 0 <==> text == ""
    ensures |items| > 0 ==> Text.EndsWith(text, NewLine)
    ensures AllOneLine(ser, items) ==> Text.Count(text, '\n') == |items|
    decreases |items|
  {
    if |items| == 0 then ""
    else
      var head := ser(items[0]) + NewLine;
      var rest := WriteJson(ser, items[1..]);
      assert AllOneLine(ser, items) ==> AllOneLine(ser, items[1..]) by {
        if AllOneLine(ser, items) {
          forall i | 0 <= i < |items[1..]| ensures OneLine(ser(items[1..][i])) {
            assert items[1..][i] == items[i + 1];
          }
        }
      }
      var text := head + rest;
      assert AllOneLine(ser, items) ==> Text.Count(text, '\n') == Text.Count(rest, '\n') + 1 by {
        if AllOneLine(ser, items) {
          assert OneLine(ser(items[0]));
          Text.CountAbsent(ser(items[0]), '\n');
          Text.CountAppend(ser(items[0]), NewLine, '\n');
          Text.CountAppend(head, rest, '\n');
        }
      }
      assert Text.EndsWith(text, NewLine) by {
        if |rest| == 0 {
          assert text == head;
        } else {
          assert text[|text| - 2..] == rest[|rest| - 2..];
        }
      }
      text
  }

  /** Writing two lists one after the other is writing their concatenation. */
  lemma {:induction false} WriteJsonAppend(ser: Serializer, a: seq<Record>, b: seq<Record>)
    ensures WriteJson(ser, a + b) == WriteJson(ser, a) + WriteJson(ser, b)
    decreases |a|
  {
    if |a| == 0 {
      assert a + b == b;
    } else {
      assert (a + b)[0] == a[0];
      assert (a + b)[1..] == a[1..] + b;
      WriteJsonAppend(ser, a[1..], b);
    }
  }

  /** A one-record list is written as that record's text and NewLine. */
  lemma WriteJsonOne(ser: Serializer, x: Record)
    ensures WriteJson(ser, [x]) == ser(x) + NewLine
  {
    assert [x][1..] == [];
  }

  /** The i-th record's text and its NewLine sit exactly between the text
      of the records before it and the text of the records after it. */
  lemma {:induction false} WriteJsonAt(ser: Serializer, items: seq<Record>, i: nat)
    requires i < |items|
    ensures WriteJson(ser, items) ==
            WriteJson(ser, items[..i]) + ser(items[i]) + NewLine + WriteJson(ser, items[i + 1..])
  {
    var before, after := items[..i], items[i + 1..];
    var tail := [items[i]] + after;
    assert items == before + tail;
    WriteJsonAppend(ser, before, tail);
    WriteJsonAppend(ser, [items[i]], after);
    WriteJsonOne(ser, items[i]);
  }

  /** CanConvert always throws NotImplementedException. */
  function CanConvert(objectType: string): (r: Result<bool>)
    ensures r.Err? && r.error == NotImplemented
  {
    Err(NotImplemented)
  }

  /** ReadJson always throws NotImplementedException: the converter is only
      ever used for writing. */
  function ReadJson(text: string, objectType: string): (r: Result<seq<Record>>)
    ensures r.Err? && r.error == NotImplemented
  {
    Err(NotImplemented)
  }
}

=== FILE: BsonStore.dfy ===
/** BsonStore<T>: one file per record, named after the record's Guid
    identity, in the database directory. The directory is modelled by the
    files it holds, each file by the record it decodes to; BSON encoding
    itself is not modelled. The base class that owns `Items` and calls the
    hooks is not part of this model, so each hook is a function of the
    directory it changes. */
module BsonStore {
  import opened Errors
  import opened Identity
  import opened Collections
  import Text
  import Paths
  import StoreBase

  const FileExtension: string := ".bson"

  /** 16 to the power `w`. */
  function Pow16(w: nat): (p: nat)
    ensures p >= 1
  {
    if w == 0 then 1 else 16 * Pow16(w - 1)
  }

  lemma {:induction false} Pow16Add(a: nat, b: nat)
    ensures Pow16(a + b) == Pow16(a) * Pow16(b)
    decreases a
  {
    if a > 0 {
      Pow16Add(a - 1, b);
      assert Pow16(a + b) == 16 * Pow16(a - 1 + b);
    }
  }

  /** 32 hex digits span exactly the 128 bits of a Guid. */
  lemma Pow16Of32()
    ensures Pow16(32) == 0x1_0000_0000_0000_0000_0000_0000_0000_0000
  {
    assert Pow16(2) == 0x100;
    Pow16Add(2, 2);
    Pow16Add(4, 4);
    Pow16Add(8, 8);
    Pow16Add(16, 16);
  }

  predicate IsHexChar(c: char) {
    ('0' <= c <= '9') || ('a' <= c <= 'f')
  }

  /** One lower-case hexadecimal digit. */
  function HexDigit(d: nat): (c: char)
    requires d < 16
    ensures IsHexChar(c)
  {
    if d < 10 then (48 + d) as char else (87 + d) as char
  }

  /** The lowest `w` hex digits of `n`, most significant first. */
  function Hex(n: nat, w: nat): (s: string)
    ensures |s| == w
    ensures forall i :: 0 <= i < |s| ==> IsHexChar(s[i])
  {
    if w == 0 then "" else Hex(n / 16, w - 1) + [HexDigit(n % 16)]
  }

  /** Numbers below 16^w are told apart by their w hex digits. */
  lemma {:induction false} HexInjective(a: nat, b: nat, w: nat)
    requires a < Pow16(w) && b < Pow16(w)
    requires Hex(a, w) == Hex(b, w)
    ensures a == b
    decreases w
  {
    if w > 0 {
      var ha := Hex(a / 16, w - 1);
      var hb := Hex(b / 16, w - 1);
      assert Hex(a, w)[..w - 1] == ha && Hex(b, w)[..w - 1] == hb;
      assert Hex(a, w)[w - 1] == HexDigit(a % 16) && Hex(b, w)[w - 1] == HexDigit(b % 16);
      assert a % 16 == b % 16;
      assert a / 16 < Pow16(w - 1) && b / 16 < Pow16(w - 1);
      HexInjective(a / 16, b / 16, w - 1);
    }
  }

  /** Guid.ToString(): the 32 hex digits of the Guid in groups of
      8-4-4-4-12 separated by hyphens. */
  function GuidString(g: Uuid): (s: string)
    ensures |s| == 36
    ensures s[8] == '-' && s[13] == '-' && s[18] == '-' && s[23] == '-'
    ensures Hex(g, 32) == s[..8] + s[9..13] + s[14..18] + s[19..23] + s[24..]
  {
    var h := Hex(g, 32);
    var s := h[..8] + "-" + h[8..12] + "-" + h[12..16] + "-" + h[16..20] + "-" + h[20..];
    assert s[..8] == h[..8] && s[9..13] == h[8..12] && s[14..18] == h[12..16];
    assert s[19..23] == h[16..20] && s[24..] == h[20..];
    assert h == h[..8] + h[8..12] + h[12..16] + h[16..20] + h[20..];
    s
  }

  /** Different Guids print differently. */
  lemma GuidStringInjective(a: Uuid, b: Uuid)
    requires GuidString(a) == GuidString(b)
    ensures a == b
  {
    Pow16Of32();
    HexInjective(a, b, 32);
  }

  /** The name of the file holding the record with Guid `g`. */
  function GuidName(g: Uuid): (name: string)
    ensures |name| == 41 && Paths.IsBareName(name)
    ensures Text.EndsWith(name, FileExtension)
    ensures name[..36] == GuidString(g)
  {
    var s := GuidString(g);
    var name := s + FileExtension;
    assert Paths.IsBareName(name) by {
      forall i | 0 <= i < |name| ensures !Paths.IsSeparator(name[i]) {
        if i < 36 && i != 8 && i != 13 && i != 18 && i != 23 {
          var h := Hex(g, 32);
          assert IsHexChar(name[i]) by {
            if i < 8 { assert name[i] == h[i]; }
            else if i < 13 { assert name[i] == h[i - 1]; }
            else if i < 18 { assert name[i] == h[i - 2]; }
            else if i < 23 { assert name[i] == h[i - 3]; }
            else { assert name[i] == h[i - 4]; }
          }
        } else if i >= 36 {
          assert name[i] == FileExtension[i - 36];
        }
      }
    }
    assert name[|name| - 5..] == FileExtension;
    name
  }

  /** Different Guids live in different files. */
  lemma GuidNameInjective(a: Uuid, b: Uuid)
    requires GuidName(a) == GuidName(b)
    ensures a == b
  {
    GuidStringInjective(a, b);
  }
  /** A file Directory.EnumerateFiles(dir, "*.bson") lists. */
  predicate IsBsonName(name: string) {
    Text.EndsWith(name, FileExtension)
  }

  /** The store: its database directory and the files in it by name. */
  datatype Store = Store(directory: string, files: map<string, Record>)

  /** The constructor's check. GetKeyFromEntityType is not part of this
      model; it is taken to report the [Identity] property of a blank
      record `proto` of the type, null when there is none and an error when
      there are several. Reading PropertyType of null throws. */
  function Create(directory: string, proto: Record, files: map<string, Record>): (r: Result<Store>)
    ensures NoIdentity(proto.props) ==> r == Err(NullReference)
    ensures Ambiguous(proto.props) ==> r == Err(IdentityAttributeMismatch)
    ensures r.Ok? <==> exists i :: SoleIdentity(proto.props, i) && proto.props[i].decl.ptype == GuidType
    ensures (exists i :: SoleIdentity(proto.props, i) && proto.props[i].decl.ptype != GuidType) ==>
              r == Err(InvalidIdentityType)
    ensures r.Ok? ==> r.value == Store(directory, files)
  {
    var marked := Marked(proto.props);
    if |marked| == 0 then Err(NullReference)
    else if |marked| > 1 then Err(IdentityAttributeMismatch)
    else
      assert forall i :: SoleIdentity(proto.props, i) ==> proto.props[i] == marked[0];
      assert exists i :: SoleIdentity(proto.props, i) by { var i := SoleIndex(proto.props); }
      if marked[0].decl.ptype != GuidType then Err(InvalidIdentityType)
      else Ok(Store(directory, files))
  }

  /** With exactly one property marked, that property's index. */
  lemma SoleIndex(ps: seq<Property>) returns (i: int)
    requires |Marked(ps)| == 1
    ensures SoleIdentity(ps, i) && Marked(ps) == [ps[i]]
    ensures forall j :: SoleIdentity(ps, j) ==> j == i
  {
    assert !NoIdentity(ps);
    i :| 0 <= i < |ps| && IsMarked(ps, i);
    assert !Ambiguous(ps);
    forall j | 0 <= j < |ps| && j != i ensures !IsMarked(ps, j) {
    }
  }

  /** The value in a property declared as a Guid is a Guid: Guid is a value
      type, so such a property is never null. */
  ghost predicate WellTyped(item: Record) {
    forall i :: 0 <= i < |item.props| && item.props[i].decl.ptype == GuidType ==> item.props[i].value.Guid?
  }

  /** The name of the record's file: `((Guid)GetKey(entity)).ToString()`
      followed by ".bson". Unboxing a key that is not a Guid throws. */
  function FileName(item: Record, hash: Record -> int): (r: Result<string>)
    ensures StoreBase.GetKey(item, hash).Err? ==> r == Err(StoreBase.GetKey(item, hash).error)
    ensures StoreBase.GetKey(item, hash).Ok? && !StoreBase.KeyOf(item, hash).Guid? ==> r == Err(InvalidCast)
    ensures r.Ok? <==> StoreBase.GetKey(item, hash).Ok? && StoreBase.KeyOf(item, hash).Guid?
    ensures r.Ok? ==> r.value == GuidName(StoreBase.KeyOf(item, hash).g)
    ensures r.Ok? ==> |r.value| > 0 && Paths.IsBareName(r.value) && IsBsonName(r.value)
  {
    var key :- StoreBase.GetKey(item, hash);
    if key.Guid? then Ok(GuidName(key.g)) else Err(InvalidCast)
  }

  /** The check the constructor makes is what lets every well-typed record
      of the type name its file: its identity is a non-null Guid. */
  lemma GuidIdentityNamesFile(directory: string, proto: Record, files: map<string, Record>,
                              item: Record, hash: Record -> int)
    requires Create(directory, proto, files).Ok?
    requires Shape(item) == Shape(proto) && WellTyped(item)
    ensures FileName(item, hash).Ok?
  {
    var i := SoleIndex(proto.props);
    assert proto.props[i].decl.ptype == GuidType;
    assert item.props[i].decl == proto.props[i].decl;
    assert |item.props| == |proto.props|;
    forall j | 0 <= j < |item.props| ensures IsMarked(item.props, j) == IsMarked(proto.props, j) {
      assert Shape(item)[j] == Shape(proto)[j];
    }
    assert SoleIdentity(item.props, i);
    assert item.props[i].value.Guid?;
  }

  /** FilePath: the record's file inside the database directory. */
  function FilePath(s: Store, item: Record, hash: Record -> int): (r: Result<string>)
    ensures r.Ok? <==> FileName(item, hash).Ok?
    ensures r.Ok? ==> Paths.GetFileName(r.value) == FileName(item, hash).value
    ensures r.Ok? ==> Text.EndsWith(r.value, FileExtension)
  {
    var name :- FileName(item, hash);
    Paths.FileNameOfCombine(s.directory, name);
    var path := Paths.Combine(s.directory, name);
    assert Text.EndsWith(path, FileExtension) by {
      assert path[|path| - |name|..] == name;
      assert path[|path| - 5..] == name[|name| - 5..];
    }
    Ok(path)
  }

  /** Records with different keys are kept in different files. */
  lemma FilePathInjective(s: Store, a: Record, b: Record, hash: Record -> int)
    requires FilePath(s, a, hash).Ok? && FilePath(s, b, hash).Ok?
    requires StoreBase.KeyOf(a, hash) != StoreBase.KeyOf(b, hash)
    ensures FilePath(s, a, hash) != FilePath(s, b, hash)
  {
    if FilePath(s, a, hash) == FilePath(s, b, hash) {
      GuidNameInjective(StoreBase.KeyOf(a, hash).g, StoreBase.KeyOf(b, hash).g);
    }
  }

  /** Every .bson file holds the record its name is derived from. */
  ghost predicate Keyed(s: Store, hash: Record -> int) {
    forall n :: n in s.files && IsBsonName(n) ==> FileName(s.files[n], hash) == Ok(n)
  }

  /** UpdateFileSystemItem: File.Open(FileMode.Create) on the record's file
      and one record written into it. */
  function UpdateFileSystemItem(s: Store, item: Record, hash: Record -> int): (r: Result<Store>)
    ensures r.Ok? <==> FileName(item, hash).Ok?
    ensures r.Ok? ==> var n := FileName(item, hash).value;
              && r.value.directory == s.directory
              && n in r.value.files && r.value.files[n] == item
              && r.value.files.Keys == s.files.Keys + {n}
              && forall m :: m in s.files && m != n ==> r.value.files[m] == s.files[m]
    ensures r.Ok? && Keyed(s, hash) ==> Keyed(r.value, hash)
  {
    var n :- FileName(item, hash);
    Ok(s.(files := s.files[n := item]))
  }

  /** AddFileSystemItem: an add is an update of the record's file. */
  function AddFileSystemItem(s: Store, item: Record, hash: Record -> int): (r: Result<Store>)
    ensures r == UpdateFileSystemItem(s, item, hash)
  {
    UpdateFileSystemItem(s, item, hash)
  }

  /** RemoveFileSystemItem: File.Delete on the record's file, which does
      nothing when the file is not there. */
  function RemoveFileSystemItem(s: Store, item: Record, hash: Record -> int): (r: Result<Store>)
    ensures r.Ok? <==> FileName(item, hash).Ok?
    ensures r.Ok? ==> var n := FileName(item, hash).value;
              && r.value.directory == s.directory
              && r.value.files.Keys == s.files.Keys - {n}
              && forall m :: m in r.value.files ==> r.value.files[m] == s.files[m]
    ensures r.Ok? && FileName(item, hash).value !in s.files ==> r.value == s
    ensures r.Ok? && Keyed(s, hash) ==> Keyed(r.value, hash)
  {
    var n :- FileName(item, hash);
    Ok(s.(files := s.files - {n}))
  }

  /** Every record of a batch names its file. */
  ghost predicate AllNamed(items: seq<Record>, hash: Record -> int) {
    forall i :: 0 <= i < |items| ==> FileName(items[i], hash).Ok?
  }

  /** Some record of the batch is kept in file `n`. */
  ghost predicate Names(items: seq<Record>, n: string, hash: Record -> int) {
    exists i :: 0 <= i < |items| && FileName(items[i], hash) == Ok(n)
  }

  lemma NamesCons(items: seq<Record>, hash: Record -> int)
    requires |items| > 0
    ensures forall n :: Names(items, n, hash) <==>
              FileName(items[0], hash) == Ok(n) || Names(items[1..], n, hash)
    ensures AllNamed(items, hash) <==> FileName(items[0], hash).Ok? && AllNamed(items[1..], hash)
  {
    var t := items[1..];
    assert forall i :: 0 <= i < |t| ==> t[i] == items[i + 1];
    forall n | Names(items, n, hash) && FileName(items[0], hash) != Ok(n) ensures Names(t, n, hash) {
      var i :| 0 <= i < |items| && FileName(items[i], hash) == Ok(n);
      assert FileName(t[i - 1], hash) == Ok(n);
    }
    if FileName(items[0], hash).Ok? && AllNamed(t, hash) {
      forall i | 0 <= i < |items| ensures FileName(items[i], hash).Ok? {
        if i > 0 { assert FileName(t[i - 1], hash).Ok?; }
      }
    }
  }

  /** AddFileSystemItems: one AddFileSystemItem per record, in order; the
      first record whose file cannot be named ends the loop with the
      earlier files already written. */
  function AddFileSystemItems(s: Store, items: seq<Record>, hash: Record -> int): (r: Done<Store, ()>)
    ensures r.state.directory == s.directory
    ensures r.result.Ok? <==> AllNamed(items, hash)
    ensures r.result.Err? ==> r.result.error == InvalidCast || r.result.error == IdentityAttributeMismatch
    ensures Keyed(s, hash) ==> Keyed(r.state, hash)
    ensures forall n :: n in r.state.files ==> n in s.files || Names(items, n, hash)
    ensures forall n :: n in s.files && !Names(items, n, hash) ==> n in r.state.files && r.state.files[n] == s.files[n]
    ensures r.result.Ok? ==> forall n :: Names(items, n, hash) ==> n in r.state.files
    decreases |items|
  {
    if |items| == 0 then Done(s, Ok(()))
    else
      NamesCons(items, hash);
      match AddFileSystemItem(s, items[0], hash)
      case Err(e) => Done(s, Err(e))
      case Ok(s1) => AddFileSystemItems(s1, items[1..], hash)
  }

  /** RemoveFileSystemItems: one RemoveFileSystemItem per record, in order. */
  function RemoveFileSystemItems(s: Store, items: seq<Record>, hash: Record -> int): (r: Done<Store, ()>)
    ensures r.state.directory == s.directory
    ensures r.result.Ok? <==> AllNamed(items, hash)
    ensures r.result.Err? ==> r.result.error == InvalidCast || r.result.error == IdentityAttributeMismatch
    ensures Keyed(s, hash) ==> Keyed(r.state, hash)
    ensures forall n :: n in r.state.files ==> n in s.files && r.state.files[n] == s.files[n]
    ensures forall n :: n in s.files && !Names(items, n, hash) ==> n in r.state.files
    ensures r.result.Ok? ==> forall n :: Names(items, n, hash) ==> n !in r.state.files
    decreases |items|
  {
    if |items| == 0 then Done(s, Ok(()))
    else
      NamesCons(items, hash);
      match RemoveFileSystemItem(s, items[0], hash)
      case Err(e) => Done(s, Err(e))
      case Ok(s1) => RemoveFileSystemItems(s1, items[1..], hash)
  }

  /** ClearFileSystemItems: every *.bson file is deleted, nothing else. */
  function ClearFileSystemItems(s: Store): (r: Store)
    ensures r.directory == s.directory
    ensures forall n :: n in r.files <==> n in s.files && !IsBsonName(n)
    ensures forall n :: n in r.files ==> r.files[n] == s.files[n]
    ensures forall hash :: Keyed(r, hash)
  {
    s.(files := map n | n in s.files && !IsBsonName(n) :: s.files[n])
  }

  /** The files Initialize reads. */
  function BsonFiles(files: map<string, Record>): (b: map<string, Record>)
    ensures forall n :: n in b <==> n in files && IsBsonName(n)
    ensures forall n :: n in b ==> b[n] == files[n]
  {
    map n | n in files && IsBsonName(n) :: files[n]
  }

  /** Initialize: every *.bson file, in enumeration order, added to a new
      dictionary under its record's key; a repeated key throws. */
  ghost function Initialize(s: Store, hash: Record -> int): (r: Result<map<Value, Record>>)
    ensures r.Ok? ==> |r.value| == |BsonFiles(s.files)| && StoreBase.KeyedBy(r.value, hash)
    ensures r.Ok? ==> forall k :: k in r.value ==> r.value[k] in BsonFiles(s.files).Values
  {
    var vs := Values(BsonFiles(s.files));
    var r := StoreBase.ToDictionary(vs, hash);
    assert r.Ok? ==> forall k :: k in r.value ==> r.value[k] in BsonFiles(s.files).Values by {
      if r.Ok? {
        forall k | k in r.value ensures r.value[k] in BsonFiles(s.files).Values {
          var i :| 0 <= i < |vs| && StoreBase.KeyOf(vs[i], hash) == k;
          ValuesContents(BsonFiles(s.files), vs[i]);
        }
      }
    }
    r
  }
  /** A file named after a Guid holds, in a keyed directory, a record with
      that Guid as its key. */
  lemma KeyOfNamedFile(item: Record, g: Uuid, hash: Record -> int)
    requires FileName(item, hash) == Ok(GuidName(g))
    ensures StoreBase.GetKey(item, hash) == Ok(Guid(g))
  {
    GuidNameInjective(StoreBase.KeyOf(item, hash).g, g);
  }

  /** The files of a keyed directory, listed in any order, have resolvable
      and pairwise distinct keys. */
  lemma KeyedListing(s: Store, hash: Record -> int) returns (ks: seq<string>)
    requires Keyed(s, hash)
    ensures var vs := Values(BsonFiles(s.files));
            && StoreBase.KeysResolve(vs) && StoreBase.DistinctKeys(vs, hash)
            && |ks| == |vs|
            && (forall i :: 0 <= i < |vs| ==> ks[i] in BsonFiles(s.files) && vs[i] == BsonFiles(s.files)[ks[i]])
            && (forall i :: 0 <= i < |vs| ==> FileName(vs[i], hash) == Ok(ks[i]))
            && (forall n :: n in BsonFiles(s.files) ==> n in ks)
  {
    var b := BsonFiles(s.files);
    var vs := Values(b);
    ks := ValuesKeys(b);
    forall i | 0 <= i < |vs| ensures FileName(vs[i], hash) == Ok(ks[i]) {
      assert vs[i] == b[ks[i]];
    }
    NamedDistinct(vs, ks, hash);
  }

  /** Records named by pairwise distinct file names have resolvable and
      pairwise distinct keys. */
  lemma NamedDistinct(vs: seq<Record>, ks: seq<string>, hash: Record -> int)
    requires |ks| == |vs|
    requires forall i :: 0 <= i < |vs| ==> FileName(vs[i], hash) == Ok(ks[i])
    requires forall i, j :: 0 <= i < j < |ks| ==> ks[i] != ks[j]
    ensures StoreBase.KeysResolve(vs) && StoreBase.DistinctKeys(vs, hash)
  {
    forall i, j | 0 <= i < j < |vs| ensures StoreBase.KeyOf(vs[i], hash) != StoreBase.KeyOf(vs[j], hash) {
      assert FileName(vs[i], hash) != FileName(vs[j], hash);
    }
  }

  /** `m` holds one entry per .bson file, under the Guid its name spells,
      with that file's record. */
  ghost predicate Loads(files: map<string, Record>, m: map<Value, Record>) {
    && (forall k :: k in m <==> k.Guid? && GuidName(k.g) in files)
    && (forall k :: k in m ==> m[k] == files[GuidName(k.g)])
  }

  /** Only one dictionary fits a directory. */
  lemma LoadsUnique(files: map<string, Record>, a: map<Value, Record>, b: map<Value, Record>)
    requires Loads(files, a) && Loads(files, b)
    ensures a == b
  {
    MapsAgree(a, b);
  }

  /** `vs` lists the records of the files `b`, `ks` their names. */
  ghost predicate NamedListing(b: map<string, Record>, vs: seq<Record>, ks: seq<string>, hash: Record -> int) {
    && |ks| == |vs|
    && (forall i :: 0 <= i < |vs| ==> ks[i] in b && vs[i] == b[ks[i]] && FileName(vs[i], hash) == Ok(ks[i]))
    && (forall n :: n in b ==> n in ks)
  }

  /** Every key indexed from a listing is the Guid of a listed file. */
  lemma IndexedWithin(b: map<string, Record>, vs: seq<Record>, ks: seq<string>, hash: Record -> int)
    requires NamedListing(b, vs, ks, hash) && StoreBase.ToDictionary(vs, hash).Ok?
    ensures var m := StoreBase.ToDictionary(vs, hash).value;
            forall k :: k in m ==> k.Guid? && GuidName(k.g) in b && m[k] == b[GuidName(k.g)]
  {
    var m := StoreBase.ToDictionary(vs, hash).value;
    forall k | k in m ensures k.Guid? && GuidName(k.g) in b && m[k] == b[GuidName(k.g)] {
      var i :| 0 <= i < |vs| && StoreBase.KeyOf(vs[i], hash) == k;
      assert FileName(vs[i], hash) == Ok(ks[i]);
    }
  }

  /** Every listed file's Guid is indexed. */
  lemma IndexedCovers(b: map<string, Record>, vs: seq<Record>, ks: seq<string>, hash: Record -> int)
    requires NamedListing(b, vs, ks, hash) && StoreBase.ToDictionary(vs, hash).Ok?
    ensures forall k: Value :: k.Guid? && GuidName(k.g) in b ==> k in StoreBase.ToDictionary(vs, hash).value
  {
    var m := StoreBase.ToDictionary(vs, hash).value;
    forall k: Value | k.Guid? && GuidName(k.g) in b ensures k in m {
      var i :| 0 <= i < |ks| && ks[i] == GuidName(k.g);
      KeyOfNamedFile(vs[i], k.g, hash);
      assert StoreBase.KeyOf(vs[i], hash) == k;
    }
  }

  /** What Initialize builds from a keyed directory. */
  lemma InitializeKeyed(s: Store, hash: Record -> int) returns (m: map<Value, Record>)
    requires Keyed(s, hash)
    ensures Initialize(s, hash) == Ok(m) && Loads(s.files, m)
  {
    var b := BsonFiles(s.files);
    var vs := Values(b);
    var ks := KeyedListing(s, hash);
    assert NamedListing(b, vs, ks, hash);
    IndexedWithin(b, vs, ks, hash);
    IndexedCovers(b, vs, ks, hash);
    m := StoreBase.ToDictionary(vs, hash).value;
    assert forall k: Value :: k.Guid? && GuidName(k.g) in b <==> k.Guid? && GuidName(k.g) in s.files;
  }

  /** Overwriting the file named after `key` overwrites the entry `key`. */
  lemma LoadsWrite(files: map<string, Record>, m: map<Value, Record>, key: Value, item: Record)
    requires Loads(files, m) && key.Guid?
    ensures Loads(files[GuidName(key.g) := item], m[key := item])
  {
    var n := GuidName(key.g);
    forall k: Value | k.Guid? && GuidName(k.g) == n ensures k == key {
      GuidNameInjective(k.g, key.g);
    }
  }

  /** Deleting the file named after `key` deletes the entry `key`. */
  lemma LoadsDelete(files: map<string, Record>, m: map<Value, Record>, key: Value)
    requires Loads(files, m) && key.Guid?
    ensures Loads(files - {GuidName(key.g)}, m - {key})
  {
    var n := GuidName(key.g);
    forall k: Value | k.Guid? && GuidName(k.g) == n ensures k == key {
      GuidNameInjective(k.g, key.g);
    }
  }

  /** Writing a record's file and reloading gives the old dictionary with
      that record under its key: the last write for a key wins. */
  lemma UpdateReloads(s: Store, item: Record, hash: Record -> int)
    requires Keyed(s, hash) && UpdateFileSystemItem(s, item, hash).Ok?
    ensures Keyed(UpdateFileSystemItem(s, item, hash).value, hash)
    ensures Initialize(s, hash).Ok?
    ensures var k := StoreBase.KeyOf(item, hash);
            Initialize(UpdateFileSystemItem(s, item, hash).value, hash) == Ok(Initialize(s, hash).value[k := item])
  {
    var s' := UpdateFileSystemItem(s, item, hash).value;
    var key := StoreBase.KeyOf(item, hash);
    var m := InitializeKeyed(s, hash);
    var m' := InitializeKeyed(s', hash);
    assert s'.files == s.files[GuidName(key.g) := item];
    LoadsWrite(s.files, m, key, item);
    LoadsUnique(s'.files, m', m[key := item]);
  }

  /** Deleting a record's file and reloading gives the old dictionary
      without that record's key. */
  lemma RemoveReloads(s: Store, item: Record, hash: Record -> int)
    requires Keyed(s, hash) && RemoveFileSystemItem(s, item, hash).Ok?
    ensures Initialize(s, hash).Ok?
    ensures Initialize(RemoveFileSystemItem(s, item, hash).value, hash) ==
              Ok(Initialize(s, hash).value - {StoreBase.KeyOf(item, hash)})
  {
    var s' := RemoveFileSystemItem(s, item, hash).value;
    var key := StoreBase.KeyOf(item, hash);
    var m := InitializeKeyed(s, hash);
    var m' := InitializeKeyed(s', hash);
    assert s'.files == s.files - {GuidName(key.g)};
    LoadsDelete(s.files, m, key);
    LoadsUnique(s'.files, m', m - {key});
  }

  /** A cleared directory reloads as the empty dictionary. */
  lemma ClearReloads(s: Store, hash: Record -> int)
    ensures Initialize(ClearFileSystemItems(s), hash) == Ok(map[])
  {
    var c := ClearFileSystemItems(s);
    var m := InitializeKeyed(c, hash);
    assert Loads(c.files, map[]);
    LoadsUnique(c.files, m, map[]);
  }

  /** The dictionary after adding records in order under their keys, later
      records overwriting earlier ones. */
  function Overlay(m: map<Value, Record>, items: seq<Record>, hash: Record -> int): map<Value, Record>
    decreases |items|
  {
    if |items| == 0 then m else Overlay(m[StoreBase.KeyOf(items[0], hash) := items[0]], items[1..], hash)
  }

  /** A batch add reloads as the old dictionary overlaid with the batch, so
      each key maps to the last record written for it. */
  lemma {:induction false} AddsReload(s: Store, items: seq<Record>, hash: Record -> int)
    requires Keyed(s, hash) && AddFileSystemItems(s, items, hash).result.Ok?
    ensures Initialize(s, hash).Ok?
    ensures Initialize(AddFileSystemItems(s, items, hash).state, hash) ==
              Ok(Overlay(Initialize(s, hash).value, items, hash))
    decreases |items|
  {
    if |items| == 0 {
      var m := InitializeKeyed(s, hash);
    } else {
      var s1 := UpdateFileSystemItem(s, items[0], hash).value;
      UpdateReloads(s, items[0], hash);
      assert AddFileSystemItems(s, items, hash) == AddFileSystemItems(s1, items[1..], hash);
      AddsReload(s1, items[1..], hash);
    }
  }

  /** Two .bson files whose records share a key make Initialize throw. */
  lemma InitializeDuplicate(s: Store, a: string, b: string, hash: Record -> int)
    requires a in s.files && b in s.files && a != b && IsBsonName(a) && IsBsonName(b)
    requires StoreBase.GetKey(s.files[a], hash).Ok?
    requires StoreBase.GetKey(s.files[a], hash) == StoreBase.GetKey(s.files[b], hash)
    ensures Initialize(s, hash).Err?
  {
    var bf := BsonFiles(s.files);
    var vs := Values(bf);
    var ks := ValuesKeys(bf);
    var i :| 0 <= i < |ks| && ks[i] == a;
    var j :| 0 <= j < |ks| && ks[j] == b;
    assert vs[i] == s.files[a] && vs[j] == s.files[b];
    StoreBase.SharedKey(vs, i, j, hash);
  }
}

=== FILE: Collections.dfy ===
/** The parts of System.Collections.Generic the stores rely on:
    List<T> search and removal under a caller-supplied Equals, and the
    values of a Dictionary in its (unspecified) enumeration order. */
module Collections {

  /** List<T>.IndexOf: the first index whose element Equals `item`, or -1.
      `eq(element, item)` stands for the element type's Equals, which the
      library's users are expected to override. */
  function IndexOf<T>(xs: seq<T>, item: T, eq: (T, T) -> bool): (r: int)
    ensures -1 <= r < |xs|
    ensures r == -1 <==> forall i :: 0 <= i < |xs| ==> !eq(xs[i], item)
    ensures 0 <= r ==> eq(xs[r], item) && forall i :: 0 <= i < r ==> !eq(xs[i], item)
  {
    if |xs| == 0 then -1
    else if eq(xs[0], item) then 0
    else
      var j := IndexOf(xs[1..], item, eq);
      if j == -1 then -1 else j + 1
  }

  /** List<T>.Contains. */
  predicate Contains<T>(xs: seq<T>, item: T, eq: (T, T) -> bool) {
    IndexOf(xs, item, eq) >= 0
  }

  /** List<T>.Remove: drops the first element equal to `item`, if any. */
  function RemoveFirst<T>(xs: seq<T>, item: T, eq: (T, T) -> bool): (r: seq<T>)
    ensures IndexOf(xs, item, eq) == -1 ==> r == xs
    ensures var i := IndexOf(xs, item, eq);
            0 <= i ==> r == xs[..i] + xs[i + 1..]
  {
    if |xs| == 0 then []
    else if eq(xs[0], item) then xs[1..]
    else
      assert xs == [xs[0]] + xs[1..];
      [xs[0]] + RemoveFirst(xs[1..], item, eq)
  }

  /** Removing one element keeps the multiset of the rest. */
  lemma RemoveFirstMultiset<T>(xs: seq<T>, item: T, eq: (T, T) -> bool)
    ensures var i := IndexOf(xs, item, eq);
            0 <= i ==> multiset(RemoveFirst(xs, item, eq)) + multiset{xs[i]} == multiset(xs)
  {
    var i := IndexOf(xs, item, eq);
    if 0 <= i {
      var r := RemoveFirst(xs, item, eq);
      assert r == xs[..i] + xs[i + 1..];
      DropAt(xs, i);
    }
  }

  /** Dropping the element at `i` takes exactly that element out of the multiset. */
  lemma DropAt<T>(xs: seq<T>, i: nat)
    requires i < |xs|
    ensures multiset(xs[..i] + xs[i + 1..]) + multiset{xs[i]} == multiset(xs)
  {
    var a, b := xs[..i], xs[i + 1..];
    assert xs == a + ([xs[i]] + b);
    assert multiset(xs) == multiset(a) + multiset([xs[i]] + b);
    assert multiset([xs[i]] + b) == multiset{xs[i]} + multiset(b);
  }

  /** Removing the first match never grows the multiset. */
  lemma RemoveFirstSub<T>(xs: seq<T>, item: T, eq: (T, T) -> bool)
    ensures multiset(RemoveFirst(xs, item, eq)) <= multiset(xs)
  {
    RemoveFirstMultiset(xs, item, eq);
  }

  /** `list[IndexOf(item)] = item` when the item is present, written in the
      source either as an indexer store or as RemoveAt followed by Insert at
      the same index: the first equal element is replaced, nothing moves. */
  function ReplaceFirst<T>(xs: seq<T>, item: T, eq: (T, T) -> bool): (r: seq<T>)
    ensures |r| == |xs|
    ensures IndexOf(xs, item, eq) == -1 ==> r == xs
    ensures var i := IndexOf(xs, item, eq);
            0 <= i ==> r[i] == item && forall j :: 0 <= j < |xs| && j != i ==> r[j] == xs[j]
  {
    var i := IndexOf(xs, item, eq);
    if i < 0 then xs else xs[..i] + [item] + xs[i + 1..]
  }

  /** `foreach (var item in items) list.Remove(item);` */
  function RemoveEach<T>(xs: seq<T>, items: seq<T>, eq: (T, T) -> bool): (r: seq<T>)
    ensures multiset(r) <= multiset(xs)
    ensures (forall i, j :: 0 <= i < |xs| && 0 <= j < |items| ==> !eq(xs[i], items[j])) ==> r == xs
    decreases |items|
  {
    if |items| == 0 then xs
    else
      var ys := RemoveFirst(xs, items[0], eq);
      RemoveFirstSub(xs, items[0], eq);
      NoMatchKeepsRest(xs, items, eq);
      RemoveEach(ys, items[1..], eq)
  }

  /** When nothing in `xs` matches the batch, the first removal is a no-op. */
  lemma NoMatchKeepsRest<T>(xs: seq<T>, items: seq<T>, eq: (T, T) -> bool)
    requires |items| > 0
    ensures (forall i, j :: 0 <= i < |xs| && 0 <= j < |items| ==> !eq(xs[i], items[j])) ==>
              RemoveFirst(xs, items[0], eq) == xs &&
              forall i, j :: 0 <= i < |xs| && 0 <= j < |items[1..]| ==> !eq(xs[i], items[1..][j])
  {
    if forall i, j :: 0 <= i < |xs| && 0 <= j < |items| ==> !eq(xs[i], items[j]) {
      assert forall i :: 0 <= i < |xs| ==> !eq(xs[i], items[0]);
      forall i, j | 0 <= i < |xs| && 0 <= j < |items[1..]| ensures !eq(xs[i], items[1..][j]) {
        assert items[1..][j] == items[j + 1];
      }
    }
  }

  /** Removing a concatenation is removing each part in turn. */
  lemma {:induction false} RemoveEachAppend<T>(xs: seq<T>, a: seq<T>, b: seq<T>, eq: (T, T) -> bool)
    ensures RemoveEach(xs, a + b, eq) == RemoveEach(RemoveEach(xs, a, eq), b, eq)
    decreases |a|
  {
    if |a| == 0 {
      assert a + b == b;
    } else {
      assert (a + b)[0] == a[0];
      assert (a + b)[1..] == a[1..] + b;
      RemoveEachAppend(RemoveFirst(xs, a[0], eq), a[1..], b, eq);
    }
  }

  /** A dictionary whose keys are among another's has no more entries. */
  lemma KeysWithin<K, V>(a: map<K, V>, b: map<K, V>)
    requires a.Keys <= b.Keys
    ensures |a| <= |b|
  {
    assert b.Keys == a.Keys + (b.Keys - a.Keys);
    assert |a| == |a.Keys| && |b| == |b.Keys|;
  }

  /** The values of a dictionary in enumeration order. .NET leaves that order
      unspecified, so the model picks one and every statement about it is
      order-independent. */
  ghost function Values<K, V>(m: map<K, V>): (vs: seq<V>)
    ensures |vs| == |m|
    decreases |m|
  {
    if |m| == 0 then []
    else
      var k :| k in m;
      var rest := m - {k};
      assert rest.Keys == m.Keys - {k};
      [m[k]] + Values(rest)
  }

  /** The first value enumerated, and the entry it comes from. */
  lemma ValuesUnfold<K, V>(m: map<K, V>) returns (j: K)
    requires |m| > 0
    ensures j in m && Values(m) == [m[j]] + Values(m - {j})
  {
    j :| j in m && Values(m) == [m[j]] + Values(m - {j});
  }

  /** `ks` lists every key of `m` once, and `vs` the values under them in
      the same order. */
  ghost predicate KeyListing<K, V>(m: map<K, V>, vs: seq<V>, ks: seq<K>) {
    && |ks| == |m| == |vs|
    && (forall i :: 0 <= i < |ks| ==> ks[i] in m && vs[i] == m[ks[i]])
    && (forall i, j :: 0 <= i < j < |ks| ==> ks[i] != ks[j])
    && (forall k :: k in m ==> k in ks)
  }

  /** A listing of the rest, after the entry `j`, is a listing of all. */
  lemma KeyListingCons<K, V>(m: map<K, V>, j: K, vs: seq<V>, ks: seq<K>)
    requires j in m && KeyListing(m - {j}, vs, ks)
    ensures KeyListing(m, [m[j]] + vs, [j] + ks)
  {
    var rest := m - {j};
    assert rest.Keys == m.Keys - {j};
    var ks' := [j] + ks;
    var vs' := [m[j]] + vs;
    forall i | 0 <= i < |ks'| ensures ks'[i] in m && vs'[i] == m[ks'[i]] {
      if i > 0 {
        assert ks'[i] == ks[i - 1] && vs'[i] == vs[i - 1];
      }
    }
    forall i, k | 0 <= i < k < |ks'| ensures ks'[i] != ks'[k] {
      if i > 0 { assert ks'[i] == ks[i - 1]; }
      assert ks'[k] == ks[k - 1] && ks[k - 1] in rest;
    }
    forall k | k in m ensures k in ks' {
      if k != j {
        assert k in rest;
        var i :| 0 <= i < |ks| && ks[i] == k;
        assert ks'[i + 1] == k;
      }
    }
  }

  /** The keys behind the enumerated values: each value is enumerated once,
      under its own key, and every key is visited. */
  lemma {:induction false} ValuesKeys<K, V>(m: map<K, V>) returns (ks: seq<K>)
    ensures |ks| == |m| == |Values(m)|
    ensures forall i :: 0 <= i < |ks| ==> ks[i] in m && Values(m)[i] == m[ks[i]]
    ensures forall i, j :: 0 <= i < j < |ks| ==> ks[i] != ks[j]
    ensures forall k :: k in m ==> k in ks
    decreases |m|
  {
    if |m| == 0 {
      ks := [];
    } else {
      var j := ValuesUnfold(m);
      var rest := m - {j};
      assert rest.Keys == m.Keys - {j};
      var tail := ValuesKeys(rest);
      assert KeyListing(rest, Values(rest), tail);
      KeyListingCons(m, j, Values(rest), tail);
      ks := [j] + tail;
      assert KeyListing(m, Values(m), ks);
    }
  }

  /** `vs` holds the value of every entry of `m` once, in the order of some
      listing of its keys. */
  ghost predicate ListsValues<K(!new), V>(m: map<K, V>, vs: seq<V>) {
    exists ks :: KeyListing(m, vs, ks)
  }

  /** The enumeration of a dictionary's values lists each entry once. */
  lemma ValuesListed<K(!new), V>(m: map<K, V>)
    ensures ListsValues(m, Values(m))
  {
    var ks := ValuesKeys(m);
    assert KeyListing(m, Values(m), ks);
  }

  /** Two dictionaries with the same keys and the same value under each key
      are equal. */
  lemma MapsAgree<K, V>(a: map<K, V>, b: map<K, V>)
    requires forall k :: k in a ==> k in b
    requires forall k :: k in b ==> k in a && a[k] == b[k]
    ensures a == b
  {
    assert a.Keys == b.Keys;
  }

  /** Two removals from a dictionary commute, and each one shrinks it. */
  lemma RemoveTwo<K, V>(m: map<K, V>, j: K, k: K)
    requires j in m && k in m && j != k
    ensures (m - {j}) - {k} == (m - {k}) - {j}
    ensures |m - {j}| < |m| && |m - {k}| < |m|
  {
    assert (m - {k}).Keys == m.Keys - {k};
  }

  /** Taking one entry out of a dictionary takes its value out of the
      multiset of values, whichever enumeration order is used. */
  lemma {:induction false} ValuesRemove<K, V>(m: map<K, V>, k: K)
    requires k in m
    ensures multiset(Values(m)) == multiset(Values(m - {k})) + multiset{m[k]}
    decreases |m|
  {
    var j := ValuesUnfold(m);
    if j == k {
      assert multiset(Values(m)) == multiset{m[j]} + multiset(Values(m - {j}));
    } else {
      var mj := m - {j};
      var mk := m - {k};
      RemoveTwo(m, j, k);
      assert k in mj && mj[k] == m[k];
      assert j in mk && mk[j] == m[j];
      ValuesRemove(mj, k);
      ValuesRemove(mk, j);
      var rest := mj - {k};
      assert multiset(Values(m)) == multiset{m[j]} + multiset(Values(mj));
      assert multiset(Values(mj)) == multiset(Values(rest)) + multiset{m[k]};
      assert multiset(Values(mk)) == multiset(Values(rest)) + multiset{m[j]};
    }
  }

  /** Adding an entry under a fresh key adds its value to the multiset. */
  lemma ValuesInsert<K, V>(m: map<K, V>, k: K, v: V)
    requires k !in m
    ensures multiset(Values(m[k := v])) == multiset(Values(m)) + multiset{v}
  {
    ValuesRemove(m[k := v], k);
    assert m[k := v] - {k} == m;
  }

  /** Overwriting an entry and then removing it is just removing it. */
  lemma UpdateThenRemove<K, V>(m: map<K, V>, k: K, v: V)
    ensures m[k := v] - {k} == m - {k}
  {
  }

  /** Replacing the value under a present key swaps one value for another. */
  lemma ValuesReplace<K, V>(m: map<K, V>, k: K, v: V)
    requires k in m
    ensures multiset(Values(m[k := v])) + multiset{m[k]} == multiset(Values(m)) + multiset{v}
  {
    var m' := m[k := v];
    ValuesRemove(m, k);
    ValuesRemove(m', k);
    UpdateThenRemove(m, k, v);
    var rest := multiset(Values(m - {k}));
    assert multiset(Values(m')) == rest + multiset{v};
    assert multiset(Values(m)) == rest + multiset{m[k]};
  }

  /** The enumerated values are exactly the dictionary's values. */
  lemma {:induction false} ValuesContents<K, V>(m: map<K, V>, v: V)
    ensures v in Values(m) <==> v in m.Values
    decreases |m|
  {
    if |m| > 0 {
      var j := ValuesUnfold(m);
      var rest := m - {j};
      assert rest.Keys == m.Keys - {j};
      ValuesContents(rest, v);
      if v in m.Values {
        var k :| k in m && m[k] == v;
        if k != j { assert k in rest && rest[k] == v; }
      }
      if v in rest.Values {
        var k :| k in rest && rest[k] == v;
        assert k in m && m[k] == v;
      }
    }
  }
}

=== FILE: EntitySet.dfy ===
/** EntitySet<T>: a thin façade over one store. Every call goes to the
    store unchanged; the only check of its own is the null store at
    construction. The store is the dictionary-and-file store. */
module EntitySet {
  import opened Errors
  import opened Identity
  import opened Collections
  import FileStore

  datatype Set = Set(store: FileStore.Store)

  /** The constructor refuses a null store. */
  function Create(store: Option<FileStore.Store>): (r: Result<Set>)
    ensures r.Err? <==> store.None?
    ensures r.Err? ==> r.error == ArgumentNull
    ensures r.Ok? ==> r.value.store == store.value
  {
    match store
    case None => Err(ArgumentNull)
    case Some(s) => Ok(Set(s))
  }

  /** AsQueryable: the store's snapshot. */
  ghost function AsQueryable(e: Set): (r: seq<Record>)
    ensures |r| == |e.store.items|
    ensures forall x :: x in r <==> x in e.store.items.Values
    ensures ListsValues(e.store.items, r)
  {
    FileStore.AsQueryable(e.store)
  }

  /** GetEnumerator: enumerates the store's All(). */
  ghost function Enumerate(e: Set): (r: seq<Record>)
    ensures multiset(r) == multiset(Values(e.store.items))
    ensures forall x :: x in r <==> x in e.store.items.Values
  {
    FileStore.All(e.store)
  }

  /** Count: the size of the store's snapshot, one per stored key. */
  ghost function Count(e: Set): (n: nat)
    ensures n == |e.store.items| && n == |Enumerate(e)|
  {
    |AsQueryable(e)|
  }

  function Clear(e: Set): (r: Set)
    ensures r.store == FileStore.Clear(e.store)
    ensures Count(r) == 0 && r.store.file == []
  {
    Set(FileStore.Clear(e.store))
  }

  /** Update returns exactly what the store's Update returns. */
  ghost function Update(e: Set, item: Record): (r: Done<Set, Record>)
    ensures r.state.store == FileStore.Update(e.store, item).state
    ensures r.result == FileStore.Update(e.store, item).result
    ensures r.result.Ok? ==> r.result.value == item
  {
    var d := FileStore.Update(e.store, item);
    Done(Set(d.state), d.result)
  }

  ghost function Remove(e: Set, item: Record): (r: Done<Set, ()>)
    ensures r.state.store == FileStore.Remove(e.store, item).state
    ensures r.result == FileStore.Remove(e.store, item).result
    ensures r.result.Ok? ==> Count(r.state) <= Count(e)
  {
    var d := FileStore.Remove(e.store, item);
    Done(Set(d.state), d.result)
  }

  ghost function RemoveRange(e: Set, items: seq<Record>): (r: Done<Set, ()>)
    ensures r.state.store == FileStore.RemoveRange(e.store, items).state
    ensures r.result == FileStore.RemoveRange(e.store, items).result
    ensures Count(r.state) <= Count(e)
  {
    var d := FileStore.RemoveRange(e.store, items);
    KeysWithin(d.state.items, e.store.items);
    Done(Set(d.state), d.result)
  }

  function Add(e: Set, item: Record): (r: Done<Set, ()>)
    ensures r.state.store == FileStore.Add(e.store, item).state
    ensures r.result == FileStore.Add(e.store, item).result
    ensures r.result.Ok? ==> Count(r.state) == Count(e) + 1
  {
    var d := FileStore.Add(e.store, item);
    Done(Set(d.state), d.result)
  }

  function AddRange(e: Set, items: seq<Record>): (r: Done<Set, ()>)
    ensures r.state.store == FileStore.AddRange(e.store, items).state
    ensures r.result == FileStore.AddRange(e.store, items).result
    ensures r.result.Ok? ==> Count(r.state) == Count(e) + |items|
  {
    var d := FileStore.AddRange(e.store, items);
    Done(Set(d.state), d.result)
  }

  /** A record added through the set is enumerated by it afterwards. */
  lemma AddThenEnumerate(e: Set, item: Record)
    requires Add(e, item).result.Ok?
    ensures item in Enumerate(Add(e, item).state)
  {
    var k :| k !in e.store.items && Add(e, item).state.store.items == e.store.items[k := item];
    assert Add(e, item).state.store.items[k] == item;
  }

  /** Clearing through the set empties what it enumerates and counts. */
  lemma ClearEmpties(e: Set)
    ensures Enumerate(Clear(e)) == [] && Count(Clear(e)) == 0
  {
  }
}

=== FILE: Errors.dfy ===
/** Failure values shared by every component: the exceptions the library
    raises, a Result for calls that either return or throw, and a Done for
    calls whose side effects survive the exception they end with. */
module Errors {

  /** The exceptions raised by the modelled code, one constructor per
      exception class (or per distinct use of a framework exception). */
  datatype Error =
    | ArgumentNull              // ArgumentNullException
    | IdentityAttributeMismatch // more than one [Identity] property
    | DuplicateKey              // ArgumentException from Dictionary.Add / ToDictionary
    | KeyNotFound               // ArgumentException("id") from Find
    | InvalidOperation          // InvalidOperationException
    | InvalidConnectionString   // InvalidConnectionStringException
    | InvalidProvider           // InvalidProviderException
    | EntityType                // EntityTypeException (second registration of a type)
    | InvalidIdentityType       // InvalidIdentityTypeException
    | InvalidCast               // InvalidCastException from an unboxing cast
    | NullReference             // NullReferenceException
    | NotImplemented            // NotImplementedException

  datatype Option<+T> = None | Some(value: T)

  /** A call that either returns a value or throws. */
  datatype Result<+T> = Ok(value: T) | Err(error: Error) {
    predicate IsFailure() {
      Err?
    }

    function PropagateFailure<U>(): Result<U>
      requires Err?
    {
      Err(error)
    }

    function Extract(): T
      requires Ok?
    {
      value
    }
  }

  /** A call on a stateful object: the state after the call, and whether the
      call returned or threw. The state is kept on failure too, because
      several operations change durable state before they throw. */
  datatype Done<+S, +T> = Done(state: S, result: Result<T>)
}

=== FILE: Factory.dfy ===
/** The fluent context factory: ContextBuilder collects key/value tuples,
    one provider call names the store type, and Builder.Build joins the
    tuples into the connection string the context constructor parses. */
module Factory {
  import opened Errors
  import Text
  import BiggyContext

  /** ConnectionStringConstants.Provider. */
  const Provider: string := "provider"

  /** typeof(JsonStore<>).FullName and its Bson and Memory counterparts. */
  const JsonStoreType: string := "FileBiggy.Json.JsonStore`1"
  const BsonStoreType: string := "FileBiggy.Bson.BsonStore`1"
  const MemoryStoreType: string := "FileBiggy.Memory.MemoryStore`1"

  /** The builder's Dictionary<string, string>. A dictionary that is only
      ever added to enumerates its entries in insertion order, so it is
      kept as the sequence of its entries in that order. */
  type Tuples = seq<(string, string)>

  ghost predicate HasKey(t: Tuples, k: string) {
    exists i :: 0 <= i < |t| && t[i].0 == k
  }

  /** Dictionary.Add: a key already present throws ArgumentException. */
  function AddTuple(t: Tuples, k: string, v: string): (r: Result<Tuples>)
    ensures r.Err? <==> HasKey(t, k)
    ensures r.Err? ==> r.error == DuplicateKey
    ensures r.Ok? ==> r.value == t + [(k, v)]
    ensures BiggyContext.DistinctKeys(t) && r.Ok? ==> BiggyContext.DistinctKeys(r.value)
  {
    if exists i :: 0 <= i < |t| && t[i].0 == k then Err(DuplicateKey) else Ok(t + [(k, v)])
  }

  /** The ContextBuilder constructor: no tuples. */
  function NewContextBuilder(): (t: Tuples)
    ensures |t| == 0
  {
    []
  }

  /** AsJsonDatabase: provider = JsonStore's type name, and the same tuples
      handed on to the next builder. */
  function AsJsonDatabase(t: Tuples): (r: Result<Tuples>)
    ensures r.Err? <==> HasKey(t, Provider)
    ensures r.Ok? ==> r.value == t + [(Provider, JsonStoreType)]
  {
    AddTuple(t, Provider, JsonStoreType)
  }

  /** AsBsonDatabase: provider = BsonStore's type name. */
  function AsBsonDatabase(t: Tuples): (r: Result<Tuples>)
    ensures r.Err? <==> HasKey(t, Provider)
    ensures r.Ok? ==> r.value == t + [(Provider, BsonStoreType)]
  {
    AddTuple(t, Provider, BsonStoreType)
  }

  /** AsInMemoryDatabase: provider = MemoryStore's type name and nothing
      else; the result builds directly, with no path. */
  function AsInMemoryDatabase(t: Tuples): (r: Result<Tuples>)
    ensures r.Err? <==> HasKey(t, Provider)
    ensures r.Ok? ==> r.value == t + [(Provider, MemoryStoreType)]
  {
    AddTuple(t, Provider, MemoryStoreType)
  }

  /** String.Format("{0}{1}{2}", key, '=', value). */
  function Segment(kv: (string, string)): (s: string)
    ensures |s| == |kv.0| + 1 + |kv.1| && s[|kv.0|] == BiggyContext.SegmentSeparator
  {
    kv.0 + [BiggyContext.SegmentSeparator] + kv.1
  }

  function Segments(t: Tuples): (segments: seq<string>)
    ensures |segments| == |t|
    ensures forall i :: 0 <= i < |t| ==> segments[i] == Segment(t[i])
  {
    seq(|t|, i requires 0 <= i < |t| => Segment(t[i]))
  }

  /** Builder.Build: one "key=value" segment per tuple, joined with ';'.
      The string then goes, unchanged, to the context constructor. */
  function Build(t: Tuples): (cs: string)
    ensures |t| == 0 ==> cs == []
    ensures |t| == 1 ==> cs == Segment(t[0])
  {
    Text.Join(Segments(t), BiggyContext.TupleSeparator)
  }

  /** The tuples survive the trip through a connection string: neither
      separator occurs in them, keys are already lower-case, and nothing
      has white space at either end. */
  ghost predicate Safe(t: Tuples) {
    forall i :: 0 <= i < |t| ==>
      && BiggyContext.TupleSeparator !in t[i].0 && BiggyContext.TupleSeparator !in t[i].1
      && BiggyContext.SegmentSeparator !in t[i].0 && BiggyContext.SegmentSeparator !in t[i].1
      && Text.IsLower(t[i].0) && Text.Untrimmed(t[i].0) && Text.Untrimmed(t[i].1)
  }

  /** A separator-free key and value give a segment free of ';'. */
  lemma SegmentFree(kv: (string, string))
    requires BiggyContext.TupleSeparator !in kv.0 && BiggyContext.TupleSeparator !in kv.1
    ensures BiggyContext.TupleSeparator !in Segment(kv)
  {
    var s := Segment(kv);
    forall j | 0 <= j < |s| ensures s[j] != BiggyContext.TupleSeparator {
      if j < |kv.0| { assert s[j] == kv.0[j]; }
      else if j > |kv.0| { assert s[j] == kv.1[j - |kv.0| - 1]; }
    }
  }

  /** With safe tuples, the built string has exactly one ';' between each
      pair of consecutive segments. */
  lemma BuildSeparators(t: Tuples)
    requires |t| >= 1 && Safe(t)
    ensures Text.Count(Build(t), BiggyContext.TupleSeparator) == |t| - 1
  {
    var segments := Segments(t);
    forall i | 0 <= i < |segments| ensures BiggyContext.TupleSeparator !in segments[i] {
      SegmentFree(t[i]);
    }
    Text.JoinCount(segments, BiggyContext.TupleSeparator);
  }

  /** Parsing one built segment gives back its tuple. */
  lemma SegmentParses(kv: (string, string))
    requires BiggyContext.SegmentSeparator !in kv.0 && BiggyContext.SegmentSeparator !in kv.1
    requires Text.IsLower(kv.0) && Text.Untrimmed(kv.0) && Text.Untrimmed(kv.1)
    ensures BiggyContext.ParseSegment(Segment(kv)) == kv
  {
    BiggyContext.PairSegment(kv.0, kv.1);
  }

  /** Splitting a built string on ';' gives back its segments, and the
      string is not empty. */
  lemma BuildSplits(t: Tuples)
    requires |t| >= 1 && Safe(t)
    ensures Text.Split(Build(t), BiggyContext.TupleSeparator) == Segments(t)
    ensures Build(t) != []
  {
    var segments := Segments(t);
    forall i | 0 <= i < |segments| ensures BiggyContext.TupleSeparator !in segments[i] {
      SegmentFree(t[i]);
    }
    Text.SplitJoin(segments, BiggyContext.TupleSeparator);
    assert |segments[0]| > 0;
  }

  /** The context's segment parser recovers the tuples from a built string. */
  lemma BuildSegments(t: Tuples)
    requires |t| >= 1 && Safe(t)
    ensures BiggyContext.Segments(Build(t)) == t
  {
    BuildSplits(t);
    var pairs := BiggyContext.Segments(Build(t));
    forall i | 0 <= i < |t| ensures pairs[i] == t[i] {
      SegmentParses(t[i]);
    }
  }

  /** Round trip: the context parses what Build wrote back into the same
      settings, one entry per tuple. */
  lemma BuildParses(t: Tuples)
    requires |t| >= 1 && Safe(t) && BiggyContext.DistinctKeys(t)
    ensures BiggyContext.Parse(Build(t)).Ok?
    ensures var m := BiggyContext.Parse(Build(t)).value;
            && |m| == |t|
            && (forall i :: 0 <= i < |t| ==> t[i].0 in m && m[t[i].0] == t[i].1)
            && (forall k :: k in m ==> HasKey(t, k))
  {
    BuildSplits(t);
    BuildSegments(t);
    assert BiggyContext.Parse(Build(t)) == BiggyContext.Tabulate(t);
  }

  /** A builder with no tuples builds the empty string, which the context
      constructor refuses. */
  lemma EmptyBuildRejected()
    ensures Build(NewContextBuilder()) == []
    ensures BiggyContext.Parse(Build(NewContextBuilder())) == Err(ArgumentNull)
  {
  }

  /** A provider can be chosen once: a second provider call on the same
      tuples throws. */
  lemma SecondProviderFails(t: Tuples)
    requires AsJsonDatabase(t).Ok?
    ensures AsBsonDatabase(AsJsonDatabase(t).value) == Err(DuplicateKey)
    ensures AsInMemoryDatabase(AsJsonDatabase(t).value) == Err(DuplicateKey)
    ensures AsJsonDatabase(AsJsonDatabase(t).value) == Err(DuplicateKey)
  {
    var u := AsJsonDatabase(t).value;
    assert u[|t|].0 == Provider;
  }

  /** The provider tuples the builder writes are safe to round-trip. */
  lemma ProviderTuplesSafe(storeType: string)
    requires storeType == JsonStoreType || storeType == BsonStoreType || storeType == MemoryStoreType
    ensures Safe([(Provider, storeType)])
  {
    assert forall i :: 0 <= i < |Provider| ==> 'a' <= Provider[i] <= 'z';
    assert forall i :: 0 <= i < |storeType| ==>
      storeType[i] != BiggyContext.SegmentSeparator && storeType[i] != BiggyContext.TupleSeparator;
  }

  /** The settings parsed from one built tuple hold just that tuple. */
  lemma SingleTupleSettings(t: Tuples)
    requires |t| == 1 && Safe(t)
    ensures BiggyContext.Parse(Build(t)).Ok?
    ensures BiggyContext.Parse(Build(t)).value.Keys == {t[0].0}
    ensures BiggyContext.Parse(Build(t)).value[t[0].0] == t[0].1
  {
    BuildParses(t);
    KeysOfOne(t, BiggyContext.Parse(Build(t)).value);
  }

  /** Settings whose every key comes from a single tuple hold only its key. */
  lemma KeysOfOne(t: Tuples, m: map<string, string>)
    requires |t| == 1 && t[0].0 in m
    requires forall k :: k in m ==> HasKey(t, k)
    ensures m.Keys == {t[0].0}
  {
    forall x | x in m ensures x == t[0].0 {
      var i :| 0 <= i < |t| && t[i].0 == x;
    }
  }

  /** A builder holding just one safe tuple yields "key=value", which
      parses to exactly that setting: in particular the provider tuple of
      a fresh builder. */
  lemma SingleTupleParses(k: string, v: string)
    requires Safe([(k, v)])
    ensures BiggyContext.Parse(Build([(k, v)])) == Ok(map[k := v])
  {
    var t := [(k, v)];
    SingleTupleSettings(t);
    var r := BiggyContext.Parse(Build(t));
    MapOfOne(r.value, k, v);
  }

  lemma MapOfOne(m: map<string, string>, k: string, v: string)
    requires m.Keys == {k} && m[k] == v
    ensures m == map[k := v]
  {
  }

  /** Each provider call on a fresh builder records exactly the provider
      tuple naming its store type. */
  lemma FreshBuilderProviders()
    ensures AsInMemoryDatabase(NewContextBuilder()) == Ok([(Provider, MemoryStoreType)])
    ensures AsJsonDatabase(NewContextBuilder()) == Ok([(Provider, JsonStoreType)])
    ensures AsBsonDatabase(NewContextBuilder()) == Ok([(Provider, BsonStoreType)])
    ensures Provider == BiggyContext.ProviderIdentifier
  {
    var t := NewContextBuilder();
    assert !HasKey(t, Provider);
    assert AsInMemoryDatabase(t).Ok? && AsJsonDatabase(t).Ok? && AsBsonDatabase(t).Ok?;
    assert t + [(Provider, MemoryStoreType)] == [(Provider, MemoryStoreType)];
    assert t + [(Provider, JsonStoreType)] == [(Provider, JsonStoreType)];
    assert t + [(Provider, BsonStoreType)] == [(Provider, BsonStoreType)];
  }
}

=== FILE: FileStore.dfy ===
/** Common/FileSystemStore<T>: a dictionary from key to record kept next to
    a durable file of records. The file is abstracted as the sequence of
    records it holds: Append adds records after the existing ones and
    FlushToDisk replaces the whole sequence. Records without an identity
    are keyed by a fresh Guid on every GetKey call, modelled by a counter. */
module FileStore {
  import opened Errors
  import opened Identity
  import opened Collections
  import StoreBase

  /** ConnectionStringConstants.Path */
  const PathKey: string := "path"

  /** A dictionary key: an identity value, or a Guid minted by GetKey. */
  datatype Key = Identity(v: Value) | Surrogate(n: nat)

  datatype Store = Store(
    base: StoreBase.Base,
    directory: string,
    items: map<Key, Record>,
    file: seq<Record>,
    nextGuid: nat)

  /** Every minted Guid in the dictionary is older than the next one:
      Guid.NewGuid never repeats. */
  ghost predicate SurrogatesBelow(m: map<Key, Record>, next: nat) {
    forall k :: k in m && k.Surrogate? ==> k.n < next
  }

  ghost predicate Wf(s: Store) {
    SurrogatesBelow(s.items, s.nextGuid)
  }

  /** The durable records and the dictionary's values are the same multiset. */
  ghost predicate Consistent(s: Store) {
    multiset(s.file) == multiset(Values(s.items))
  }

  /** The identity value of a record, Null when it has none (or several). */
  function IdentityValue(item: Record): Value {
    match GetKeyFromEntity(Some(item))
    case Ok(v) => v
    case Err(_) => Null
  }

  /** The private GetKey: the identity value when there is one, otherwise a
      fresh Guid (`Surrogate(next)`, consuming the counter). */
  function GetKey(item: Record, next: nat): (r: Result<(Key, nat)>)
    ensures r.Err? <==> Ambiguous(item.props)
    ensures r.Err? ==> r.error == IdentityAttributeMismatch
    ensures r.Ok? && IdentityValue(item) != Null ==> r.value == (Identity(IdentityValue(item)), next)
    ensures r.Ok? && IdentityValue(item) == Null ==> r.value == (Surrogate(next), next + 1)
    ensures forall i :: SoleIdentity(item.props, i) && item.props[i].value != Null ==>
              r == Ok((Identity(item.props[i].value), next))
  {
    var identity :- GetKeyFromEntity(Some(item));
    if identity == Null then Ok((Surrogate(next), next + 1)) else Ok((Identity(identity), next))
  }

  /** `_items.Add(GetKey(item), item)`. */
  function Insert(m: map<Key, Record>, item: Record, next: nat): (r: Result<(map<Key, Record>, nat)>)
    ensures SurrogatesBelow(m, next) ==>
              (r.Err? <==> Ambiguous(item.props) || (IdentityValue(item) != Null && Identity(IdentityValue(item)) in m))
    ensures r.Err? ==> r.error == IdentityAttributeMismatch || r.error == DuplicateKey
    ensures r.Ok? ==> r.value.1 >= next
    ensures r.Ok? ==> SurrogatesBelow(m, next) ==> SurrogatesBelow(r.value.0, r.value.1)
    ensures r.Ok? ==> exists k :: k !in m && r.value.0 == m[k := item]
    ensures r.Ok? ==> multiset(Values(r.value.0)) == multiset(Values(m)) + multiset{item}
  {
    var (k, next') :- GetKey(item, next);
    if k in m then Err(DuplicateKey)
    else
      ValuesInsert(m, k, item);
      Ok((m[k := item], next'))
  }

  /** The records of a batch can all be added to `m`: each resolves, none
      repeats an identity already in `m`, and no two share an identity. */
  ghost predicate Insertable(m: map<Key, Record>, rs: seq<Record>) {
    && (forall i :: 0 <= i < |rs| ==> !Ambiguous(rs[i].props))
    && (forall i :: 0 <= i < |rs| && IdentityValue(rs[i]) != Null ==> Identity(IdentityValue(rs[i])) !in m)
    && (forall i, j :: 0 <= i < j < |rs| && IdentityValue(rs[i]) != Null ==> IdentityValue(rs[i]) != IdentityValue(rs[j]))
  }

  /** The dictionary after inserting a batch one record at a time: how
      many were inserted, and whether an insertion threw. */
  datatype Batch = Batch(items: map<Key, Record>, next: nat, inserted: nat, result: Result<()>)

  /** `foreach (var item in items) _items.Add(GetKey(item), item);` -- the
      loop stops at the first record that throws, keeping what it inserted. */
  function InsertEach(m: map<Key, Record>, rs: seq<Record>, next: nat): (b: Batch)
    ensures b.inserted <= |rs|
    ensures b.result.Ok? <==> b.inserted == |rs|
    ensures b.next >= next
    ensures multiset(Values(b.items)) == multiset(Values(m)) + multiset(rs[..b.inserted])
    ensures SurrogatesBelow(m, next) ==> SurrogatesBelow(b.items, b.next)
    ensures b.result.Err? ==> b.result.error == IdentityAttributeMismatch || b.result.error == DuplicateKey
    decreases |rs|
  {
    if |rs| == 0 then Batch(m, next, 0, Ok(()))
    else
      var first := Insert(m, rs[0], next);
      if first.Err? then Batch(m, next, 0, Err(first.error))
      else
        var b := InsertEach(first.value.0, rs[1..], first.value.1);
        InsertEachCons(m, rs, next, b);
        Batch(b.items, b.next, b.inserted + 1, b.result)
  }

  /** The loop runs to the end of the batch exactly when the batch is
      insertable, provided the surrogate counter is ahead of the keys. */
  lemma {:induction false} InsertEachAccepts(m: map<Key, Record>, rs: seq<Record>, next: nat)
    ensures SurrogatesBelow(m, next) ==> (InsertEach(m, rs, next).result.Ok? <==> Insertable(m, rs))
    decreases |rs|
  {
    if |rs| > 0 && SurrogatesBelow(m, next) {
      var first := Insert(m, rs[0], next);
      if first.Err? {
        InsertableHead(m, rs, next);
      } else {
        InsertEachAccepts(first.value.0, rs[1..], first.value.1);
        InsertableStep(m, rs, next);
      }
    }
  }

  /** The counts and contents part of InsertEach's postcondition for a batch
      whose first record went in, from that of the recursive call. */
  lemma InsertEachCons(m: map<Key, Record>, rs: seq<Record>, next: nat, b: Batch)
    requires |rs| > 0 && Insert(m, rs[0], next).Ok?
    requires var (m', next') := Insert(m, rs[0], next).value;
      && b.inserted <= |rs[1..]|
      && b.next >= next'
      && multiset(Values(b.items)) == multiset(Values(m')) + multiset(rs[1..][..b.inserted])
    ensures b.inserted + 1 <= |rs|
    ensures b.next >= next
    ensures multiset(Values(b.items)) == multiset(Values(m)) + multiset(rs[..b.inserted + 1])
  {
    PrefixCons(rs, b.inserted);
  }

  lemma PrefixCons<T>(rs: seq<T>, n: nat)
    requires n < |rs|
    ensures multiset(rs[..n + 1]) == multiset{rs[0]} + multiset(rs[1..][..n])
  {
    assert rs[..n + 1] == [rs[0]] + rs[1..][..n];
  }

  /** A batch whose first record cannot be inserted is not insertable. */
  lemma InsertableHead(m: map<Key, Record>, rs: seq<Record>, next: nat)
    requires |rs| > 0 && Insert(m, rs[0], next).Err?
    ensures SurrogatesBelow(m, next) ==> !Insertable(m, rs)
  {
  }

  /** Once the first record is in, the rest of the batch is insertable into
      the grown dictionary exactly when the whole batch was into the old. */
  lemma InsertableStep(m: map<Key, Record>, rs: seq<Record>, next: nat)
    requires |rs| > 0 && Insert(m, rs[0], next).Ok?
    ensures var (m', _) := Insert(m, rs[0], next).value;
            SurrogatesBelow(m, next) ==> (Insertable(m, rs) <==> Insertable(m', rs[1..]))
  {
    if SurrogatesBelow(m, next) {
      var m' := Insert(m, rs[0], next).value.0;
      var k0 := GetKey(rs[0], next).value.0;
      assert m' == m[k0 := rs[0]];
      if Insertable(m, rs) {
        InsertableTail(m, rs, k0);
      }
      if Insertable(m', rs[1..]) {
        InsertableCons(m, rs, k0);
      }
    }
  }

  /** The key a record is stored under: its identity when it has one. */
  ghost predicate StoredUnder(item: Record, k: Key) {
    if IdentityValue(item) != Null then k == Identity(IdentityValue(item)) else k.Surrogate?
  }

  /** The rest of an insertable batch is insertable once its first record is in. */
  lemma InsertableTail(m: map<Key, Record>, rs: seq<Record>, k0: Key)
    requires |rs| > 0 && Insertable(m, rs) && StoredUnder(rs[0], k0)
    ensures Insertable(m[k0 := rs[0]], rs[1..])
  {
    var m', t := m[k0 := rs[0]], rs[1..];
    forall i | 0 <= i < |t| && IdentityValue(t[i]) != Null
      ensures Identity(IdentityValue(t[i])) !in m'
    {
      assert t[i] == rs[i + 1];
      assert Identity(IdentityValue(rs[i + 1])) !in m;
      if IdentityValue(rs[0]) != Null {
        assert IdentityValue(rs[0]) != IdentityValue(rs[i + 1]);
      }
    }
    forall i | 0 <= i < |t| ensures !Ambiguous(t[i].props) {
      assert t[i] == rs[i + 1];
    }
    forall i, j | 0 <= i < j < |t| && IdentityValue(t[i]) != Null
      ensures IdentityValue(t[i]) != IdentityValue(t[j])
    {
      assert t[i] == rs[i + 1] && t[j] == rs[j + 1];
    }
  }

  /** A first record that goes in under a fresh key, followed by a batch
      insertable after it, makes an insertable batch. */
  lemma InsertableCons(m: map<Key, Record>, rs: seq<Record>, k0: Key)
    requires |rs| > 0 && StoredUnder(rs[0], k0) && k0 !in m && !Ambiguous(rs[0].props)
    requires Insertable(m[k0 := rs[0]], rs[1..])
    ensures Insertable(m, rs)
  {
    var m', t := m[k0 := rs[0]], rs[1..];
    forall i | 0 <= i < |rs| ensures !Ambiguous(rs[i].props) {
      if i > 0 { assert rs[i] == t[i - 1]; }
    }
    forall i | 0 <= i < |rs| && IdentityValue(rs[i]) != Null
      ensures Identity(IdentityValue(rs[i])) !in m
    {
      if i > 0 {
        assert rs[i] == t[i - 1];
        assert Identity(IdentityValue(t[i - 1])) !in m';
      }
    }
    forall i, j | 0 <= i < j < |rs| && IdentityValue(rs[i]) != Null
      ensures IdentityValue(rs[i]) != IdentityValue(rs[j])
    {
      assert rs[j] == t[j - 1];
      if i == 0 {
        assert k0 in m';
        if IdentityValue(t[j - 1]) != Null {
          assert Identity(IdentityValue(t[j - 1])) !in m';
        }
      } else {
        assert rs[i] == t[i - 1];
        assert IdentityValue(t[i - 1]) != IdentityValue(t[j - 1]);
      }
    }
  }

  /** The constructor: the "path" setting is required; the file's records
      are loaded and indexed with ToDictionary(GetKey), which throws on a
      repeated key. `durable` is what Load decodes from the file. */
  function Create(settings: StoreBase.Settings, durable: seq<Record>): (r: Result<Store>)
    ensures PathKey !in settings ==> r == Err(InvalidConnectionString)
    ensures PathKey in settings ==> (r.Ok? <==> Insertable(map[], durable))
    ensures r.Ok? ==> Wf(r.value) && Consistent(r.value)
    ensures r.Ok? ==> r.value.file == durable && |r.value.items| == |durable|
    ensures r.Ok? ==> r.value.directory == settings[PathKey] && r.value.base.connectionString == settings
  {
    if PathKey !in settings then Err(InvalidConnectionString)
    else
      var b := InsertEach(map[], durable, 0);
      InsertEachAccepts(map[], durable, 0);
      if b.result.Err? then Err(b.result.error)
      else
        assert durable[..b.inserted] == durable;
        Ok(Store(StoreBase.NewBase(settings), settings[PathKey], b.items, durable, b.next))
  }

  /** Find: the record stored under `id`; ArgumentException when absent. */
  function Find(s: Store, id: Key): (r: Result<Record>)
    ensures r.Ok? <==> id in s.items
    ensures r.Ok? ==> r.value == s.items[id]
    ensures r.Err? ==> r.error == KeyNotFound
  {
    if id in s.items then Ok(s.items[id]) else Err(KeyNotFound)
  }

  /** All: a detached list holding exactly the dictionary's values. */
  ghost function All(s: Store): (r: seq<Record>)
    ensures |r| == |s.items|
    ensures forall x :: x in r <==> x in s.items.Values
    ensures ListsValues(s.items, r)
  {
    var r := Values(s.items);
    ValuesListed(s.items);
    forall x ensures x in r <==> x in s.items.Values {
      ValuesContents(s.items, x);
    }
    r
  }

  /** AsQueryable: the same detached snapshot as All. */
  ghost function AsQueryable(s: Store): (r: seq<Record>)
    ensures |r| == |s.items|
    ensures forall x :: x in r <==> x in s.items.Values
    ensures ListsValues(s.items, r)
  {
    All(s)
  }

  /** Clear: an empty dictionary and an empty file. */
  function Clear(s: Store): (s': Store)
    ensures |s'.items| == 0 && s'.file == []
    ensures s'.base == s.base && s'.directory == s.directory
    ensures Wf(s) ==> Wf(s')
    ensures Consistent(s')
  {
    s.(items := map[], file := [])
  }

  /** Clearing twice is clearing once. */
  lemma ClearIdempotent(s: Store)
    ensures Clear(Clear(s)) == Clear(s)
    ensures Clear(s).items == map[] && Clear(s).file == []
  {
  }

  /** Add: append the record to the file, then add it to the dictionary;
      a repeated key throws after the append. */
  function Add(s: Store, item: Record): (r: Done<Store, ()>)
    ensures r.state.file == s.file + [item]
    ensures r.state.base == s.base && r.state.directory == s.directory
    ensures Wf(s) ==> Wf(r.state)
    ensures Wf(s) ==> (r.result.Ok? <==> Insertable(s.items, [item]))
    ensures r.result.Err? ==> r.state.items == s.items
    ensures r.result.Ok? ==> exists k :: k !in s.items && r.state.items == s.items[k := item]
    ensures r.result.Ok? ==> |r.state.items| == |s.items| + 1
    ensures r.result.Ok? && Consistent(s) ==> Consistent(r.state)
  {
    var file' := s.file + [item];
    var b := InsertEach(s.items, [item], s.nextGuid);
    InsertOne(s.items, item, s.nextGuid);
    InsertEachAccepts(s.items, [item], s.nextGuid);
    Done(s.(file := file', items := b.items, nextGuid := b.next), b.result)
  }

  /** A one-record batch is a single insertion. */
  lemma InsertOne(m: map<Key, Record>, item: Record, next: nat)
    ensures var b := InsertEach(m, [item], next);
            && (b.result.Err? ==> b.items == m)
            && (b.result.Ok? ==> Insert(m, item, next) == Ok((b.items, b.next)))
  {
    assert [item][1..] == [];
  }

  /** Add(List): append the whole batch to the file, then insert the records
      one by one; a repeated key mid-batch throws with only the records
      before it in the dictionary. */
  function AddRange(s: Store, rs: seq<Record>): (r: Done<Store, ()>)
    ensures r.state.file == s.file + rs
    ensures Wf(s) ==> Wf(r.state)
    ensures Wf(s) ==> (r.result.Ok? <==> Insertable(s.items, rs))
    ensures r.result.Ok? ==> |r.state.items| == |s.items| + |rs|
    ensures r.result.Ok? && Consistent(s) ==> Consistent(r.state)
    ensures exists n :: 0 <= n <= |rs| && (r.result.Err? ==> n < |rs|) &&
              multiset(Values(r.state.items)) == multiset(Values(s.items)) + multiset(rs[..n])
  {
    var b := InsertEach(s.items, rs, s.nextGuid);
    InsertEachAccepts(s.items, rs, s.nextGuid);
    InsertEachOutcome(s.items, rs, s.nextGuid);
    assert multiset(s.file + rs) == multiset(s.file) + multiset(rs);
    Done(s.(file := s.file + rs, items := b.items, nextGuid := b.next), b.result)
  }

  /** What a batch insertion leaves in the dictionary, in the terms of the
      records that went in: all of them when it ran to the end, a proper
      prefix of the batch when it threw. */
  lemma InsertEachOutcome(m: map<Key, Record>, rs: seq<Record>, next: nat)
    ensures var b := InsertEach(m, rs, next);
            && (b.result.Ok? ==> multiset(Values(b.items)) == multiset(Values(m)) + multiset(rs))
            && (b.result.Ok? ==> |b.items| == |m| + |rs|)
            && exists n :: 0 <= n <= |rs| && (b.result.Err? ==> n < |rs|) &&
                 multiset(Values(b.items)) == multiset(Values(m)) + multiset(rs[..n])
  {
    var b := InsertEach(m, rs, next);
    if b.result.Ok? {
      assert rs[..b.inserted] == rs;
      assert |multiset(Values(b.items))| == |b.items|;
      assert |multiset(Values(m))| == |m|;
    }
  }

  /** A batch that throws mid-way leaves the file holding records the
      dictionary does not: the two diverge. */
  lemma AddRangeFailureDiverges(s: Store, rs: seq<Record>)
    requires Consistent(s) && AddRange(s, rs).result.Err?
    ensures !Consistent(AddRange(s, rs).state)
  {
    var r := AddRange(s, rs);
    var n :| 0 <= n <= |rs| && n < |rs| &&
      multiset(Values(r.state.items)) == multiset(Values(s.items)) + multiset(rs[..n]);
    assert |multiset(rs[..n])| == n;
    assert |multiset(r.state.file)| == |s.file| + |rs|;
    assert |multiset(Values(s.items))| == |s.file|;
  }

  /** Update: remove the entry under the item's key, add the item under its
      key again (so an absent key is inserted), rewrite the file from the
      dictionary and return the item. Each GetKey call mints a new Guid for
      a record without identity, so such a record is added once more. */
  ghost function Update(s: Store, item: Record): (r: Done<Store, Record>)
    ensures r.result.Ok? ==> r.result.value == item && Consistent(r.state)
    ensures Wf(s) ==> (r.result.Err? <==> Ambiguous(item.props))
    ensures Wf(s) ==> Wf(r.state)
    ensures IdentityValue(item) != Null ==>
              r.state.items == s.items[Identity(IdentityValue(item)) := item]
    ensures Wf(s) && !Ambiguous(item.props) && IdentityValue(item) == Null ==>
              |r.state.items| == |s.items| + 1 && item in r.state.items.Values
    ensures Ambiguous(item.props) ==> r.state == s
  {
    match GetKey(item, s.nextGuid)
    case Err(e) => Done(s, Err(e))
    case Ok((k1, n1)) =>
      var m1 := s.items - {k1};
      match GetKey(item, n1)
      case Err(e) => Done(s.(items := m1, nextGuid := n1), Err(e))
      case Ok((k2, n2)) =>
        if k2 in m1 then Done(s.(items := m1, nextGuid := n2), Err(DuplicateKey))
        else
          Reinsert(s.items, k1, k2, item);
          var m2 := m1[k2 := item];
          Done(s.(items := m2, file := Values(m2), nextGuid := n2), Ok(item))
  }

  /** Removing the entry under `k1` and adding `item` under `k2`: the same
      key replaces the entry, a new key grows the dictionary by one. */
  lemma Reinsert(m: map<Key, Record>, k1: Key, k2: Key, item: Record)
    requires k2 !in m - {k1}
    ensures var m2 := (m - {k1})[k2 := item];
            && k2 in m2 && m2[k2] == item && item in m2.Values
            && (k1 == k2 ==> m2 == m[k1 := item])
            && (k1 !in m ==> |m2| == |m| + 1)
  {
    var m2 := (m - {k1})[k2 := item];
    assert m2[k2] == item;
    if k1 == k2 {
      assert m2 == m[k1 := item];
    }
    if k1 !in m {
      assert m - {k1} == m;
    }
  }

  /** Remove: drop the entry under the item's key (a no-op when absent) and
      rewrite the file from the dictionary. */
  ghost function Remove(s: Store, item: Record): (r: Done<Store, ()>)
    ensures r.result.Err? <==> Ambiguous(item.props)
    ensures r.result.Err? ==> r.state == s
    ensures r.result.Ok? ==> Consistent(r.state)
    ensures Wf(s) ==> Wf(r.state)
    ensures IdentityValue(item) != Null ==> r.state.items == s.items - {Identity(IdentityValue(item))}
    ensures Wf(s) && IdentityValue(item) == Null ==> r.state.items == s.items
  {
    match GetKey(item, s.nextGuid)
    case Err(e) => Done(s, Err(e))
    case Ok((k, n)) =>
      var m := s.items - {k};
      Done(s.(items := m, file := Values(m), nextGuid := n), Ok(()))
  }

  /** The identity keys of a batch. */
  ghost function IdentityKeys(rs: seq<Record>): set<Key> {
    set i | 0 <= i < |rs| && IdentityValue(rs[i]) != Null :: Identity(IdentityValue(rs[i]))
  }

  /** `foreach (var item in items) _items.Remove(GetKey(item));` -- stops at
      the first record whose key cannot be resolved. */
  function RemoveEachKey(m: map<Key, Record>, rs: seq<Record>, next: nat): (b: Batch)
    ensures b.result.Ok? <==> forall i :: 0 <= i < |rs| ==> !Ambiguous(rs[i].props)
    ensures b.next >= next
    ensures SurrogatesBelow(m, next) ==> SurrogatesBelow(b.items, b.next)
    ensures SurrogatesBelow(m, next) && b.result.Ok? ==> b.items == m - IdentityKeys(rs)
    ensures b.items.Keys <= m.Keys
    ensures forall k :: k in b.items ==> b.items[k] == m[k]
    decreases |rs|
  {
    if |rs| == 0 then
      assert m - IdentityKeys(rs) == m;
      Batch(m, next, 0, Ok(()))
    else
      match GetKey(rs[0], next)
      case Err(e) => Batch(m, next, 0, Err(e))
      case Ok((k, n)) =>
        var b := RemoveEachKey(m - {k}, rs[1..], n);
        RemoveEachKeyCons(m, rs, next, b);
        Batch(b.items, b.next, b.inserted, b.result)
  }

  /** RemoveEachKey's postcondition for a batch whose first key resolved,
      from that of the recursive call on the rest. */
  lemma RemoveEachKeyCons(m: map<Key, Record>, rs: seq<Record>, next: nat, b: Batch)
    requires |rs| > 0 && GetKey(rs[0], next).Ok?
    requires var (k, n) := GetKey(rs[0], next).value;
      && (b.result.Ok? <==> forall i :: 0 <= i < |rs[1..]| ==> !Ambiguous(rs[1..][i].props))
      && b.next >= n
      && (SurrogatesBelow(m - {k}, n) ==> SurrogatesBelow(b.items, b.next))
      && (SurrogatesBelow(m - {k}, n) && b.result.Ok? ==> b.items == m - {k} - IdentityKeys(rs[1..]))
      && b.items.Keys <= (m - {k}).Keys
      && (forall x :: x in b.items ==> b.items[x] == (m - {k})[x])
    ensures b.result.Ok? <==> forall i :: 0 <= i < |rs| ==> !Ambiguous(rs[i].props)
    ensures b.next >= next
    ensures SurrogatesBelow(m, next) ==> SurrogatesBelow(b.items, b.next)
    ensures SurrogatesBelow(m, next) && b.result.Ok? ==> b.items == m - IdentityKeys(rs)
    ensures b.items.Keys <= m.Keys
    ensures forall x :: x in b.items ==> b.items[x] == m[x]
  {
    var (k, n) := GetKey(rs[0], next).value;
    var t := rs[1..];
    assert forall i :: 0 <= i < |t| ==> t[i] == rs[i + 1];
    if SurrogatesBelow(m, next) {
      assert SurrogatesBelow(m - {k}, n);
      if b.result.Ok? {
        IdentityKeysStep(rs);
        if IdentityValue(rs[0]) == Null {
          assert k.Surrogate? && k !in m;
          assert m - {k} == m;
        }
      }
    }
  }

  lemma IdentityKeysStep(rs: seq<Record>)
    requires |rs| > 0
    ensures IdentityKeys(rs) == IdentityKeys(rs[1..]) +
              (if IdentityValue(rs[0]) != Null then {Identity(IdentityValue(rs[0]))} else {})
  {
    var t := rs[1..];
    forall k | k in IdentityKeys(rs)
      ensures k in IdentityKeys(t) || (IdentityValue(rs[0]) != Null && k == Identity(IdentityValue(rs[0])))
    {
      var i :| 0 <= i < |rs| && IdentityValue(rs[i]) != Null && k == Identity(IdentityValue(rs[i]));
      if i > 0 { assert rs[i] == t[i - 1]; }
    }
    forall k | k in IdentityKeys(t) ensures k in IdentityKeys(rs) {
      var i :| 0 <= i < |t| && IdentityValue(t[i]) != Null && k == Identity(IdentityValue(t[i]));
      assert t[i] == rs[i + 1];
    }
  }

  /** Remove(IEnumerable): drop the entry of every record's key, then
      rewrite the file from the dictionary. A record whose key cannot be
      resolved throws before the rewrite, leaving the file stale. */
  ghost function RemoveRange(s: Store, rs: seq<Record>): (r: Done<Store, ()>)
    ensures r.result.Ok? <==> forall i :: 0 <= i < |rs| ==> !Ambiguous(rs[i].props)
    ensures r.result.Ok? ==> Consistent(r.state)
    ensures r.result.Err? ==> r.state.file == s.file
    ensures Wf(s) ==> Wf(r.state)
    ensures Wf(s) && r.result.Ok? ==> r.state.items == s.items - IdentityKeys(rs)
    ensures forall k :: k in r.state.items ==> k in s.items && r.state.items[k] == s.items[k]
  {
    var b := RemoveEachKey(s.items, rs, s.nextGuid);
    if b.result.Err? then Done(s.(items := b.items, nextGuid := b.next), b.result)
    else Done(s.(items := b.items, file := Values(b.items), nextGuid := b.next), Ok(()))
  }

  /** After a successful Add of a record with an identity, Find by that
      identity returns the record. */
  lemma FindAfterAdd(s: Store, item: Record)
    requires Wf(s) && IdentityValue(item) != Null
    requires Add(s, item).result.Ok?
    ensures Find(Add(s, item).state, Identity(IdentityValue(item))) == Ok(item)
  {
    var k := Identity(IdentityValue(item));
    assert GetKey(item, s.nextGuid) == Ok((k, s.nextGuid));
    InsertOne(s.items, item, s.nextGuid);
  }

  /** Every operation that completes keeps the file and the dictionary in
      agreement, when they agreed before. */
  lemma OperationsKeepConsistency(s: Store, item: Record, rs: seq<Record>)
    requires Consistent(s)
    ensures Add(s, item).result.Ok? ==> Consistent(Add(s, item).state)
    ensures AddRange(s, rs).result.Ok? ==> Consistent(AddRange(s, rs).state)
    ensures Update(s, item).result.Ok? ==> Consistent(Update(s, item).state)
    ensures Remove(s, item).result.Ok? ==> Consistent(Remove(s, item).state)
    ensures RemoveRange(s, rs).result.Ok? ==> Consistent(RemoveRange(s, rs).state)
    ensures Consistent(Clear(s))
  {
  }
}

=== FILE: Identity.dfy ===
/** Records and identity resolution (IdentityHelper.GetKeyFromEntity).
    A record is modelled by its public properties in declaration order,
    each carrying whether it is marked [Identity], its declared type and
    its current value; reflection over the record's class is replaced by
    reading that sequence. */
module Identity {
  import opened Errors

  /** The declared types the library distinguishes. */
  datatype PropType = IntType | StringType | GuidType | DecimalType | OtherType(name: string)

  /** A System.Guid: the 128-bit number its canonical string spells out. */
  type Uuid = g: nat | g < 0x1_0000_0000_0000_0000_0000_0000_0000_0000

  /** A boxed property value. `Null` is the C# null reference. */
  datatype Value = Null | Int(i: int) | Str(s: string) | Guid(g: Uuid)

  /** What reflection knows about a property without an instance. */
  datatype Decl = Decl(name: string, isIdentity: bool, ptype: PropType)

  datatype Property = Property(decl: Decl, value: Value)

  /** An instance of a record class: its properties in declaration order. */
  datatype Record = Record(props: seq<Property>)

  /** The record's shape: its property declarations without values. */
  function Shape(r: Record): (decls: seq<Decl>)
    ensures |decls| == |r.props|
    ensures forall i :: 0 <= i < |decls| ==> decls[i] == r.props[i].decl
  {
    seq(|r.props|, i requires 0 <= i < |r.props| => r.props[i].decl)
  }

  predicate IsMarked(ps: seq<Property>, i: int) {
    0 <= i < |ps| && ps[i].decl.isIdentity
  }

  /** No property carries [Identity]. */
  ghost predicate NoIdentity(ps: seq<Property>) {
    forall i :: 0 <= i < |ps| ==> !IsMarked(ps, i)
  }

  /** Property `i` is the one and only [Identity] property. */
  ghost predicate SoleIdentity(ps: seq<Property>, i: int) {
    IsMarked(ps, i) && forall j :: 0 <= j < |ps| && j != i ==> !IsMarked(ps, j)
  }

  /** Two different properties carry [Identity]. */
  ghost predicate Ambiguous(ps: seq<Property>) {
    exists i, j :: 0 <= i < j < |ps| && IsMarked(ps, i) && IsMarked(ps, j)
  }

  /** The [Identity]-marked properties in declaration order: the single
      group that survives the GroupBy/Where of the source. */
  function Marked(ps: seq<Property>): (r: seq<Property>)
    ensures |r| == 0 <==> NoIdentity(ps)
    ensures |r| >= 2 <==> Ambiguous(ps)
    ensures forall i :: SoleIdentity(ps, i) ==> r == [ps[i]]
  {
    if |ps| == 0 then []
    else
      var tail := Marked(ps[1..]);
      MarkedShift(ps);
      if ps[0].decl.isIdentity then [ps[0]] + tail else tail
  }

  /** How the three shape predicates of `ps` follow from those of its tail. */
  lemma MarkedShift(ps: seq<Property>)
    requires |ps| > 0
    ensures forall i :: 0 <= i < |ps[1..]| ==> (IsMarked(ps[1..], i) <==> IsMarked(ps, i + 1))
    ensures NoIdentity(ps) <==> !IsMarked(ps, 0) && NoIdentity(ps[1..])
    ensures Ambiguous(ps) <==>
              (IsMarked(ps, 0) && !NoIdentity(ps[1..])) || Ambiguous(ps[1..])
    ensures forall i :: SoleIdentity(ps, i) && i > 0 ==> !IsMarked(ps, 0) && SoleIdentity(ps[1..], i - 1)
    ensures SoleIdentity(ps, 0) ==> NoIdentity(ps[1..])
  {
    var t := ps[1..];
    if !IsMarked(ps, 0) && NoIdentity(t) {
      forall j | 0 <= j < |ps| ensures !IsMarked(ps, j) {
        if j > 0 { assert !IsMarked(t, j - 1); }
      }
    }
    if Ambiguous(ps) {
      var i, j :| 0 <= i < j < |ps| && IsMarked(ps, i) && IsMarked(ps, j);
      if i == 0 {
        assert IsMarked(t, j - 1);
      } else {
        assert IsMarked(t, i - 1) && IsMarked(t, j - 1);
      }
    }
    if IsMarked(ps, 0) && !NoIdentity(t) {
      var j :| 0 <= j < |t| && IsMarked(t, j);
      assert IsMarked(ps, j + 1);
    }
    if Ambiguous(t) {
      var i, j :| 0 <= i < j < |t| && IsMarked(t, i) && IsMarked(t, j);
      assert IsMarked(ps, i + 1) && IsMarked(ps, j + 1);
    }
    forall i | SoleIdentity(ps, i) && i > 0
      ensures !IsMarked(ps, 0) && SoleIdentity(t, i - 1)
    {
      forall j | 0 <= j < |t| && j != i - 1 ensures !IsMarked(t, j) {
        assert !IsMarked(ps, j + 1);
      }
    }
    if SoleIdentity(ps, 0) {
      forall j | 0 <= j < |t| ensures !IsMarked(t, j) {
        assert !IsMarked(ps, j + 1);
      }
    }
  }

  /** IdentityHelper.GetKeyFromEntity: the value of the single [Identity]
      property, Null when there is none, and an error when the reference is
      null or more than one property is marked. */
  function GetKeyFromEntity(obj: Option<Record>): (r: Result<Value>)
    ensures obj.None? ==> r == Err(ArgumentNull)
    ensures obj.Some? ==> (r == Err(IdentityAttributeMismatch) <==> Ambiguous(obj.value.props))
    ensures obj.Some? && NoIdentity(obj.value.props) ==> r == Ok(Null)
    ensures obj.Some? ==> forall i :: SoleIdentity(obj.value.props, i) ==> r == Ok(obj.value.props[i].value)
    ensures r.Ok? || r == Err(ArgumentNull) || r == Err(IdentityAttributeMismatch)
  {
    match obj
    case None => Err(ArgumentNull)
    case Some(rec) =>
      var marked := Marked(rec.props);
      if |marked| == 0 then Ok(Null)
      else if |marked| == 1 then Ok(marked[0].value)
      else Err(IdentityAttributeMismatch)
  }

  /** `a` and `b` differ at most in their unmarked properties. */
  ghost predicate SameIdentityProperties(a: Record, b: Record) {
    && |a.props| == |b.props|
    && (forall i :: 0 <= i < |a.props| ==> a.props[i].decl.isIdentity == b.props[i].decl.isIdentity)
    && (forall i :: IsMarked(a.props, i) ==> a.props[i] == b.props[i])
  }

  lemma {:induction false} MarkedAgree(a: seq<Property>, b: seq<Property>)
    requires |a| == |b|
    requires forall i :: 0 <= i < |a| ==> a[i].decl.isIdentity == b[i].decl.isIdentity
    requires forall i :: IsMarked(a, i) ==> a[i] == b[i]
    ensures Marked(a) == Marked(b)
    decreases |a|
  {
    if |a| > 0 {
      assert forall i :: 0 <= i < |a[1..]| ==> a[1..][i] == a[i + 1] && b[1..][i] == b[i + 1];
      MarkedAgree(a[1..], b[1..]);
    }
  }

  /** Changing properties that are not marked [Identity] never changes the
      resolved key. */
  lemma UnmarkedPropertiesIrrelevant(a: Record, b: Record)
    requires SameIdentityProperties(a, b)
    ensures GetKeyFromEntity(Some(a)) == GetKeyFromEntity(Some(b))
  {
    MarkedAgree(a.props, b.props);
  }
}

=== FILE: JsonStore.dfy ===
/** JsonStore<T>: one database file per record type, one serialized record
    per line. The file is modelled by its text; Json.NET's decoding of a
    JSON array and encoding of one record are abstract (a Codec), and what
    is modelled is how the store frames, appends, rewrites and reloads that
    text. The base class that owns `Items` and calls the hooks is not part
    of this model, so each hook takes the `Items` dictionary as it stands
    when the hook is called. */
module JsonStore {
  import opened Errors
  import opened Identity
  import opened Collections
  import Text
  import Paths
  import StoreBase
  import S = BiggyListSerializer

  /** Json.NET as the store uses it: `ser` is JsonConvert.SerializeObject
      for one record, `parse` is DeserializeObject<List<T>>. */
  datatype Codec = Codec(ser: Record -> string, parse: string -> Result<seq<Record>>)

  /** Each record's text followed by a comma. */
  function Commas(ser: Record -> string, items: seq<Record>): string
    decreases |items|
  {
    if |items| == 0 then "" else ser(items[0]) + "," + Commas(ser, items[1..])
  }

  /** A JSON array holding the records in order, written with a comma after
      every element (Json.NET reads the trailing comma as the end). */
  function ArrayText(ser: Record -> string, items: seq<Record>): string {
    "[" + Commas(ser, items) + "]"
  }

  /** The codec's record text is always one line, and reading an array of
      serialized records gives those records back. */
  ghost predicate Faithful(c: Codec) {
    && (forall r: Record :: S.OneLine(c.ser(r)))
    && (forall rs: seq<Record> :: c.parse(ArrayText(c.ser, rs)) == Ok(rs))
  }

  /** A bare name with an extension appended stays a bare name. */
  lemma ExtendedNameIsBare(base: string, ext: string)
    requires Paths.IsBareName(base) && Paths.IsBareName(ext)
    ensures Paths.IsBareName(base + ext)
  {
    var name := base + ext;
    forall i | 0 <= i < |name| ensures !Paths.IsSeparator(name[i]) {
      if i < |base| { assert name[i] == base[i]; } else { assert name[i] == ext[i - |base|]; }
    }
  }

  /** DatabaseFilePath: `<DatabaseName>.json` inside the database directory. */
  function DatabaseFilePath(directory: string, databaseName: string): (path: string)
    ensures Paths.IsBareName(databaseName) ==> Paths.GetFileName(path) == databaseName + ".json"
    ensures Text.EndsWith(path, ".json")
  {
    var name := databaseName + ".json";
    var path := Paths.Combine(directory, name);
    assert Paths.IsBareName(databaseName) ==> Paths.GetFileName(path) == name by {
      if Paths.IsBareName(databaseName) {
        ExtendedNameIsBare(databaseName, ".json");
        Paths.FileNameOfCombine(directory, name);
      }
    }
    assert Text.EndsWith(path, ".json") by {
      assert path[|path| - |name|..] == name;
      assert name[|name| - 5..] == ".json";
      assert path[|path| - 5..] == name[|name| - 5..];
    }
    path
  }
  /** The text Load hands to Json.NET: the file with every NewLine replaced
      by a comma, between brackets. An empty file is the empty array. */
  function LoadEnvelope(text: string): (json: string)
    ensures text == "" ==> json == "[]"
    ensures |json| >= 2 && json[0] == '[' && json[|json| - 1] == ']'
    ensures '\r' !in text ==> json == "[" + text + "]"
  {
    "[" + Text.Replace(text, S.NewLine, ",") + "]"
  }

  /** Load: decode the enveloped file text. */
  function Load(c: Codec, text: string): (r: Result<seq<Record>>)
    ensures Faithful(c) && text == "" ==> r == Ok([])
  {
    assert ArrayText(c.ser, []) == "[]";
    c.parse(LoadEnvelope(text))
  }

  /** Replacing the line breaks of written one-line records gives each
      record's text followed by a comma. */
  lemma {:induction false} ReplaceWritten(ser: Record -> string, items: seq<Record>)
    requires S.AllOneLine(ser, items)
    ensures Text.Replace(S.WriteJson(ser, items), S.NewLine, ",") == Commas(ser, items)
    decreases |items|
  {
    if |items| > 0 {
      var head := ser(items[0]);
      var tail := S.WriteJson(ser, items[1..]);
      assert S.AllOneLine(ser, items[1..]) by {
        forall i | 0 <= i < |items[1..]| ensures S.OneLine(ser(items[1..][i])) {
          assert items[1..][i] == items[i + 1];
        }
      }
      ReplaceWritten(ser, items[1..]);
      assert S.OneLine(ser(items[0]));
      assert S.WriteJson(ser, items) == head + (S.NewLine + tail);
      Text.ReplaceSkips(head, S.NewLine + tail, S.NewLine, ",");
      Text.ReplaceHead(tail, S.NewLine, ",");
    }
  }

  /** What Load reads back from a file of written one-line records is the
      JSON array of those records, trailing comma included. */
  lemma EnvelopeOfWritten(ser: Record -> string, items: seq<Record>)
    requires S.AllOneLine(ser, items)
    ensures LoadEnvelope(S.WriteJson(ser, items)) == ArrayText(ser, items)
  {
    ReplaceWritten(ser, items);
  }

  /** Append: `writer.WriteLine(json)` for each record, in order, after what
      the file already holds. */
  function Append(c: Codec, text: string, items: seq<Record>): (r: string)
    ensures r == text + S.WriteJson(c.ser, items)
    decreases |items|
  {
    if |items| == 0 then text
    else
      var line := c.ser(items[0]) + S.NewLine;
      var r := Append(c, text + line, items[1..]);
      assert (text + line) + S.WriteJson(c.ser, items[1..]) == text + (line + S.WriteJson(c.ser, items[1..]));
      r
  }

  /** FlushToDisk: the serializer's framing of the list into a truncated
      file, the same text as appending the list to an empty file. */
  function FlushToDisk(c: Codec, items: seq<Record>): (text: string)
    ensures text == Append(c, "", items)
  {
    S.WriteJson(c.ser, items)
  }

  /** Every record a faithful codec writes is one line. */
  lemma FaithfulOneLine(c: Codec, items: seq<Record>)
    requires Faithful(c)
    ensures S.AllOneLine(c.ser, items)
  {
  }

  /** A file written by a faithful codec loads back as the records written. */
  lemma LoadWritten(c: Codec, items: seq<Record>)
    requires Faithful(c)
    ensures Load(c, S.WriteJson(c.ser, items)) == Ok(items)
  {
    FaithfulOneLine(c, items);
    EnvelopeOfWritten(c.ser, items);
  }

  /** The file after a rewrite from `Items`: its values in enumeration order. */
  ghost function Snapshot(c: Codec, items: map<Value, Record>): (text: string)
    ensures Faithful(c) ==> Load(c, text) == Ok(Values(items))
  {
    var text := FlushToDisk(c, Values(items));
    assert Faithful(c) ==> Load(c, text) == Ok(Values(items)) by {
      if Faithful(c) { LoadWritten(c, Values(items)); }
    }
    text
  }

  /** RemoveFileSystemItems: the file is rewritten from `Items`; the removed
      records themselves are not consulted. */
  ghost function RemoveFileSystemItems(c: Codec, items: map<Value, Record>, removed: seq<Record>): (text: string)
    ensures Faithful(c) ==> Load(c, text) == Ok(Values(items))
  {
    Snapshot(c, items)
  }

  /** AddFileSystemItem: one line appended for the record. */
  function AddFileSystemItem(c: Codec, text: string, item: Record): (r: string)
    ensures r == text + c.ser(item) + S.NewLine
    ensures S.OneLine(c.ser(item)) ==> Text.Count(r, '\n') == Text.Count(text, '\n') + 1
  {
    var r := Append(c, text, [item]);
    assert r == text + (c.ser(item) + S.NewLine);
    assert S.OneLine(c.ser(item)) ==> Text.Count(r, '\n') == Text.Count(text, '\n') + 1 by {
      if S.OneLine(c.ser(item)) {
        Text.CountAbsent(c.ser(item), '\n');
        Text.CountAppend(c.ser(item), S.NewLine, '\n');
        Text.CountAppend(text, c.ser(item) + S.NewLine, '\n');
      }
    }
    r
  }

  /** AddFileSystemItems as written: the values of `Items` are appended and
      the batch argument is ignored. */
  ghost function AddFileSystemItemsAsWritten(c: Codec, items: map<Value, Record>, text: string, batch: seq<Record>): (r: string)
    ensures r == text + S.WriteJson(c.ser, Values(items))
  {
    Append(c, text, Values(items))
  }

  /** AddFileSystemItems as evidently intended: the batch is appended. */
  function AddFileSystemItems(c: Codec, text: string, batch: seq<Record>): (r: string)
    ensures r == text + S.WriteJson(c.ser, batch)
  {
    Append(c, text, batch)
  }

  /** ClearFileSystemItems: the file is rewritten from an empty list. */
  function ClearFileSystemItems(c: Codec): (text: string)
    ensures text == ""
    ensures Faithful(c) ==> Load(c, text) == Ok([])
  {
    FlushToDisk(c, [])
  }

  /** RemoveFileSystemItem: the whole file is rewritten from `Items`. */
  ghost function RemoveFileSystemItem(c: Codec, items: map<Value, Record>, item: Record): (text: string)
    ensures Faithful(c) ==> Load(c, text) == Ok(Values(items))
  {
    Snapshot(c, items)
  }

  /** UpdateFileSystemItem: the whole file is rewritten from `Items`. */
  ghost function UpdateFileSystemItem(c: Codec, items: map<Value, Record>, item: Record): (text: string)
    ensures Faithful(c) ==> Load(c, text) == Ok(Values(items))
  {
    Snapshot(c, items)
  }

  /** Initialize: load the file and index the records by StoreBase.GetKey;
      a decoding error or a repeated key throws. */
  function Initialize(c: Codec, hash: Record -> int, text: string): (r: Result<map<Value, Record>>)
    ensures Load(c, text).Err? ==> r == Err(Load(c, text).error)
    ensures Load(c, text).Ok? ==>
              (r.Ok? <==> StoreBase.KeysResolve(Load(c, text).value) && StoreBase.DistinctKeys(Load(c, text).value, hash))
    ensures r.Ok? ==> |r.value| == |Load(c, text).value| && StoreBase.KeyedBy(r.value, hash)
  {
    var rs :- Load(c, text);
    StoreBase.ToDictionary(rs, hash)
  }

  /** A rewrite from a keyed `Items` reloads as exactly that dictionary. */
  lemma SnapshotReloads(c: Codec, hash: Record -> int, items: map<Value, Record>)
    requires Faithful(c) && StoreBase.KeyedBy(items, hash)
    ensures Initialize(c, hash, Snapshot(c, items)) == Ok(items)
  {
    StoreBase.ToDictionaryOfValues(items, hash);
  }

  /** A cleared file reloads as the empty dictionary. */
  lemma ClearReloads(c: Codec, hash: Record -> int)
    requires Faithful(c)
    ensures Initialize(c, hash, ClearFileSystemItems(c)) == Ok(map[])
  {
  }

  /** Appending a batch to a file that reloads as `items`, when the base
      has added the batch to `items` without a clash, reloads as the grown
      dictionary: what the tests observe after a batch add. */
  lemma AppendReloads(c: Codec, hash: Record -> int, file: seq<Record>, items: map<Value, Record>,
                      batch: seq<Record>, grown: map<Value, Record>)
    requires Faithful(c)
    requires StoreBase.ToDictionary(file, hash) == Ok(items)
    requires StoreBase.AddAll(items, batch, hash) == Ok(grown)
    ensures Initialize(c, hash, AddFileSystemItems(c, S.WriteJson(c.ser, file), batch)) == Ok(grown)
  {
    S.WriteJsonAppend(c.ser, file, batch);
    LoadWritten(c, file + batch);
    StoreBase.AddAllAppend(map[], file, batch, hash);
  }

  /** Appending one record whose key is new reloads with that record added. */
  lemma AddReloads(c: Codec, hash: Record -> int, file: seq<Record>, items: map<Value, Record>, item: Record)
    requires Faithful(c)
    requires StoreBase.ToDictionary(file, hash) == Ok(items)
    requires StoreBase.GetKey(item, hash).Ok? && StoreBase.GetKey(item, hash).value !in items
    ensures Initialize(c, hash, AddFileSystemItem(c, S.WriteJson(c.ser, file), item)) ==
              Ok(items[StoreBase.GetKey(item, hash).value := item])
  {
    var k := StoreBase.GetKey(item, hash).value;
    assert [item][1..] == [];
    assert StoreBase.AddAll(items, [item], hash) == Ok(items[k := item]);
    assert AddFileSystemItem(c, S.WriteJson(c.ser, file), item) == AddFileSystemItems(c, S.WriteJson(c.ser, file), [item]);
    AppendReloads(c, hash, file, items, [item], items[k := item]);
  }

  /** The batch hook as written appends every record already in `Items`
      again, so once the file held a record with an identity the next batch
      add makes the file unloadable: that identity now occurs twice. */
  lemma AsWrittenBatchBreaksReload(c: Codec, hash: Record -> int, file: seq<Record>, items: map<Value, Record>,
                                   batch: seq<Record>, grown: map<Value, Record>, n: nat)
    requires Faithful(c)
    requires StoreBase.ToDictionary(file, hash) == Ok(items)
    requires StoreBase.AddAll(items, batch, hash) == Ok(grown)
    requires n < |file| && exists i :: SoleIdentity(file[n].props, i) && file[n].props[i].value != Null
    ensures Initialize(c, hash, AddFileSystemItemsAsWritten(c, grown, S.WriteJson(c.ser, file), batch)).Err?
  {
    var vs := Values(grown);
    var rs := file + vs;
    var text := AddFileSystemItemsAsWritten(c, grown, S.WriteJson(c.ser, file), batch);
    S.WriteJsonAppend(c.ser, file, vs);
    assert text == S.WriteJson(c.ser, rs);
    LoadWritten(c, rs);
    assert Load(c, text) == Ok(rs);
    var k0 := StoreBase.KeyOf(file[n], hash);
    assert k0 in items && items[k0] == file[n];
    assert k0 in grown && grown[k0] == file[n];
    var ks := ValuesKeys(grown);
    var j :| 0 <= j < |ks| && ks[j] == k0;
    assert rs[n] == file[n] && rs[|file| + j] == file[n];
    assert StoreBase.KeyOf(rs[n], hash) == StoreBase.KeyOf(rs[|file| + j], hash);
    assert !StoreBase.DistinctKeys(rs, hash);
  }
}

=== FILE: ListFileStore.dfy ===
/** The list-based FileSystemStore<T> (src/FileBiggy/FileSystemStore.cs):
    a list of records kept in memory and mirrored to one database file.
    The file is modelled by the records it decodes to; the list is null
    until Load is called. Records are compared with `eq`, the record
    type's Equals. */
module ListFileStore {
  import opened Errors
  import opened Collections
  import StoreBase

  const DbPathKey: string := "dbpath"

  datatype Store<T> = Store(base: StoreBase.Base, directory: string, items: Option<seq<T>>, file: seq<T>)

  /** The list is loaded and the file holds exactly the list, in order. */
  ghost predicate Synced<T>(s: Store<T>) {
    s.items == Some(s.file)
  }

  /** The constructor: the "dbpath" setting names the database directory;
      nothing is read yet. `file` is what the database file holds. */
  function Create<T>(settings: StoreBase.Settings, file: seq<T>): (r: Result<Store<T>>)
    ensures r.Ok? <==> DbPathKey in settings
    ensures r.Err? ==> r.error == InvalidConnectionString
    ensures r.Ok? ==> r.value.items.None? && r.value.file == file
    ensures r.Ok? ==> r.value.directory == settings[DbPathKey] && r.value.base.connectionString == settings
  {
    if DbPathKey !in settings then Err(InvalidConnectionString)
    else Ok(Store(StoreBase.NewBase(settings), settings[DbPathKey], None, file))
  }

  /** Load: the list becomes what the file holds, and is returned. */
  function Load<T>(s: Store<T>): (r: Done<Store<T>, seq<T>>)
    ensures r.result == Ok(s.file)
    ensures Synced(r.state)
    ensures r.state.file == s.file && r.state.base == s.base && r.state.directory == s.directory
  {
    Done(s.(items := Some(s.file)), Ok(s.file))
  }

  /** Clear: a new empty list, and the file rewritten from it. */
  function Clear<T>(s: Store<T>): (r: Store<T>)
    ensures r.items == Some([]) && r.file == []
    ensures Synced(r) && r.base == s.base && r.directory == s.directory
  {
    s.(items := Some([]), file := [])
  }

  /** Add: the record is appended to the file, then to the list; with the
      list still null the second step throws after the first. */
  function Add<T>(s: Store<T>, item: T): (r: Done<Store<T>, ()>)
    ensures r.state.file == s.file + [item]
    ensures r.result.Ok? <==> s.items.Some?
    ensures r.result.Err? ==> r.result.error == NullReference && r.state.items.None?
    ensures s.items.Some? ==> r.state.items == Some(s.items.value + [item])
    ensures Synced(s) ==> Synced(r.state)
  {
    var s1 := s.(file := s.file + [item]);
    match s.items
    case None => Done(s1, Err(NullReference))
    case Some(xs) => Done(s1.(items := Some(xs + [item])), Ok(()))
  }

  /** Add(List): the records are appended to the file, then to the list. */
  function AddRange<T>(s: Store<T>, items: seq<T>): (r: Done<Store<T>, ()>)
    ensures r.state.file == s.file + items
    ensures r.result.Ok? <==> s.items.Some?
    ensures r.result.Err? ==> r.result.error == NullReference && r.state.items.None?
    ensures s.items.Some? ==> r.state.items == Some(s.items.value + items)
    ensures Synced(s) ==> Synced(r.state)
  {
    var s1 := s.(file := s.file + items);
    match s.items
    case None => Done(s1, Err(NullReference))
    case Some(xs) => Done(s1.(items := Some(xs + items)), Ok(()))
  }

  /** Update: a record with no equal in the list throws and changes
      nothing; otherwise it replaces the first equal record where it
      stands, the file is rewritten from the list, and it is returned. */
  function Update<T>(s: Store<T>, item: T, eq: (T, T) -> bool): (r: Done<Store<T>, T>)
    ensures s.items.None? ==> r == Done(s, Err(NullReference))
    ensures s.items.Some? && !Contains(s.items.value, item, eq) ==> r == Done(s, Err(InvalidOperation))
    ensures r.result.Ok? <==> s.items.Some? && Contains(s.items.value, item, eq)
    ensures r.result.Ok? ==> r.result.value == item && Synced(r.state)
    ensures r.result.Ok? ==> var xs := s.items.value;
              var i := IndexOf(xs, item, eq);
              && |r.state.file| == |xs| && r.state.file[i] == item
              && forall j :: 0 <= j < |xs| && j != i ==> r.state.file[j] == xs[j]
  {
    match s.items
    case None => Done(s, Err(NullReference))
    case Some(xs) =>
      if !Contains(xs, item, eq) then Done(s, Err(InvalidOperation))
      else
        var ys := ReplaceFirst(xs, item, eq);
        Done(s.(items := Some(ys), file := ys), Ok(item))
  }

  /** Remove: the first equal record leaves the list (none, if there is no
      equal), and the file is rewritten from the list. */
  function Remove<T>(s: Store<T>, item: T, eq: (T, T) -> bool): (r: Done<Store<T>, ()>)
    ensures s.items.None? ==> r == Done(s, Err(NullReference))
    ensures r.result.Ok? <==> s.items.Some?
    ensures r.result.Ok? ==> Synced(r.state)
    ensures r.result.Ok? && !Contains(s.items.value, item, eq) ==> r.state.file == s.items.value
    ensures r.result.Ok? ==> var i := IndexOf(s.items.value, item, eq);
              0 <= i ==> r.state.file == s.items.value[..i] + s.items.value[i + 1..]
  {
    match s.items
    case None => Done(s, Err(NullReference))
    case Some(xs) =>
      var ys := RemoveFirst(xs, item, eq);
      Done(s.(items := Some(ys), file := ys), Ok(()))
  }

  /** Remove(IEnumerable): one list removal per record, in order, then one
      rewrite of the file. Over a list that was never loaded, the first
      removal throws before the file is touched; an empty batch removes
      nothing, so the file is opened for rewriting, which truncates it, and
      the flush of the null list throws (the abstract flush has no
      implementation for this store here; the model takes the list
      serializer's behaviour, whose loop over a null list throws). */
  function RemoveRange<T>(s: Store<T>, items: seq<T>, eq: (T, T) -> bool): (r: Done<Store<T>, ()>)
    ensures s.items.None? && |items| > 0 ==> r == Done(s, Err(NullReference))
    ensures s.items.None? && |items| == 0 ==> r.result == Err(NullReference) && r.state == s.(file := [])
    ensures r.result.Ok? <==> s.items.Some?
    ensures r.result.Ok? ==> Synced(r.state) && multiset(r.state.file) <= multiset(s.items.value)
  {
    match s.items
    case None => if |items| > 0 then Done(s, Err(NullReference)) else Done(s.(file := []), Err(NullReference))
    case Some(xs) =>
      var ys := RemoveEach(xs, items, eq);
      Done(s.(items := Some(ys), file := ys), Ok(()))
  }

  /** AsQueryable over a list that was never loaded is Queryable.AsQueryable
      of null, which throws. */
  function AsQueryable<T>(s: Store<T>): (r: Result<seq<T>>)
    ensures r.Ok? <==> s.items.Some?
    ensures r.Err? ==> r.error == ArgumentNull
    ensures Synced(s) ==> r == Ok(s.file)
  {
    match s.items
    case None => Err(ArgumentNull)
    case Some(xs) => Ok(xs)
  }

  /** After any operation that completes, reloading the file gives the list
      the store holds. */
  lemma ReloadAgrees<T>(s: Store<T>, item: T, items: seq<T>, eq: (T, T) -> bool)
    requires s.items.Some?
    ensures Load(Clear(s)).result == AsQueryable(Clear(s))
    ensures Synced(s) ==> Load(Add(s, item).state).result == AsQueryable(Add(s, item).state)
    ensures Synced(s) ==> Load(AddRange(s, items).state).result == AsQueryable(AddRange(s, items).state)
    ensures Update(s, item, eq).result.Ok? ==>
              Load(Update(s, item, eq).state).result == AsQueryable(Update(s, item, eq).state)
    ensures Load(Remove(s, item, eq).state).result == AsQueryable(Remove(s, item, eq).state)
    ensures Load(RemoveRange(s, items, eq).state).result == AsQueryable(RemoveRange(s, items, eq).state)
  {
  }

  /** A batch removal is one single removal after another. */
  lemma {:induction false} RemoveRangeIsRemoves<T>(s: Store<T>, items: seq<T>, eq: (T, T) -> bool)
    requires s.items.Some? && |items| > 0
    ensures RemoveRange(s, items, eq).state == RemoveRange(Remove(s, items[0], eq).state, items[1..], eq).state
  {
    var xs := s.items.value;
    assert RemoveEach(xs, items, eq) == RemoveEach(RemoveFirst(xs, items[0], eq), items[1..], eq);
  }

  /** Removing a record just added, with no equal in the list before, gives
      back the list and the file as they were. */
  lemma RemoveUndoesAdd<T>(s: Store<T>, item: T, eq: (T, T) -> bool)
    requires Synced(s) && eq(item, item) && !Contains(s.file, item, eq)
    ensures Remove(Add(s, item).state, item, eq).state == s
  {
    var xs := s.file + [item];
    assert Add(s, item).state.items == Some(xs);
    assert forall i :: 0 <= i < |s.file| ==> xs[i] == s.file[i] && !eq(xs[i], item);
    assert eq(xs[|s.file|], item);
    assert IndexOf(xs, item, eq) == |s.file|;
    assert xs[..|s.file|] == s.file && xs[|s.file| + 1..] == [];
    assert RemoveFirst(xs, item, eq) == s.file;
  }
}

=== FILE: MemoryStore.dfy ===
/** MemoryStore<T>: a store that keeps its records in a list and nothing
    else. Records are compared with `eq`, the record type's Equals. */
module MemoryStore {
  import opened Errors
  import opened Collections
  import StoreBase

  datatype Store<T> = Store(base: StoreBase.Base, items: seq<T>)

  /** The constructor: an empty list. */
  function Create<T>(connectionString: StoreBase.Settings): (s: Store<T>)
    ensures s.items == [] && s.base.connectionString == connectionString
  {
    Store(StoreBase.NewBase(connectionString), [])
  }

  /** Add: the record goes to the end; no duplicate check. */
  function Add<T>(s: Store<T>, item: T): (r: Store<T>)
    ensures |r.items| == |s.items| + 1 && r.items[|s.items|] == item
    ensures r.items[..|s.items|] == s.items
    ensures r.base == s.base
  {
    s.(items := s.items + [item])
  }

  /** Load: a fresh copy of the list. */
  function Load<T>(s: Store<T>): (r: seq<T>)
    ensures |r| == |s.items|
    ensures forall i :: 0 <= i < |r| ==> r[i] == s.items[i]
  {
    s.items
  }

  /** Add(List): the records go to the end, in order. */
  function AddRange<T>(s: Store<T>, items: seq<T>): (r: Store<T>)
    ensures |r.items| == |s.items| + |items|
    ensures r.items[..|s.items|] == s.items && r.items[|s.items|..] == items
    ensures r.base == s.base
  {
    s.(items := s.items + items)
  }

  /** Clear: the list is emptied. */
  function Clear<T>(s: Store<T>): (r: Store<T>)
    ensures r.items == [] && r.base == s.base
  {
    s.(items := [])
  }

  /** Remove: List<T>.Remove, the first equal record only. */
  function Remove<T>(s: Store<T>, item: T, eq: (T, T) -> bool): (r: Store<T>)
    ensures !Contains(s.items, item, eq) ==> r == s
    ensures var i := IndexOf(s.items, item, eq);
            0 <= i ==> r.items == s.items[..i] + s.items[i + 1..]
    ensures multiset(r.items) <= multiset(s.items)
    ensures r.base == s.base
  {
    RemoveFirstSub(s.items, item, eq);
    s.(items := RemoveFirst(s.items, item, eq))
  }

  /** Remove(IEnumerable): one Remove per record, in order. */
  function RemoveRange<T>(s: Store<T>, items: seq<T>, eq: (T, T) -> bool): (r: Store<T>)
    ensures multiset(r.items) <= multiset(s.items)
    ensures (forall i, j :: 0 <= i < |s.items| && 0 <= j < |items| ==> !eq(s.items[i], items[j])) ==> r == s
    ensures r.base == s.base
  {
    s.(items := RemoveEach(s.items, items, eq))
  }

  /** Update: an equal record is replaced where it stands; an absent one is
      returned without any change. */
  function Update<T>(s: Store<T>, item: T, eq: (T, T) -> bool): (r: Done<Store<T>, T>)
    ensures r.result == Ok(item)
    ensures !Contains(s.items, item, eq) ==> r.state == s
    ensures |r.state.items| == |s.items| && r.state.base == s.base
    ensures var i := IndexOf(s.items, item, eq);
            0 <= i ==> r.state.items[i] == item &&
                       forall j :: 0 <= j < |s.items| && j != i ==> r.state.items[j] == s.items[j]
  {
    var xs := ReplaceFirst(s.items, item, eq);
    assert !Contains(s.items, item, eq) ==> xs == s.items;
    Done(Store(s.base, xs), Ok(item))
  }

  /** AsQueryable: a fresh copy of the list. */
  function AsQueryable<T>(s: Store<T>): (r: seq<T>)
    ensures r == Load(s)
  {
    s.items
  }

  /** Removing a record that was just added, and that had no equal in the
      list before, gives back the list as it was. */
  lemma RemoveUndoesAdd<T>(s: Store<T>, item: T, eq: (T, T) -> bool)
    requires eq(item, item) && !Contains(s.items, item, eq)
    ensures Remove(Add(s, item), item, eq) == s
  {
    var xs := Add(s, item).items;
    assert forall i :: 0 <= i < |s.items| ==> xs[i] == s.items[i];
    assert IndexOf(xs, item, eq) == |s.items|;
    assert xs[..|s.items|] == s.items;
  }

  /** A batch add is one add per record, in order. */
  lemma {:induction false} AddRangeIsAdds<T>(s: Store<T>, items: seq<T>)
    ensures |items| > 0 ==> AddRange(s, items) == AddRange(Add(s, items[0]), items[1..])
    ensures AddRange(s, []) == s
  {
    assert s.items + [] == s.items;
    if |items| > 0 {
      assert s.items + items == (s.items + [items[0]]) + items[1..];
    }
  }

  /** A batch remove of a concatenation removes the first part, then the
      second. */
  lemma RemoveRangeAppend<T>(s: Store<T>, a: seq<T>, b: seq<T>, eq: (T, T) -> bool)
    ensures RemoveRange(s, a + b, eq) == RemoveRange(RemoveRange(s, a, eq), b, eq)
  {
    RemoveEachAppend(s.items, a, b, eq);
  }

  /** A batch of one is a single remove. */
  lemma RemoveRangeOne<T>(s: Store<T>, item: T, eq: (T, T) -> bool)
    ensures RemoveRange(s, [item], eq) == Remove(s, item, eq)
  {
    assert [item][1..] == [];
  }

  /** Updating twice with a record equal to itself changes nothing more. */
  lemma UpdateIdempotent<T>(s: Store<T>, item: T, eq: (T, T) -> bool)
    requires eq(item, item)
    ensures var once := Update(s, item, eq).state;
            Update(once, item, eq).state == once
  {
    var once := Update(s, item, eq).state;
    var i := IndexOf(s.items, item, eq);
    if 0 <= i {
      assert IndexOf(once.items, item, eq) == i;
      assert ReplaceFirst(once.items, item, eq) == once.items;
    }
  }

  /** After an update the list holds the record exactly when an equal
      record was there before. */
  lemma UpdateStores<T>(s: Store<T>, item: T, eq: (T, T) -> bool)
    ensures item in Update(s, item, eq).state.items <==> item in s.items || Contains(s.items, item, eq)
  {
    var i := IndexOf(s.items, item, eq);
    if 0 <= i {
      assert Update(s, item, eq).state.items[i] == item;
    }
  }

  /** Clearing twice is clearing once, and a copy taken before a change is
      not affected by it. */
  lemma ClearIdempotent<T>(s: Store<T>, item: T)
    ensures Clear(Clear(s)) == Clear(s)
    ensures Load(Add(s, item)) == Load(s) + [item]
  {
  }
}

=== FILE: Paths.dfy ===
/** The two System.IO.Path members the file stores use to name their files:
    Combine and GetFileName, as .NET Framework implements them on Windows
    (separator '\', alternative separator '/', volume separator ':').
    System.IO is not part of the repository; only this much of it is
    modelled. */
module Paths {

  const DirectorySeparator: char := '\\'

  /** A character that ends a directory part of a path. */
  predicate IsSeparator(c: char) {
    c == '\\' || c == '/' || c == ':'
  }

  /** No directory part at all: a bare file name. */
  predicate IsBareName(name: string) {
    forall i :: 0 <= i < |name| ==> !IsSeparator(name[i])
  }

  /** Path.IsPathRooted: starts with a separator or a drive letter. */
  predicate IsRooted(path: string) {
    (|path| >= 1 && (path[0] == '\\' || path[0] == '/')) || (|path| >= 2 && path[1] == ':')
  }

  /** Path.Combine(path1, path2): an empty part yields the other one, a
      rooted second part wins outright, and a separator is inserted only
      when the first part does not already end with one. */
  function Combine(path1: string, path2: string): (r: string)
    ensures |path2| == 0 ==> r == path1
    ensures |path2| > 0 ==> |path2| <= |r| && r[|r| - |path2|..] == path2
    ensures |path1| > 0 && |path2| > 0 && !IsRooted(path2) ==> |path1| <= |r| && r[..|path1|] == path1
  {
    if |path2| == 0 then path1
    else if |path1| == 0 then path2
    else if IsRooted(path2) then path2
    else if !IsSeparator(path1[|path1| - 1]) then path1 + [DirectorySeparator] + path2
    else path1 + path2
  }

  /** The position of the last separator, -1 when there is none. */
  function LastSeparator(path: string): (i: int)
    ensures -1 <= i < |path|
    ensures 0 <= i ==> IsSeparator(path[i])
    ensures forall j :: i < j < |path| ==> !IsSeparator(path[j])
  {
    if |path| == 0 then -1
    else if IsSeparator(path[|path| - 1]) then |path| - 1
    else LastSeparator(path[..|path| - 1])
  }

  /** Path.GetFileName: everything after the last separator. */
  function GetFileName(path: string): (name: string)
    ensures IsBareName(name)
    ensures |name| <= |path| && path[|path| - |name|..] == name
    ensures |name| < |path| ==> IsSeparator(path[|path| - |name| - 1])
    ensures IsBareName(path) ==> name == path
  {
    var i := LastSeparator(path);
    var name := path[i + 1..];
    assert |path| - |name| == i + 1;
    assert IsBareName(name) by {
      forall k | 0 <= k < |name| ensures !IsSeparator(name[k]) { assert name[k] == path[i + 1 + k]; }
    }
    assert IsBareName(path) ==> i == -1;
    name
  }

  /** A bare name placed after a separator is the file name of the whole. */
  lemma FileNameAfterSeparator(dir: string, name: string)
    requires IsBareName(name)
    requires |dir| == 0 || IsSeparator(dir[|dir| - 1])
    ensures GetFileName(dir + name) == name
  {
    var p := dir + name;
    var i := LastSeparator(p);
    assert forall j :: |dir| <= j < |p| ==> p[j] == name[j - |dir|];
    if |dir| > 0 { assert p[|dir| - 1] == dir[|dir| - 1]; }
    assert i == |dir| - 1;
    assert p[i + 1..] == name;
  }

  /** Combining a directory with a bare file name and taking the file name
      back gives the name: Combine keeps the name recoverable. */
  lemma FileNameOfCombine(dir: string, name: string)
    requires |name| > 0 && IsBareName(name)
    ensures GetFileName(Combine(dir, name)) == name
  {
    assert !IsRooted(name) by {
      assert !IsSeparator(name[0]);
      if |name| >= 2 { assert !IsSeparator(name[1]); }
    }
    if |dir| == 0 {
    } else if !IsSeparator(dir[|dir| - 1]) {
      FileNameAfterSeparator(dir + [DirectorySeparator], name);
    } else {
      FileNameAfterSeparator(dir, name);
    }
  }

  /** Two bare names combined with the same directory give the same path
      only when they are the same name. */
  lemma CombineInjective(dir: string, a: string, b: string)
    requires |a| > 0 && IsBareName(a) && |b| > 0 && IsBareName(b)
    requires Combine(dir, a) == Combine(dir, b)
    ensures a == b
  {
    FileNameOfCombine(dir, a);
    FileNameOfCombine(dir, b);
  }
}

=== FILE: Repository.dfy ===
/** Repository<T> (IoC): an entity set that refuses null records before
    handing anything to the set the context holds for T. That set is
    whatever the context's Set<T>() returned, so it may itself be null;
    a null item is modelled as `None`. */
module Repository {
  import opened Errors
  import opened Identity
  import opened Collections
  import EntitySet

  datatype Repo = Repo(entities: Option<EntitySet.Set>)

  /** BeforeAdd, BeforeUpdate and BeforeDelete: a null item throws
      ArgumentNullException; any other item passes unchanged. */
  function Guard(item: Option<Record>): (r: Result<Record>)
    ensures r.Ok? <==> item.Some?
    ensures r.Err? ==> r.error == ArgumentNull
    ensures r.Ok? ==> r.value == item.value
  {
    match item
    case None => Err(ArgumentNull)
    case Some(x) => Ok(x)
  }

  /** The batch guard: every item is checked before anything else runs, so
      one null anywhere fails the batch; otherwise the items pass through
      unchanged and in order. */
  function GuardAll(items: seq<Option<Record>>): (r: Result<seq<Record>>)
    ensures r.Ok? <==> forall i :: 0 <= i < |items| ==> items[i].Some?
    ensures r.Err? ==> r.error == ArgumentNull
    ensures r.Ok? ==> |r.value| == |items| && forall i :: 0 <= i < |items| ==> r.value[i] == items[i].value
    decreases |items|
  {
    if |items| == 0 then Ok([])
    else
      match Guard(items[0])
      case Err(e) => Err(e)
      case Ok(x) =>
        match GuardAll(items[1..])
        case Err(e) =>
          assert exists i :: 0 <= i < |items[1..]| && items[1..][i].None?;
          Err(e)
        case Ok(xs) =>
          assert forall i :: 1 <= i < |items| ==> items[i] == items[1..][i - 1];
          Ok([x] + xs)
  }

  /** The underlying set; a null one throws on first use. */
  function Underlying(r: Repo): (s: Result<EntitySet.Set>)
    ensures s.Ok? <==> r.entities.Some?
    ensures s.Err? ==> s.error == NullReference
  {
    match r.entities
    case None => Err(NullReference)
    case Some(e) => Ok(e)
  }

  /** Add: BeforeAdd, then the set's Add. */
  function Add(r: Repo, item: Option<Record>): (d: Done<Repo, ()>)
    ensures item.None? ==> d == Done(r, Err(ArgumentNull))
    ensures item.Some? && r.entities.None? ==> d == Done(r, Err(NullReference))
    ensures item.Some? && r.entities.Some? ==>
              var u := EntitySet.Add(r.entities.value, item.value);
              d.state.entities == Some(u.state) && d.result == u.result
  {
    match Guard(item)
    case Err(e) => Done(r, Err(e))
    case Ok(x) =>
      match Underlying(r)
      case Err(e) => Done(r, Err(e))
      case Ok(s) =>
        var u := EntitySet.Add(s, x);
        Done(Repo(Some(u.state)), u.result)
  }

  /** Add(IEnumerable): BeforeAdd on every item, then the set's Add with the
      whole batch. */
  function AddRange(r: Repo, items: seq<Option<Record>>): (d: Done<Repo, ()>)
    ensures (exists i :: 0 <= i < |items| && items[i].None?) ==> d == Done(r, Err(ArgumentNull))
    ensures (forall i :: 0 <= i < |items| ==> items[i].Some?) && r.entities.Some? ==>
              var u := EntitySet.AddRange(r.entities.value, GuardAll(items).value);
              d.state.entities == Some(u.state) && d.result == u.result
  {
    match GuardAll(items)
    case Err(e) => Done(r, Err(e))
    case Ok(xs) =>
      match Underlying(r)
      case Err(e) => Done(r, Err(e))
      case Ok(s) =>
        var u := EntitySet.AddRange(s, xs);
        Done(Repo(Some(u.state)), u.result)
  }

  /** Update: BeforeUpdate, then the set's Update, whose result is returned. */
  ghost function Update(r: Repo, item: Option<Record>): (d: Done<Repo, Record>)
    ensures item.None? ==> d == Done(r, Err(ArgumentNull))
    ensures item.Some? && r.entities.None? ==> d == Done(r, Err(NullReference))
    ensures item.Some? && r.entities.Some? ==>
              var u := EntitySet.Update(r.entities.value, item.value);
              d.state.entities == Some(u.state) && d.result == u.result
  {
    match Guard(item)
    case Err(e) => Done(r, Err(e))
    case Ok(x) =>
      match Underlying(r)
      case Err(e) => Done(r, Err(e))
      case Ok(s) =>
        var u := EntitySet.Update(s, x);
        Done(Repo(Some(u.state)), u.result)
  }

  /** Remove: BeforeDelete, then the set's Remove. */
  ghost function Remove(r: Repo, item: Option<Record>): (d: Done<Repo, ()>)
    ensures item.None? ==> d == Done(r, Err(ArgumentNull))
    ensures item.Some? && r.entities.None? ==> d == Done(r, Err(NullReference))
    ensures item.Some? && r.entities.Some? ==>
              var u := EntitySet.Remove(r.entities.value, item.value);
              d.state.entities == Some(u.state) && d.result == u.result
  {
    match Guard(item)
    case Err(e) => Done(r, Err(e))
    case Ok(x) =>
      match Underlying(r)
      case Err(e) => Done(r, Err(e))
      case Ok(s) =>
        var u := EntitySet.Remove(s, x);
        Done(Repo(Some(u.state)), u.result)
  }

  /** Remove(IEnumerable): BeforeDelete on every item, then the set's
      Remove with the whole batch. */
  ghost function RemoveRange(r: Repo, items: seq<Option<Record>>): (d: Done<Repo, ()>)
    ensures (exists i :: 0 <= i < |items| && items[i].None?) ==> d == Done(r, Err(ArgumentNull))
    ensures (forall i :: 0 <= i < |items| ==> items[i].Some?) && r.entities.Some? ==>
              var u := EntitySet.RemoveRange(r.entities.value, GuardAll(items).value);
              d.state.entities == Some(u.state) && d.result == u.result
  {
    match GuardAll(items)
    case Err(e) => Done(r, Err(e))
    case Ok(xs) =>
      match Underlying(r)
      case Err(e) => Done(r, Err(e))
      case Ok(s) =>
        var u := EntitySet.RemoveRange(s, xs);
        Done(Repo(Some(u.state)), u.result)
  }

  /** Clear goes straight to the set, with no check of its own. */
  function Clear(r: Repo): (d: Done<Repo, ()>)
    ensures r.entities.None? ==> d == Done(r, Err(NullReference))
    ensures r.entities.Some? ==> d == Done(Repo(Some(EntitySet.Clear(r.entities.value))), Ok(()))
  {
    match Underlying(r)
    case Err(e) => Done(r, Err(e))
    case Ok(s) => Done(Repo(Some(EntitySet.Clear(s))), Ok(()))
  }

  /** Count goes straight to the set. */
  ghost function Count(r: Repo): (n: Result<nat>)
    ensures r.entities.None? ==> n == Err(NullReference)
    ensures r.entities.Some? ==> n == Ok(|r.entities.value.store.items|)
  {
    var s :- Underlying(r);
    Ok(EntitySet.Count(s))
  }

  /** AsQueryable goes straight to the set. */
  ghost function AsQueryable(r: Repo): (q: Result<seq<Record>>)
    ensures r.entities.None? ==> q == Err(NullReference)
    ensures r.entities.Some? ==> q.Ok? && forall x :: x in q.value <==> x in r.entities.value.store.items.Values
    ensures r.entities.Some? ==> q.Ok? && |q.value| == |r.entities.value.store.items|
    ensures r.entities.Some? ==> q.Ok? && ListsValues(r.entities.value.store.items, q.value)
  {
    var s :- Underlying(r);
    Ok(EntitySet.AsQueryable(s))
  }

  /** A batch holding a null anywhere is refused whole: nothing is added
      and nothing is removed, whatever the other items are. */
  lemma {:induction false} NullInBatchChangesNothing(r: Repo, items: seq<Option<Record>>, k: nat)
    requires k < |items| && items[k].None?
    ensures AddRange(r, items) == Done(r, Err(ArgumentNull))
    ensures RemoveRange(r, items) == Done(r, Err(ArgumentNull))
  {
  }

  /** Non-null records pass the batch guard unchanged: it forwards exactly
      the batch it was given. */
  lemma GuardAllPasses(xs: seq<Record>)
    ensures GuardAll(seq(|xs|, i requires 0 <= i < |xs| => Some(xs[i]))) == Ok(xs)
  {
    var items := seq(|xs|, i requires 0 <= i < |xs| => Some(xs[i]));
    assert forall i :: 0 <= i < |items| ==> items[i].Some?;
    assert GuardAll(items).value == xs;
  }

  /** A null item never reaches the set: every guarded single-item call on
      it leaves the repository as it was. */
  lemma NullItemChangesNothing(r: Repo)
    ensures Add(r, None).state == r && Update(r, None).state == r && Remove(r, None).state == r
    ensures Add(r, None).result.Err? && Update(r, None).result.Err? && Remove(r, None).result.Err?
  {
  }
}

=== FILE: StoreBase.dfy ===
/** StoreBase<T>: the key every store derives from a record, the database
    name derived from the record type, and the ToDictionary step that the
    Json and Bson stores use to index what they load. */
module StoreBase {
  import opened Errors
  import opened Identity
  import opened Collections
  import Text

  /** Connection settings as the context hands them to a store. */
  type Settings = map<string, string>

  /** The state StoreBase itself keeps: the settings it was built with. */
  datatype Base = Base(connectionString: Settings)

  /** The constructor keeps the settings map exactly as given. */
  function NewBase(connectionString: Settings): (b: Base)
    ensures b.connectionString == connectionString
  {
    Base(connectionString)
  }

  /** StoreBase.GetKey: the identity value when the record declares one and
      it is not null, otherwise the record's hash code, boxed. Resolution
      errors propagate unchanged. `hash` is the record type's GetHashCode. */
  function GetKey(item: Record, hash: Record -> int): (r: Result<Value>)
    ensures r.Ok? ==> r.value != Null
    ensures r == Err(IdentityAttributeMismatch) <==> Ambiguous(item.props)
    ensures r.Ok? || r == Err(IdentityAttributeMismatch)
    ensures forall i :: SoleIdentity(item.props, i) && item.props[i].value != Null ==>
              r == Ok(item.props[i].value)
    ensures forall i :: SoleIdentity(item.props, i) && item.props[i].value == Null ==>
              r == Ok(Int(hash(item)))
    ensures NoIdentity(item.props) ==> r == Ok(Int(hash(item)))
  {
    var identity :- GetKeyFromEntity(Some(item));
    if identity == Null then Ok(Int(hash(item))) else Ok(identity)
  }

  /** StoreBase.DatabaseName: the pluralised record type name, lower-cased.
      `pluralize` stands for the Inflector library. */
  function DatabaseName(typeName: string, pluralize: string -> string): (name: string)
    ensures |name| == |pluralize(typeName)|
    ensures Text.IsLower(name)
    ensures forall i :: 0 <= i < |name| ==> name[i] == Text.ToLowerChar(pluralize(typeName)[i])
    ensures Text.IsLower(pluralize(typeName)) ==> name == pluralize(typeName)
  {
    Text.ToLowerInvariant(pluralize(typeName))
  }

  /** The key of a record whose key resolves (Null otherwise, never used). */
  function KeyOf(item: Record, hash: Record -> int): Value {
    match GetKey(item, hash)
    case Ok(k) => k
    case Err(_) => Null
  }

  /** Every record's key resolves: none carries [Identity] twice. */
  ghost predicate KeysResolve(rs: seq<Record>) {
    forall i :: 0 <= i < |rs| ==> !Ambiguous(rs[i].props)
  }

  /** No two records share a key. */
  ghost predicate DistinctKeys(rs: seq<Record>, hash: Record -> int) {
    forall i, j :: 0 <= i < j < |rs| ==> KeyOf(rs[i], hash) != KeyOf(rs[j], hash)
  }

  /** No record's key is already in `acc`. */
  ghost predicate FreshKeys(acc: map<Value, Record>, rs: seq<Record>, hash: Record -> int) {
    forall i :: 0 <= i < |rs| ==> KeyOf(rs[i], hash) !in acc
  }

  /** `m` is `acc` with every record of `rs` added under its key. */
  ghost predicate Adds(acc: map<Value, Record>, rs: seq<Record>, hash: Record -> int, m: map<Value, Record>) {
    && |m| == |acc| + |rs|
    && (forall k :: k in acc ==> k in m && m[k] == acc[k])
    && (forall i :: 0 <= i < |rs| ==> KeyOf(rs[i], hash) in m && m[KeyOf(rs[i], hash)] == rs[i])
    && (forall k :: k in m ==> k in acc || exists i :: 0 <= i < |rs| && KeyOf(rs[i], hash) == k)
  }

  /** `foreach` over `rs`, adding each record to `acc` under its
      `GetKey` key, as the BSON store's Initialize does and as
      ToDictionary(GetKey) does inside; the first unresolvable record or
      repeated key throws. */
  function AddAll(acc: map<Value, Record>, rs: seq<Record>, hash: Record -> int): (r: Result<map<Value, Record>>)
    ensures r.Ok? <==> KeysResolve(rs) && DistinctKeys(rs, hash) && FreshKeys(acc, rs, hash)
    ensures r.Err? ==> r.error == DuplicateKey || r.error == IdentityAttributeMismatch
    ensures r.Ok? ==> Adds(acc, rs, hash, r.value)
    decreases |rs|
  {
    if |rs| == 0 then Ok(acc)
    else
      match GetKey(rs[0], hash)
      case Err(e) => Err(e)
      case Ok(k) =>
        if k in acc then Err(DuplicateKey)
        else
          var r := AddAll(acc[k := rs[0]], rs[1..], hash);
          ResolveStep(rs, hash);
          DistinctStep(acc, rs, hash, k);
          if r.Ok? then AddsCons(acc, rs, hash, k, r.value); r else r
  }

  /** A batch resolves exactly when its first record and its tail do. */
  lemma ResolveStep(rs: seq<Record>, hash: Record -> int)
    requires |rs| > 0 && GetKey(rs[0], hash).Ok?
    ensures KeysResolve(rs) <==> KeysResolve(rs[1..])
  {
    var t := rs[1..];
    if KeysResolve(t) {
      forall i | 0 <= i < |rs| ensures !Ambiguous(rs[i].props) {
        if i > 0 { assert rs[i] == t[i - 1]; }
      }
    }
    if KeysResolve(rs) {
      forall i | 0 <= i < |t| ensures !Ambiguous(t[i].props) {
        assert t[i] == rs[i + 1];
      }
    }
  }

  /** The keys of a batch are distinct and fresh exactly when those of its
      tail are, against the dictionary holding the first record. */
  lemma DistinctStep(acc: map<Value, Record>, rs: seq<Record>, hash: Record -> int, k: Value)
    requires |rs| > 0 && GetKey(rs[0], hash) == Ok(k) && k !in acc
    ensures DistinctKeys(rs, hash) && FreshKeys(acc, rs, hash) <==>
              DistinctKeys(rs[1..], hash) && FreshKeys(acc[k := rs[0]], rs[1..], hash)
  {
    var t := rs[1..];
    if DistinctKeys(t, hash) && FreshKeys(acc[k := rs[0]], t, hash) {
      forall i, j | 0 <= i < j < |rs| ensures KeyOf(rs[i], hash) != KeyOf(rs[j], hash) {
        assert rs[j] == t[j - 1];
        if i == 0 {
          assert KeyOf(t[j - 1], hash) !in acc[k := rs[0]];
        } else {
          assert rs[i] == t[i - 1];
          assert KeyOf(t[i - 1], hash) != KeyOf(t[j - 1], hash);
        }
      }
      forall i | 0 <= i < |rs| ensures KeyOf(rs[i], hash) !in acc {
        if i > 0 {
          assert rs[i] == t[i - 1];
          assert KeyOf(t[i - 1], hash) !in acc[k := rs[0]];
        }
      }
    }
    if DistinctKeys(rs, hash) && FreshKeys(acc, rs, hash) {
      forall i | 0 <= i < |t| ensures KeyOf(t[i], hash) !in acc[k := rs[0]] {
        assert t[i] == rs[i + 1];
        assert KeyOf(rs[0], hash) != KeyOf(rs[i + 1], hash);
      }
      forall i, j | 0 <= i < j < |t| ensures KeyOf(t[i], hash) != KeyOf(t[j], hash) {
        assert t[i] == rs[i + 1] && t[j] == rs[j + 1];
      }
    }
  }

  /** Adding the first record, then the tail, adds the whole batch. */
  lemma AddsCons(acc: map<Value, Record>, rs: seq<Record>, hash: Record -> int, k: Value, m: map<Value, Record>)
    requires |rs| > 0 && GetKey(rs[0], hash) == Ok(k) && k !in acc
    requires Adds(acc[k := rs[0]], rs[1..], hash, m)
    ensures Adds(acc, rs, hash, m)
  {
    var t := rs[1..];
    assert |acc[k := rs[0]]| == |acc| + 1;
    assert KeyOf(rs[0], hash) == k;
    HeldCons(rs, x => KeyOf(x, hash), m);
    CoveredCons(acc, rs, x => KeyOf(x, hash), m);
  }

  /** `m` holds every element of `xs` under its key when it holds the first
      and every element of the tail. */
  lemma HeldCons<K, V>(xs: seq<V>, key: V -> K, m: map<K, V>)
    requires |xs| > 0 && key(xs[0]) in m && m[key(xs[0])] == xs[0]
    requires forall i :: 0 <= i < |xs[1..]| ==> key(xs[1..][i]) in m && m[key(xs[1..][i])] == xs[1..][i]
    ensures forall i :: 0 <= i < |xs| ==> key(xs[i]) in m && m[key(xs[i])] == xs[i]
  {
    forall i | 0 < i < |xs| ensures key(xs[i]) in m && m[key(xs[i])] == xs[i] {
      assert xs[i] == xs[1..][i - 1];
    }
  }

  /** Every key of `m` is in `acc` or is the key of an element of `xs` when
      every key is in `acc` with the first element added, or is the key of
      an element of the tail. */
  lemma CoveredCons<K, V>(acc: map<K, V>, xs: seq<V>, key: V -> K, m: map<K, V>)
    requires |xs| > 0
    requires forall x :: x in m ==>
               x in acc[key(xs[0]) := xs[0]] || exists i :: 0 <= i < |xs[1..]| && key(xs[1..][i]) == x
    ensures forall x :: x in m ==> x in acc || exists i :: 0 <= i < |xs| && key(xs[i]) == x
  {
    forall x | x in m && x !in acc ensures exists i :: 0 <= i < |xs| && key(xs[i]) == x {
      if x != key(xs[0]) {
        var i :| 0 <= i < |xs[1..]| && key(xs[1..][i]) == x;
        assert xs[i + 1] == xs[1..][i];
      }
    }
  }

  /** Every entry of a dictionary sits under its record's own key: what
      ToDictionary(GetKey) builds and what adding under GetKey keeps. */
  ghost predicate KeyedBy(m: map<Value, Record>, hash: Record -> int) {
    forall k :: k in m ==> GetKey(m[k], hash) == Ok(k)
  }

  /** Enumerable.ToDictionary(GetKey): one entry per record, failing when
      two records share a key. */
  function ToDictionary(rs: seq<Record>, hash: Record -> int): (r: Result<map<Value, Record>>)
    ensures r.Ok? <==> KeysResolve(rs) && DistinctKeys(rs, hash)
    ensures r.Ok? ==> |r.value| == |rs|
    ensures r.Ok? ==> forall i :: 0 <= i < |rs| ==>
              KeyOf(rs[i], hash) in r.value && r.value[KeyOf(rs[i], hash)] == rs[i]
    ensures r.Ok? ==> forall k :: k in r.value ==> exists i :: 0 <= i < |rs| && KeyOf(rs[i], hash) == k
    ensures r.Ok? ==> KeyedBy(r.value, hash)
  {
    var r := AddAll(map[], rs, hash);
    if r.Ok? then AddsKeyed(rs, hash, r.value); r else r
  }

  /** A dictionary that holds just the records of a resolvable batch, each
      under its key, is keyed by GetKey. */
  lemma AddsKeyed(rs: seq<Record>, hash: Record -> int, m: map<Value, Record>)
    requires KeysResolve(rs) && Adds(map[], rs, hash, m)
    ensures KeyedBy(m, hash)
  {
    forall k | k in m ensures GetKey(m[k], hash) == Ok(k) {
      var i :| 0 <= i < |rs| && KeyOf(rs[i], hash) == k;
      assert m[k] == rs[i];
    }
  }
  /** Adding a concatenation is adding its first part, then its second. */
  lemma {:induction false} AddAllAppend(acc: map<Value, Record>, a: seq<Record>, b: seq<Record>, hash: Record -> int)
    ensures AddAll(acc, a + b, hash) ==
              match AddAll(acc, a, hash)
              case Ok(m) => AddAll(m, b, hash)
              case Err(e) => Err(e)
    decreases |a|
  {
    if |a| == 0 {
      assert a + b == b;
    } else {
      assert (a + b)[0] == a[0];
      assert (a + b)[1..] == a[1..] + b;
      match GetKey(a[0], hash)
      case Err(_) =>
      case Ok(k) =>
        if k !in acc {
          AddAllAppend(acc[k := a[0]], a[1..], b, hash);
        }
    }
  }

  /** The values of a keyed dictionary are listed each under the key it is
      stored under, which is its own key, and no key twice. */
  lemma ValuesKeyed(m: map<Value, Record>, hash: Record -> int) returns (ks: seq<Value>)
    requires KeyedBy(m, hash)
    ensures |ks| == |Values(m)|
    ensures forall i :: 0 <= i < |ks| ==> KeyOf(Values(m)[i], hash) == ks[i]
    ensures forall i, j :: 0 <= i < j < |ks| ==> ks[i] != ks[j]
    ensures forall k :: k in m ==> k in ks
    ensures forall i :: 0 <= i < |ks| ==> ks[i] in m && Values(m)[i] == m[ks[i]]
  {
    ks := ValuesKeys(m);
    forall i | 0 <= i < |ks| ensures KeyOf(Values(m)[i], hash) == ks[i] {
      assert GetKey(m[ks[i]], hash) == Ok(ks[i]);
    }
  }

  /** Records listed under pairwise distinct keys, each its own, have
      pairwise distinct keys. */
  lemma DistinctByKeys(vs: seq<Record>, ks: seq<Value>, hash: Record -> int)
    requires |ks| == |vs|
    requires forall i :: 0 <= i < |vs| ==> KeyOf(vs[i], hash) == ks[i]
    requires forall i, j :: 0 <= i < j < |ks| ==> ks[i] != ks[j]
    ensures DistinctKeys(vs, hash)
  {
  }

  /** Two records at different positions with the same key: the keys are
      not distinct. */
  lemma SharedKey(rs: seq<Record>, i: nat, j: nat, hash: Record -> int)
    requires i < |rs| && j < |rs| && i != j
    requires KeyOf(rs[i], hash) == KeyOf(rs[j], hash)
    ensures !DistinctKeys(rs, hash)
  {
    if i < j { assert KeyOf(rs[i], hash) == KeyOf(rs[j], hash); }
    else { assert KeyOf(rs[j], hash) == KeyOf(rs[i], hash); }
  }

  /** The records of a keyed dictionary all resolve their keys. */
  lemma KeyedResolves(m: map<Value, Record>, hash: Record -> int)
    requires KeyedBy(m, hash)
    ensures KeysResolve(Values(m))
  {
    var vs := Values(m);
    forall i | 0 <= i < |vs| ensures !Ambiguous(vs[i].props) {
      ValuesContents(m, vs[i]);
      var k :| k in m && m[k] == vs[i];
      assert GetKey(m[k], hash).Ok?;
    }
  }

  /** What a listing of a dictionary's values, each once and under its own
      key, is assumed to be in the two lemmas below. */
  ghost predicate Listing(m: map<Value, Record>, vs: seq<Record>, ks: seq<Value>, hash: Record -> int) {
    && KeysResolve(vs) && DistinctKeys(vs, hash)
    && |ks| == |vs|
    && (forall i :: 0 <= i < |vs| ==> KeyOf(vs[i], hash) == ks[i] && ks[i] in m && vs[i] == m[ks[i]])
    && (forall k :: k in m ==> k in ks)
  }

  /** Indexing a listing introduces no key outside the dictionary. */
  lemma ListingKeysWithin(m: map<Value, Record>, vs: seq<Record>, ks: seq<Value>, hash: Record -> int)
    requires Listing(m, vs, ks, hash)
    ensures ToDictionary(vs, hash).Ok?
    ensures forall k :: k in ToDictionary(vs, hash).value ==> k in m
  {
    var r := ToDictionary(vs, hash).value;
    forall k | k in r ensures k in m {
      var i :| 0 <= i < |vs| && KeyOf(vs[i], hash) == k;
    }
  }

  /** Indexing a listing recovers every entry of the dictionary. */
  lemma ListingCoversEntries(m: map<Value, Record>, vs: seq<Record>, ks: seq<Value>, hash: Record -> int)
    requires Listing(m, vs, ks, hash)
    ensures ToDictionary(vs, hash).Ok?
    ensures forall k :: k in m ==> k in ToDictionary(vs, hash).value && ToDictionary(vs, hash).value[k] == m[k]
  {
    var r := ToDictionary(vs, hash).value;
    forall k | k in m ensures k in r && r[k] == m[k] {
      var i :| 0 <= i < |ks| && ks[i] == k;
      assert KeyOf(vs[i], hash) == k && vs[i] == m[k];
    }
  }

  /** Indexing the values of a keyed dictionary rebuilds that dictionary,
      whichever order the values are enumerated in. */
  lemma ToDictionaryOfValues(m: map<Value, Record>, hash: Record -> int)
    requires KeyedBy(m, hash)
    ensures ToDictionary(Values(m), hash) == Ok(m)
  {
    var ks := ValuesKeyed(m, hash);
    KeyedResolves(m, hash);
    DistinctByKeys(Values(m), ks, hash);
    ListingKeysWithin(m, Values(m), ks, hash);
    ListingCoversEntries(m, Values(m), ks, hash);
    MapsAgree(ToDictionary(Values(m), hash).value, m);
  }
}

=== FILE: Text.dfy ===
/** The System.String operations the library uses on connection strings,
    file names and serialized text: Split, Join, Trim, ToLowerInvariant,
    Replace and EndsWith. Strings are sequences of characters; the unpaired
    surrogates a .NET string can hold are not represented. */
module Text {

  /** Char.IsWhiteSpace, restricted to the Latin-1 range. */
  predicate IsWhiteSpace(c: char) {
    c == ' ' || c == '\t' || c == '\n' || c == '\r' || c == '\U{000B}' || c == '\U{000C}'
    || c == '\U{0085}' || c == '\U{00A0}'
  }

  /** Neither end of `s` is white space, so Trim leaves it alone. */
  predicate Untrimmed(s: string) {
    |s| == 0 || (!IsWhiteSpace(s[0]) && !IsWhiteSpace(s[|s| - 1]))
  }

  /** The number of white-space characters `s` starts with. */
  function LeadingWhite(s: string): (n: nat)
    ensures n <= |s|
    ensures n == |s| || !IsWhiteSpace(s[n])
    ensures forall i :: 0 <= i < n ==> IsWhiteSpace(s[i])
  {
    if |s| > 0 && IsWhiteSpace(s[0]) then
      var n := LeadingWhite(s[1..]);
      assert forall i :: 1 <= i <= n ==> s[i] == s[1..][i - 1];
      n + 1
    else 0
  }

  /** The number of white-space characters `s` ends with. */
  function TrailingWhite(s: string): (n: nat)
    ensures n <= |s|
    ensures n == |s| || !IsWhiteSpace(s[|s| - n - 1])
    ensures forall i :: |s| - n <= i < |s| ==> IsWhiteSpace(s[i])
  {
    if |s| > 0 && IsWhiteSpace(s[|s| - 1]) then
      var n := TrailingWhite(s[..|s| - 1]);
      assert forall i :: |s| - 1 - n <= i < |s| - 1 ==> s[i] == s[..|s| - 1][i];
      n + 1
    else 0
  }

  function TrimStart(s: string): (r: string)
    ensures |r| <= |s| && r == s[|s| - |r|..]
    ensures |r| == 0 || !IsWhiteSpace(r[0])
    ensures forall i :: 0 <= i < |s| - |r| ==> IsWhiteSpace(s[i])
  {
    s[LeadingWhite(s)..]
  }

  function TrimEnd(s: string): (r: string)
    ensures |r| <= |s| && r == s[..|r|]
    ensures |r| == 0 || !IsWhiteSpace(r[|r| - 1])
    ensures forall i :: |r| <= i < |s| ==> IsWhiteSpace(s[i])
  {
    s[..|s| - TrailingWhite(s)]
  }

  /** `r` is the part of `s` starting at `k`, and everything of `s` before
      and after that part is white space. */
  ghost predicate TrimmedAt(s: string, r: string, k: int) {
    0 <= k <= |s| - |r| && r == s[k..k + |r|]
    && (forall i :: 0 <= i < k ==> IsWhiteSpace(s[i]))
    && (forall i :: k + |r| <= i < |s| ==> IsWhiteSpace(s[i]))
  }

  /** String.Trim: strips white space from both ends, and only that. */
  function Trim(s: string): (r: string)
    ensures Untrimmed(r)
    ensures Untrimmed(s) ==> r == s
    ensures exists k :: TrimmedAt(s, r, k)
  {
    var t := TrimStart(s);
    var r := TrimEnd(t);
    assert |r| > 0 ==> r[0] == t[0];
    var k := |s| - |t|;
    assert r == s[k..k + |r|];
    assert forall i :: k + |r| <= i < |s| ==> s[i] == t[i - k];
    assert TrimmedAt(s, r, k);
    r
  }

  predicate IsUpper(c: char) {
    'A' <= c <= 'Z'
  }

  /** Char.ToLowerInvariant on the ASCII letters; other characters are
      returned unchanged. */
  function ToLowerChar(c: char): (r: char)
    ensures !IsUpper(r)
    ensures !IsUpper(c) ==> r == c
  {
    if IsUpper(c) then (c as int + 32) as char else c
  }

  /** No ASCII capital letter occurs in `s`. */
  predicate IsLower(s: string) {
    forall i :: 0 <= i < |s| ==> !IsUpper(s[i])
  }

  /** String.ToLowerInvariant, character by character. */
  function ToLowerInvariant(s: string): (r: string)
    ensures |r| == |s| && IsLower(r)
    ensures IsLower(s) ==> r == s
    ensures forall i :: 0 <= i < |s| ==> r[i] == ToLowerChar(s[i])
  {
    seq(|s|, i requires 0 <= i < |s| => ToLowerChar(s[i]))
  }

  /** Number of occurrences of character `c` in `s`. */
  function Count(s: string, c: char): nat {
    if |s| == 0 then 0 else (if s[0] == c then 1 else 0) + Count(s[1..], c)
  }

  lemma {:induction false} CountAppend(a: string, b: string, c: char)
    ensures Count(a + b, c) == Count(a, c) + Count(b, c)
    decreases |a|
  {
    if |a| == 0 {
      assert a + b == b;
    } else {
      assert (a + b)[1..] == a[1..] + b;
      CountAppend(a[1..], b, c);
    }
  }

  lemma {:induction false} CountAbsent(s: string, c: char)
    requires c !in s
    ensures Count(s, c) == 0
    decreases |s|
  {
    if |s| > 0 {
      assert forall k :: 0 <= k < |s[1..]| ==> s[1..][k] == s[k + 1];
      CountAbsent(s[1..], c);
    }
  }

  /** String.IndexOf(c) for a character known to occur. */
  function FirstIndex(s: string, c: char): (i: nat)
    requires c in s
    ensures i < |s| && s[i] == c && c !in s[..i]
  {
    if s[0] == c then 0
    else
      assert c in s[1..] by {
        var k :| 0 <= k < |s| && s[k] == c;
        assert s[1..][k - 1] == c;
      }
      var j := FirstIndex(s[1..], c);
      assert s[..j + 1] == [s[0]] + s[1..][..j];
      j + 1
  }

  /** String.Split(c): the maximal c-free pieces between occurrences of c,
      empty pieces included, so there is always at least one. */
  function Split(s: string, c: char): (r: seq<string>)
    ensures |r| >= 1
    ensures forall i :: 0 <= i < |r| ==> c !in r[i]
    ensures c !in s ==> r == [s]
    decreases |s|
  {
    if c !in s then [s]
    else
      var i := FirstIndex(s, c);
      [s[..i]] + Split(s[i + 1..], c)
  }

  /** String.Join(c, parts). */
  function Join(parts: seq<string>, c: char): string {
    if |parts| == 0 then ""
    else if |parts| == 1 then parts[0]
    else parts[0] + [c] + Join(parts[1..], c)
  }

  /** A string is its part before `i`, its character at `i`, and the rest. */
  lemma Around(s: string, i: nat)
    requires i < |s|
    ensures s == s[..i] + [s[i]] + s[i + 1..]
  {
  }

  /** Joining a piece in front of at least one more. */
  lemma JoinCons(a: string, rest: seq<string>, c: char)
    requires |rest| >= 1
    ensures Join([a] + rest, c) == a + [c] + Join(rest, c)
  {
    assert ([a] + rest)[1..] == rest;
  }

  /** Joining the pieces of a split gives back the original string. */
  lemma {:induction false} JoinSplit(s: string, c: char)
    ensures Join(Split(s, c), c) == s
    decreases |s|
  {
    if c in s {
      var i := FirstIndex(s, c);
      var tail := s[i + 1..];
      JoinSplit(tail, c);
      JoinCons(s[..i], Split(tail, c), c);
      Around(s, i);
    }
  }

  /** The only occurrence of `c` in `a + [c] + b` within the first |a| + 1
      characters is the separator itself, when `a` is free of it. */
  lemma FirstIndexAfter(a: string, b: string, c: char)
    requires c !in a
    ensures c in a + [c] + b && FirstIndex(a + [c] + b, c) == |a|
  {
    var s := a + [c] + b;
    assert s[|a|] == c;
    var i := FirstIndex(s, c);
  }

  /** Splitting at the first separator: a c-free head becomes the first
      piece. */
  lemma SplitCons(a: string, b: string, c: char)
    requires c !in a
    ensures Split(a + [c] + b, c) == [a] + Split(b, c)
  {
    var s := a + [c] + b;
    FirstIndexAfter(a, b, c);
    assert s[..|a|] == a;
    assert s[|a| + 1..] == b;
  }

  /** Splitting a join of c-free pieces gives back the pieces. */
  lemma {:induction false} SplitJoin(parts: seq<string>, c: char)
    requires |parts| >= 1
    requires forall i :: 0 <= i < |parts| ==> c !in parts[i]
    ensures Split(Join(parts, c), c) == parts
    decreases |parts|
  {
    if |parts| > 1 {
      var rest := parts[1..];
      assert forall i :: 0 <= i < |rest| ==> rest[i] == parts[i + 1];
      SplitJoin(rest, c);
      SplitCons(parts[0], Join(rest, c), c);
      assert parts == [parts[0]] + rest;
    }
  }

  /** Joining n c-free pieces writes exactly n - 1 separators. */
  lemma {:induction false} JoinCount(parts: seq<string>, c: char)
    requires |parts| >= 1
    requires forall i :: 0 <= i < |parts| ==> c !in parts[i]
    ensures Count(Join(parts, c), c) == |parts| - 1
    decreases |parts|
  {
    CountAbsent(parts[0], c);
    if |parts| > 1 {
      JoinCount(parts[1..], c);
      CountAppend(parts[0], [c], c);
      CountAppend(parts[0] + [c], Join(parts[1..], c), c);
    }
  }
  /** String.EndsWith(suffix) under ordinal comparison. */
  predicate EndsWith(s: string, suffix: string) {
    |suffix| <= |s| && s[|s| - |suffix|..] == suffix
  }

  /** `pat` occurs in `s` starting at position `i`. */
  predicate OccursAt(s: string, pat: string, i: int) {
    0 <= i && i + |pat| <= |s| && s[i..i + |pat|] == pat
  }

  /** String.Replace(pat, rep): scans left to right and replaces each
      non-overlapping occurrence of `pat`; an empty `pat` is refused by
      .NET with an ArgumentException and is excluded here. */
  function Replace(s: string, pat: string, rep: string): (r: string)
    requires |pat| > 0
    ensures pat[0] !in s ==> r == s
    decreases |s|
  {
    if |s| == 0 then ""
    else if OccursAt(s, pat, 0) then rep + Replace(s[|pat|..], pat, rep)
    else
      assert pat[0] !in s ==> pat[0] !in s[1..];
      [s[0]] + Replace(s[1..], pat, rep)
  }

  /** A first character that cannot start the pattern is copied through. */
  lemma ReplaceCopies(s: string, pat: string, rep: string)
    requires |pat| > 0 && |s| > 0 && s[0] != pat[0]
    ensures Replace(s, pat, rep) == [s[0]] + Replace(s[1..], pat, rep)
  {
    if |pat| <= |s| { assert s[0..|pat|][0] == s[0]; }
  }

  /** A prefix free of the pattern's first character is copied through. */
  lemma {:induction false} ReplaceSkips(a: string, b: string, pat: string, rep: string)
    requires |pat| > 0 && pat[0] !in a
    ensures Replace(a + b, pat, rep) == a + Replace(b, pat, rep)
    decreases |a|
  {
    if |a| == 0 {
      assert a + b == b;
    } else {
      assert pat[0] !in a[1..];
      ReplaceSkips(a[1..], b, pat, rep);
      HeadTail(a, b);
      ReplaceCopies(a + b, pat, rep);
      HeadTail(a, Replace(b, pat, rep));
    }
  }

  /** A non-empty string in front of another: the head and the tail of the
      concatenation. */
  lemma HeadTail(a: string, x: string)
    requires |a| > 0
    ensures (a + x)[0] == a[0] && (a + x)[1..] == a[1..] + x
    ensures a + x == [a[0]] + (a[1..] + x)
  {
    assert a == [a[0]] + a[1..];
  }

  /** An occurrence at the very start is replaced. */
  lemma ReplaceHead(b: string, pat: string, rep: string)
    requires |pat| > 0
    ensures Replace(pat + b, pat, rep) == rep + Replace(b, pat, rep)
  {
    var s := pat + b;
    assert s[0..|pat|] == pat;
    assert s[|pat|..] == b;
  }
}
